=== FILE: README.md ===
# Alpha Bank back end: the money-movement engine in Dafny

This project models the core of a Spring banking back end:

- the three operations that move money: an administrator's deposit, an owner's withdrawal, and a transfer between two accounts;
- the account and registration services that open accounts and report on them;
- the ledger queries and the access rules around them;
- the validators, generators and formatters those services use.

The store is one immutable value, `Domain.Bank`. It holds the users, the accounts in creation order, and the append-only ledger of transaction rows. Every operation is a pure function. It either returns the new store together with its receipt, or it returns a `Failure` and no store at all, so a failed operation cannot change anything. A failure is the Java exception class that the service throws (`Kind`) plus the guard that threw it (`Reason`).

Money is a whole number of cents (`Cents`). Each of the following is an input to the functions rather than something they compute:

- the password encoder and its `matches` comparison;
- the clock reading;
- the random UUIDs behind the reference numbers;
- the random values behind account numbers and customer ids;
- the successive outputs of the account-number generator.

`Domain.Valid` is the consistency of the store:

- users and ledger rows are numbered 1, 2, 3, ...;
- every account belongs to a stored user;
- account numbers are unique, and so are ledger references;
- no balance is negative;
- every row names a stored account;
- the newest row of each account records that account's current balance.

Module `Invariants` proves that every committed deposit, withdrawal, transfer, registration and account opening keeps `Valid`. It also proves that each one changes the bank's total balance by exactly the amount moved in or out, and that a transfer leaves the total unchanged.

Some behaviours of the code are surprising, and the model keeps them as they are:

- **Transfer legs are not linked.** Each row's `transferReference` holds one of two pre-generated values, and each row's own reference is drawn separately, so neither row points at the other (`TransferService.Settle`).
- **Deposits have no ownership check.** A deposit checks only that the account exists and is active.
- **Withdrawal failures share one exception.** A missing account, a foreign account and an inactive account all raise the insufficient-funds exception, and so does a missing account in a deposit.
- **The withdrawal reserve is fixed.** The code hard-codes a KES 10.00 reserve (`WithdrawalService.MinimumBalance`).
- **Transfer request errors use two exceptions.** A blank account number, a non-positive amount or the same account twice raises the invalid-account exception. A blank PIN is rejected in the same early check, with the invalid-PIN exception.
- **Filters are applied only in some combinations.** A history query applies its filters only for the combinations its dispatchers list and returns unfiltered rows otherwise (`TransactionHistory.AccountDispatch`, `TransactionHistory.AdminDispatch`). The user history has no administrator bypass.
- **The transaction-type enum does not match its use.** The enum file declares only `TRANSFER_OUT` and `TRANSFER_IN`, while the services write `DEPOSIT`, `WITHDRAW` and `TRANSFER`. The model uses the services' constants.
- **The account-type validator does not match the enum.** `AccountValidator` accepts "SAVINGS" and "CURRENT", but the `AccountType` enum is `SAVINGS`/`CHECKING` (`AccountValidator.TypeNamesAgainstEnum`).
- **Some repository methods are undeclared.** Several methods the history service calls are not declared in `TransactionRepository`, and the account repository file is commented out. Where a missing method has a derived-query name, its semantics are read from that name. The system-balance report's three calls have no such name; they are read from the commented-out `getTotalActiveBalance` query, as a sum and counts over the active accounts. Both date bounds and both amount bounds are inclusive.

## Model

| member | source | states |
|---|---|---|
| Domain.IndexOf | src/main/java/com/mackena/Banking_Application_backend/service/impl/AccountServiceImpl.java:181-186 | the lookup by number yields the first account carrying that number, and nothing exactly when no account carries it |
| Domain.IndexOfStored | src/main/java/com/mackena/Banking_Application_backend/models/entity/Account.java:39-40 | with unique account numbers the lookup finds every stored account at its own position |
| Domain.Select | src/main/java/com/mackena/Banking_Application_backend/service/impl/AccountServiceImpl.java:196-213 | a derived query keeps every account that satisfies its condition and no other |
| Domain.SelectMultiset | src/main/java/com/mackena/Banking_Application_backend/service/impl/AccountServiceImpl.java:196-213 | a derived query keeps every copy of each account that satisfies its condition and no copy of any other |
| Domain.CountSelect | src/main/java/com/mackena/Banking_Application_backend/service/impl/AccountServiceImpl.java:222-226 | a selection holds as many accounts as satisfy the condition when counted one by one |
| Domain.SumSelect | src/main/java/com/mackena/Banking_Application_backend/service/impl/AccountServiceImpl.java:42-60 | totalling the selected accounts equals totalling the balances that satisfy the condition in place |
| Domain.SumReverse | src/main/java/com/mackena/Banking_Application_backend/service/impl/AccountServiceImpl.java:42-60 | listing accounts newest first does not change their total |
| Domain.SumSetBalance | src/main/java/com/mackena/Banking_Application_backend/service/impl/TransferServiceImpl.java:231-240 | setting one account's balance moves the total by the difference |
| Domain.UserIndexByEmail | src/main/java/com/mackena/Banking_Application_backend/service/impl/AccountServiceImpl.java:105-107 | the user lookup by e-mail finds the first user with that address, and nothing exactly when none has it |
| Domain.LatestRow | src/main/java/com/mackena/Banking_Application_backend/models/entity/Transaction.java:62-67 | the row whose balance the account must agree with is a stored row of that account, and there is none exactly when the account has no row |
| Invariants.LatestRowAppend | src/main/java/com/mackena/Banking_Application_backend/models/entity/Transaction.java:62-67 | an appended row becomes the newest row of its account and leaves the other accounts' newest rows alone |
| Invariants.MovedBySum | src/main/java/com/mackena/Banking_Application_backend/service/impl/DepositServiceImpl.java:43-44 | changing one balance by a delta changes the bank's total by that delta |
| Invariants.TransferredSum | src/main/java/com/mackena/Banking_Application_backend/service/impl/TransferServiceImpl.java:71-72 | debiting one account and crediting another by the same amount leaves the total unchanged |
| Invariants.AppendRefKeepsDistinct | src/main/java/com/mackena/Banking_Application_backend/models/entity/Transaction.java:52 | a row with an unused reference keeps the reference column unique |
| Invariants.AppendRowKeepsValid | src/main/java/com/mackena/Banking_Application_backend/service/impl/DepositServiceImpl.java:43-48 | one balance update plus the row recording it keeps the store consistent |
| Invariants.AppendAccountKeepsValid | src/main/java/com/mackena/Banking_Application_backend/service/impl/UserServiceImpl.java:163-173 | a new account with an unused number, a stored owner and a non-negative balance keeps the store consistent |
| Invariants.PostRowKeepsValid | src/main/java/com/mackena/Banking_Application_backend/service/impl/TransferServiceImpl.java:71-80 | one leg of a transfer (new balance, row with that balance after it) keeps the store consistent |
| Invariants.TwoLegsKeepValid | src/main/java/com/mackena/Banking_Application_backend/service/impl/TransferServiceImpl.java:63-84 | the debit leg followed by the credit leg keeps the store consistent when the sender covers the amount |
| Invariants.SettleKeepsValid | src/main/java/com/mackena/Banking_Application_backend/service/impl/TransferServiceImpl.java:63-84 | settling a covered transfer with two fresh, distinct row references keeps the store consistent and the total unchanged |
| Invariants.DepositKeepsValid | src/main/java/com/mackena/Banking_Application_backend/service/impl/DepositServiceImpl.java:31-70 | a committed deposit keeps the store consistent and raises the bank's total by exactly the deposit |
| Invariants.WithdrawalKeepsValid | src/main/java/com/mackena/Banking_Application_backend/service/impl/WithdrawalServiceImpl.java:37-78 | a committed withdrawal keeps the store consistent and lowers the bank's total by exactly the withdrawal |
| Invariants.TransferKeepsValid | src/main/java/com/mackena/Banking_Application_backend/service/impl/TransferServiceImpl.java:38-99 | a committed transfer keeps the store consistent and conserves the bank's total |
| Invariants.RegistrationKeepsValid | src/main/java/com/mackena/Banking_Application_backend/service/impl/UserServiceImpl.java:42-67 | a registration keeps the store consistent and adds exactly the initial deposit to the total |
| Invariants.OpeningKeepsValid | src/main/java/com/mackena/Banking_Application_backend/service/impl/AccountServiceImpl.java:96-147 | opening an account keeps the store consistent and adds exactly its initial deposit, or nothing, to the total |
| Invariants.RefInUseAppend | src/main/java/com/mackena/Banking_Application_backend/models/entity/Transaction.java:52 | after an append a reference is taken exactly when it was taken before or is the new row's |
| References.Reference | src/main/java/com/mackena/Banking_Application_backend/service/impl/TransferServiceImpl.java:242-244 | a reference is the prefix and twelve upper-case hex digits, which read back in lower case as the UUID's first twelve |
| References.PrefixesSeparate | src/main/java/com/mackena/Banking_Application_backend/service/impl/DepositServiceImpl.java:99-101 | references under different prefixes of equal length never collide |
| References.ReferenceSameIff | src/main/java/com/mackena/Banking_Application_backend/service/impl/WithdrawalServiceImpl.java:130-132 | two UUIDs give the same reference exactly when their first twelve hex digits agree |
| TransferService.CheckRequest | src/main/java/com/mackena/Banking_Application_backend/service/impl/TransferServiceImpl.java:101-126 | blank sender, blank receiver, non-positive or missing amount, blank PIN, and the same account (trimmed, ignoring case) are rejected in that order, and the request passes exactly when none applies |
| TransferService.AcceptedKeysDiffer | src/main/java/com/mackena/Banking_Application_backend/service/impl/TransferServiceImpl.java:101-126 | an accepted request names two different trimmed account numbers |
| TransferService.Settle | src/main/java/com/mackena/Banking_Application_backend/service/impl/TransferServiceImpl.java:63-84 | the sender loses and the receiver gains exactly the amount with every other account unchanged, and a debit row then a credit row are appended with their fields, new balances and cross references as coded |
| TransferService.Commit | src/main/java/com/mackena/Banking_Application_backend/service/impl/TransferServiceImpl.java:79-98 | the rows are stored exactly when both references are new and distinct (else a data-integrity failure), and the receipt echoes the request with the sender's new balance and the debit-side reference |
| TransferService.TransferMoney | src/main/java/com/mackena/Banking_Application_backend/service/impl/TransferServiceImpl.java:38-99 | the guards fire in order (shape, sender existence, ownership unless administrator, sender activity, receiver existence and activity, stored PIN, PIN match, funds) each with its own failure, success holds exactly when all pass, and a success settles the transfer leaving the sender non-negative |
| DepositService.ProcessDeposit | src/main/java/com/mackena/Banking_Application_backend/service/impl/DepositServiceImpl.java:31-70 | a missing or inactive account fails with the insufficient-funds kind; otherwise exactly that balance rises by the amount and one DEPOSIT/CREDIT row with the new balance and the fresh reference "DEP" plus the UUID's first twelve hex digits is appended; the receipt echoes the reference, account, amount, notes and source, with the new balance and the clock reading |
| WithdrawalService.ProcessWithdrawal | src/main/java/com/mackena/Banking_Application_backend/service/impl/WithdrawalServiceImpl.java:37-78 | existence, ownership, activity, stored PIN, PIN match, funds and reserve are checked in that order, each with its own exception kind and reason (the last two both raise the insufficient-funds exception), and a reference already in the ledger gives a runtime failure; success holds exactly when the balance after stays at or above KES 10.00, moves only that balance down by the amount and appends one WITHDRAW/DEBIT row with the fresh reference "WTH" plus the UUID's first twelve hex digits; the receipt echoes the reference, account, amount and notes, with the new balance and the clock reading |
| AccountService.GetUserAccounts | src/main/java/com/mackena/Banking_Application_backend/service/impl/AccountServiceImpl.java:42-60 | the listing is exactly the user's active accounts newest first, with their count and the sum of their balances |
| AccountService.ReverseReverse | src/main/java/com/mackena/Banking_Application_backend/service/impl/AccountServiceImpl.java:42-60 | listing newest first is undone by reversing again, so nothing is lost |
| AccountService.FindAccount | src/main/java/com/mackena/Banking_Application_backend/service/impl/AccountServiceImpl.java:181-186 | a stored account with the number is found exactly when one exists; otherwise AccountNotFound |
| AccountService.CheckOwnership | src/main/java/com/mackena/Banking_Application_backend/service/impl/AccountServiceImpl.java:188-194 | ownership passes exactly for the owner and fails with AccountAccessDenied otherwise |
| AccountService.GetAccountByNumber | src/main/java/com/mackena/Banking_Application_backend/service/impl/AccountServiceImpl.java:63-72 | the account is returned exactly when it exists and the caller owns it or is an administrator; missing gives AccountNotFound, foreign gives AccountAccessDenied |
| AccountService.GetAccountsByUser | src/main/java/com/mackena/Banking_Application_backend/service/impl/AccountServiceImpl.java:196-200 | the result holds the user's active accounts, each drawn from the store, with every copy the store holds and nothing else |
| AccountService.FindAccountsWithBalanceBelow | src/main/java/com/mackena/Banking_Application_backend/service/impl/AccountServiceImpl.java:209-213 | the result holds the store's active accounts with a balance strictly below the threshold, every copy of them and nothing else |
| AccountService.GetLowBalanceAccounts | src/main/java/com/mackena/Banking_Application_backend/service/impl/AccountServiceImpl.java:74-94 | the report lists the store's low active accounts (as a bag, exactly those), its count is the list's length, its total is the sum of the listed balances and equals the low balances totalled in place, and that total is below threshold times count |
| AccountService.SumBelow | src/main/java/com/mackena/Banking_Application_backend/service/impl/AccountServiceImpl.java:74-94 | balances all below a threshold sum to less than threshold times their number |
| AccountService.FirstExactScale | src/main/java/com/mackena/Banking_Application_backend/service/impl/AccountServiceImpl.java:167-169 | the search returns the least scale in range at which the division is exact, or reports that none in range is |
| AccountService.ExactDivide | src/main/java/com/mackena/Banking_Application_backend/service/impl/AccountServiceImpl.java:167-169 | an exact quotient times the divisor gives back the total at the least scale that works, an even division stays at scale 2, and failure means no scale up to the divisor works |
| AccountService.GetTotalSystemBalance | src/main/java/com/mackena/Banking_Application_backend/service/impl/AccountServiceImpl.java:161-178 | the report carries the active-account count and the distinct-owner count, each cast to a 32-bit `int`, the total is absent exactly when there are no active accounts, and the average times the count gives the total at the least scale that holds it (zero average when there are none); a total the count divides gives an average at scale 2 and never fails, and a failure happens only when no scale up to the count holds the quotient |
| AccountService.GetActiveAccountCount | src/main/java/com/mackena/Banking_Application_backend/service/impl/AccountServiceImpl.java:216-226 | the active count equals the number of active accounts counted one by one, is at most the total count, and equals it exactly when every account is active |
| AccountService.CountAllIffEvery | src/main/java/com/mackena/Banking_Application_backend/service/impl/AccountServiceImpl.java:216-226 | counting active accounts gives the number of all accounts exactly when all are active |
| AccountService.OwnerOf | src/main/java/com/mackena/Banking_Application_backend/service/impl/AccountServiceImpl.java:228-237 | the owner found is the stored user with the account's owner id, and none is found exactly when no such user exists |
| AccountService.SearchAccounts | src/main/java/com/mackena/Banking_Application_backend/service/impl/AccountServiceImpl.java:228-237 | the result holds exactly the accounts whose number or owner's names or e-mail contain the query, ignoring case |
| AccountService.FirstFree | src/main/java/com/mackena/Banking_Application_backend/service/impl/AccountServiceImpl.java:149-156 | the generate-until-unused loop stops at the first candidate not in the store, having skipped only stored ones |
| AccountService.CreateAccountForUser | src/main/java/com/mackena/Banking_Application_backend/service/impl/AccountServiceImpl.java:96-147 | PIN mismatch is rejected before the user lookup, an unknown user and a second active account of one type are rejected, and success appends one active account owned by the user with a new number, the encoded PIN and the initial deposit or zero |
| UserService.RegisterUser | src/main/java/com/mackena/Banking_Application_backend/service/impl/UserServiceImpl.java:42-67 | PIN mismatch, then a taken e-mail, then a taken phone are rejected; success adds an enabled USER with the next id and one active account of the requested type with a new number, the initial deposit and the encoded PIN |
| UserService.ValidRequestPassesPinCheck | src/main/java/com/mackena/Banking_Application_backend/service/impl/UserServiceImpl.java:130-134 | a request that passed its constraints can only fail registration on uniqueness |
| UserService.RegisteredUserHasOneAccount | src/main/java/com/mackena/Banking_Application_backend/service/impl/UserServiceImpl.java:57-60 | the new user owned no account before and owns exactly the new one after |
| TransactionRepository.Where | src/main/java/com/mackena/Banking_Application_backend/repository/TransactionRepository.java:25-40 | a selection holds each row as often as the ledger does when it is in scope and passes every present bound, and no other row |
| TransactionRepository.Insert | src/main/java/com/mackena/Banking_Application_backend/repository/TransactionRepository.java:22 | inserting adds exactly one copy of the row |
| TransactionRepository.InsertDescending | src/main/java/com/mackena/Banking_Application_backend/repository/TransactionRepository.java:22 | inserting into a newest-first sequence keeps it newest first |
| TransactionRepository.SortBy | src/main/java/com/mackena/Banking_Application_backend/repository/TransactionRepository.java:22 | the ordering is a permutation that is newest first |
| TransactionRepository.Find | src/main/java/com/mackena/Banking_Application_backend/repository/TransactionRepository.java:25-40 | a query's result is newest first and holds exactly the selected rows |
| TransactionRepository.FindByAccount | src/main/java/com/mackena/Banking_Application_backend/repository/TransactionRepository.java:22 | the account's history holds every row of the account and no other, newest first |
| TransactionRepository.FindWithFilters | src/main/java/com/mackena/Banking_Application_backend/repository/TransactionRepository.java:25-40 | the filtered history holds exactly the account's rows that pass every non-null bound, newest first |
| TransactionRepository.CountInDateRange | src/main/java/com/mackena/Banking_Application_backend/repository/TransactionRepository.java:49-54 | the count is at most the ledger size, and zero for a range that ends before it starts |
| TransactionRepository.FindByReference | src/main/java/com/mackena/Banking_Application_backend/repository/TransactionRepository.java:43 | a found row carries the reference, and nothing is found exactly when no row does |
| TransactionRepository.FindById | src/main/java/com/mackena/Banking_Application_backend/service/impl/TransactionHistoryServiceImpl.java:68-69 | a found row carries the id, and nothing is found exactly when no row does |
| TransactionRepository.TighterSelectsFewer | src/main/java/com/mackena/Banking_Application_backend/repository/TransactionRepository.java:25-40 | adding bounds never lets a row in, so the result can only shrink |
| TransactionRepository.FiltersNarrowHistory | src/main/java/com/mackena/Banking_Application_backend/repository/TransactionRepository.java:25-40 | every filtered history is part of the unfiltered one, and with no bound it is all of it |
| TransactionRepository.CountIsDateSelection | src/main/java/com/mackena/Banking_Application_backend/repository/TransactionRepository.java:49-54 | the count query counts exactly the rows the date-only filter returns |
| TransactionRepository.CountIsDateWhere | src/main/java/com/mackena/Banking_Application_backend/repository/TransactionRepository.java:49-54 | counting row by row agrees with the date-only selection |
| TransactionRepository.ReferenceNamesOneRow | src/main/java/com/mackena/Banking_Application_backend/models/entity/Transaction.java:52 | with unique references, looking up a stored row's reference returns that very row |
| TransactionHistory.TypeNamed | src/main/java/com/mackena/Banking_Application_backend/service/impl/TransactionHistoryServiceImpl.java:192 | a text names a transaction type exactly when it is that constant's name |
| TransactionHistory.DirectionNamed | src/main/java/com/mackena/Banking_Application_backend/service/impl/TransactionHistoryServiceImpl.java:204 | a text names a direction exactly when it is that constant's name |
| TransactionHistory.ParseType | src/main/java/com/mackena/Banking_Application_backend/service/impl/TransactionHistoryServiceImpl.java:187-197 | null or blank gives no filter, otherwise a type exactly when the upper-cased, trimmed text is its name |
| TransactionHistory.ParseDirection | src/main/java/com/mackena/Banking_Application_backend/service/impl/TransactionHistoryServiceImpl.java:199-209 | null or blank gives no filter, otherwise a direction exactly when the upper-cased, trimmed text is its name |
| TransactionHistory.NormalisedText | src/main/java/com/mackena/Banking_Application_backend/service/impl/TransactionHistoryServiceImpl.java:188-192 | normalising an already trimmed, upper-cased text changes nothing, and it is blank exactly when the original is |
| TransactionHistory.ParseNormalises | src/main/java/com/mackena/Banking_Application_backend/service/impl/TransactionHistoryServiceImpl.java:187-209 | parsing a text gives the same result as parsing its trimmed, upper-cased form |
| TransactionHistory.NamesParse | src/main/java/com/mackena/Banking_Application_backend/service/impl/TransactionHistoryServiceImpl.java:187-209 | every constant's own name parses back to that constant |
| TransactionHistory.AccountDispatch | src/main/java/com/mackena/Banking_Application_backend/service/impl/TransactionHistoryServiceImpl.java:244-283 | for the combinations none, one filter, or date with type, the chosen query passes every switched-on bound, and for any other it passes none |
| TransactionHistory.AdminDispatch | src/main/java/com/mackena/Banking_Application_backend/service/impl/TransactionHistoryServiceImpl.java:121-170 | for none, one filter, or any pair without the amount range, the chosen query passes every switched-on bound, and otherwise none |
| TransactionHistory.AccountFilter | src/main/java/com/mackena/Banking_Application_backend/service/impl/TransactionHistoryServiceImpl.java:233-290 | a request's bounds are applied in full when the account dispatcher knows the combination and not at all otherwise |
| TransactionHistory.AdminFilter | src/main/java/com/mackena/Banking_Application_backend/service/impl/TransactionHistoryServiceImpl.java:108-185 | a request's bounds are applied in full when the administrator's dispatcher knows the combination and not at all otherwise |
| TransactionHistory.AccountTransactions | src/main/java/com/mackena/Banking_Application_backend/service/impl/TransactionHistoryServiceImpl.java:212-230 | the account's history is newest first and holds exactly the account's rows that pass the request's bounds, or all of them for an unknown combination |
| TransactionHistory.AdminTransactions | src/main/java/com/mackena/Banking_Application_backend/service/impl/TransactionHistoryServiceImpl.java:108-185 | the administrator's listing is newest first and holds exactly the rows passing the bounds, or the whole ledger for an unknown combination |
| TransactionHistory.HonouredCombinations | src/main/java/com/mackena/Banking_Application_backend/service/impl/TransactionHistoryServiceImpl.java:121-170 | the administrator's dispatcher honours every combination the user's does plus date-with-direction and type-with-direction, and neither honours an amount pair or any triple |
| TransactionHistory.RowOwner | src/main/java/com/mackena/Banking_Application_backend/service/impl/TransactionHistoryServiceImpl.java:296-299 | a row's owner is the owner of a stored account with the row's number, and is unknown exactly when no account has that number |
| TransactionHistory.FirstOwned | src/main/java/com/mackena/Banking_Application_backend/service/impl/TransactionHistoryServiceImpl.java:44-47 | the detected account is the caller's first in store order, and none exactly when the caller has none |
| TransactionHistory.GetTransactionHistory | src/main/java/com/mackena/Banking_Application_backend/service/impl/TransactionHistoryServiceImpl.java:36-64 | without a number the caller's first account is used (failing if none); with one it must exist and be the caller's, with no administrator bypass; the result is that account's history |
| TransactionHistory.AccountRowsBelong | src/main/java/com/mackena/Banking_Application_backend/service/impl/TransactionHistoryServiceImpl.java:244-283 | every row of an account's history is a stored row of that account |
| TransactionHistory.HistoryIsOwn | src/main/java/com/mackena/Banking_Application_backend/service/impl/TransactionHistoryServiceImpl.java:36-64 | a user's history only holds stored rows of accounts the user owns |
| TransactionHistory.ToDetail | src/main/java/com/mackena/Banking_Application_backend/service/impl/TransactionHistoryServiceImpl.java:318-332 | the response record copies the row's id, references, amounts, date and account number and describes its direction and status |
| TransactionHistory.DetailDeterminesRow | src/main/java/com/mackena/Banking_Application_backend/service/impl/TransactionHistoryServiceImpl.java:318-332 | two rows with the same response record are the same row |
| TransactionHistory.GetTransactionById | src/main/java/com/mackena/Banking_Application_backend/service/impl/TransactionHistoryServiceImpl.java:66-77 | a row is returned exactly when it exists and the caller owns its account or is an administrator; both failures are plain runtime failures |
| TransactionHistory.GetTransactionByReference | src/main/java/com/mackena/Banking_Application_backend/service/impl/TransactionHistoryServiceImpl.java:79-90 | a row is returned exactly when its reference is stored and the caller may see it; both failures are plain runtime failures |
| TransactionHistory.ReferenceLookupIsOwnerOnly | src/main/java/com/mackena/Banking_Application_backend/service/impl/TransactionHistoryServiceImpl.java:79-90 | a non-administrator reads a stored row by reference exactly when its account is theirs, and gets that row's record |
| Domain.ToInt32 | src/main/java/com/mackena/Banking_Application_backend/service/impl/TransactionHistoryServiceImpl.java:312 | the cast yields the 32-bit value congruent to the count, and the count itself when it fits |
| TransactionHistory.BuildResponse | src/main/java/com/mackena/Banking_Application_backend/service/impl/TransactionHistoryServiceImpl.java:301-316 | the response has one record per row in page order and copies the page counters |
| TransactionHistory.ResponseDeterminesPage | src/main/java/com/mackena/Banking_Application_backend/service/impl/TransactionHistoryServiceImpl.java:301-316 | two pages with the same response records hold the same rows |
| PinValidator.IsSequential | src/main/java/com/mackena/Banking_Application_backend/util/validator/PinValidator.java:33-42 | the scan answers yes exactly when every adjacent pair of digits differs by one |
| PinValidator.IsPinSecure | src/main/java/com/mackena/Banking_Application_backend/util/validator/PinValidator.java:16-31 | a PIN is secure exactly when it is four digits, not listed and not sequential, so secure implies valid |
| PinValidator.BlacklistNeverSecure | src/main/java/com/mackena/Banking_Application_backend/util/validator/PinValidator.java:20-23 | no listed PIN is secure, and all but "1234" are listed without being sequential |
| PinValidator.SequentialExamples | src/main/java/com/mackena/Banking_Application_backend/util/validator/PinValidator.java:26-28 | "2345", "9876" and "1212" are not secure |
| PinValidator.SecureExamples | src/main/java/com/mackena/Banking_Application_backend/util/validator/PinValidator.java:30 | "5555" and "1357" are secure |
| PinValidator.MalformedExamples | src/main/java/com/mackena/Banking_Application_backend/util/validator/PinValidator.java:10-17 | "123", "12a4" and a null PIN are not secure |
| PinValidator.SequentialEnds | src/main/java/com/mackena/Banking_Application_backend/util/validator/PinValidator.java:33-42 | a sequential four-digit PIN's first and last digits differ by one or three |
| AccountValidator.TypeNamesAgainstEnum | src/main/java/com/mackena/Banking_Application_backend/util/validator/AccountValidator.java:22-25 | of the enum's names only SAVINGS passes, and "CURRENT" names no constant |
| AccountValidator.AmountEdges | src/main/java/com/mackena/Banking_Application_backend/util/validator/AccountValidator.java:17-20 | zero and null fail, one cent and exactly one million pass, one cent more fails |
| AccountValidator.ValidNumberValue | src/main/java/com/mackena/Banking_Application_backend/util/validator/AccountValidator.java:11-15 | a valid number is "ACC" plus twelve digits reading below 10^12 |
| AccountNumberGenerator.GenerateAccountNumber | src/main/java/com/mackena/Banking_Application_backend/util/generator/AccountNumberGenerator.java:15-19 | the number starts with "ACC", passes the validator for four-digit years, and its parts read back as the year, month, day and random value |
| AccountNumberGenerator.NumbersDiffer | src/main/java/com/mackena/Banking_Application_backend/util/generator/AccountNumberGenerator.java:15-19 | equal numbers come from the same day and the same random value |
| UserIdGenerator.GenerateCustomerId | src/main/java/com/mackena/Banking_Application_backend/util/generator/UserIdGenerator.java:12-14 | the id is "CUST" plus eight digits, twelve characters, reading back as the random value |
| UserIdGenerator.CustomerIdInjective | src/main/java/com/mackena/Banking_Application_backend/util/generator/UserIdGenerator.java:12-14 | different random values give different ids |
| CurrencyFormatter.FormatAmount | src/main/java/com/mackena/Banking_Application_backend/util/formatter/CurrencyFormatter.java:14-19 | null prints as "KES 0.00"; every output starts with "KES ", has a '-' exactly for a negative amount, and ends with the point and the two cent digits |
| CurrencyFormatter.FormatAmountWithSign | src/main/java/com/mackena/Banking_Application_backend/util/formatter/CurrencyFormatter.java:21-24 | the output is '-' for a debit or '+' otherwise, followed by the formatted amount |
| CurrencyFormatter.GroupedRoundTrip | src/main/java/com/mackena/Banking_Application_backend/util/formatter/CurrencyFormatter.java:11 | removing the grouping commas from the integer part leaves digits that read back as the number |
| CurrencyFormatter.FormatRoundTrip | src/main/java/com/mackena/Banking_Application_backend/util/formatter/CurrencyFormatter.java:11-18 | for a non-negative amount, dropping the prefix, commas and point leaves digits that read back as the cents |
| CurrencyFormatter.UnsignedRoundTrip | src/main/java/com/mackena/Banking_Application_backend/util/formatter/CurrencyFormatter.java:11 | the pattern applied to a number of cents reads back as that number once separators are dropped |
| CurrencyFormatter.GroupedExamples | src/main/java/com/mackena/Banking_Application_backend/util/formatter/CurrencyFormatter.java:11 | 0 and 999 print plainly, 1000 as "1,000" and 1234567 as "1,234,567" |
| CurrencyFormatter.NegativeFormat | src/main/java/com/mackena/Banking_Application_backend/util/formatter/CurrencyFormatter.java:14-19 | a negative amount prints as its magnitude with a '-' between prefix and digits |
| DateTimeUtil.YearText | src/main/java/com/mackena/Banking_Application_backend/util/formatter/DateTimeUtil.java:12 | a year from 1 to 9999 prints as four digits reading back as the year |
| DateTimeUtil.FormatDate | src/main/java/com/mackena/Banking_Application_backend/util/formatter/DateTimeUtil.java:31-33 | null prints as ""; a date prints as "dd/MM/yyyy" whose parts read back as day, month and year |
| DateTimeUtil.FormatDateTime | src/main/java/com/mackena/Banking_Application_backend/util/formatter/DateTimeUtil.java:35-37 | null prints as ""; the output is the date, a space, and "HH:mm" reading back as hour and minute |
| DateTimeUtil.TimeAgo | src/main/java/com/mackena/Banking_Application_backend/util/formatter/DateTimeUtil.java:15-29 | under a minute (or in the future) is "Just now", then whole minutes, hours, days below 60, 24, 30 with the plural unless one, then the date |
| DateTimeUtil.ElapsedUnits | src/main/java/com/mackena/Banking_Application_backend/util/formatter/DateTimeUtil.java:19-26 | each threshold on a truncated count is the same threshold on the elapsed time |
| DateTimeUtil.JustNowIff | src/main/java/com/mackena/Banking_Application_backend/util/formatter/DateTimeUtil.java:23 | the text is "Just now" exactly for less than a minute elapsed |
| DateTimeUtil.StartOfDay | src/main/java/com/mackena/Banking_Application_backend/util/formatter/DateTimeUtil.java:43-45 | the same date at midnight, no later than now and less than a day before |
| DateTimeUtil.StartOfMonth | src/main/java/com/mackena/Banking_Application_backend/util/formatter/DateTimeUtil.java:39-41 | midnight on the first of the same month, no later than the start of the day |
| DateTimeUtil.StartsAreStable | src/main/java/com/mackena/Banking_Application_backend/util/formatter/DateTimeUtil.java:39-45 | both starts are idempotent and the month's start is its own day's start |
| Time.TruncDiv | src/main/java/com/mackena/Banking_Application_backend/util/formatter/DateTimeUtil.java:19-21 | whole units between two instants are the quotient truncated toward zero |
| RegistrationRequest.IsPinMatching | src/main/java/com/mackena/Banking_Application_backend/dtos/request/UserRegistrationRequest.java:64-67 | the PIN matches exactly when it is present and equals its confirmation |
| RegistrationRequest.PhoneShape | src/main/java/com/mackena/Banking_Application_backend/dtos/request/UserRegistrationRequest.java:38-41 | a valid phone is "+254" or "0", a non-zero digit, eight digits: 13 or 10 characters |
| RegistrationRequest.StrongPasswordNotBlank | src/main/java/com/mackena/Banking_Application_backend/dtos/request/UserRegistrationRequest.java:23-26 | a password matching the pattern has at least three characters and is not blank |
| RegistrationRequest.NameHasLetter | src/main/java/com/mackena/Banking_Application_backend/dtos/request/UserRegistrationRequest.java:28-36 | a valid name holds at least one letter |
| RegistrationRequest.ValidRequestFacts | src/main/java/com/mackena/Banking_Application_backend/dtos/request/UserRegistrationRequest.java:43-58 | a valid request has a four-digit PIN equal to its confirmation, a positive deposit and a 10-500 character address |
| Text.Trim | src/main/java/com/mackena/Banking_Application_backend/service/impl/TransferServiceImpl.java:106 | the trimmed text is an infix of the input that neither starts nor ends with a char at or below U+0020, and everything cut away on either side is such a char |
| Text.TrimEmptyIffBlank | src/main/java/com/mackena/Banking_Application_backend/service/impl/TransactionHistoryServiceImpl.java:188 | a text trims to nothing exactly when it is blank |
| Text.TrimUpper | src/main/java/com/mackena/Banking_Application_backend/service/impl/TransactionHistoryServiceImpl.java:192 | upper-casing and trimming commute |
| Text.FixedDigitsRoundTrip | src/main/java/com/mackena/Banking_Application_backend/util/generator/UserIdGenerator.java:13 | zero-padded digits of a number that fits read back as the number |
| Text.FixedDigitsInjective | src/main/java/com/mackena/Banking_Application_backend/util/generator/UserIdGenerator.java:13 | different numbers that fit the width print differently |

## Left out

- Concurrency and transactions: every operation is one atomic step, so `@Transactional`, row locking and rollback are not modelled beyond "a failure returns no store".
- Controllers, authentication, JWT handling, login and password hashing are not modelled. The encoders and the PIN comparison are parameters.
- Randomness and the clock are parameters. Whether two random draws collide is not something the model decides: a reference that is already stored is a failure, and the generators are stated for each value they are given.
- Paging and sorting are left out: a query returns its whole selection, newest first. A request's own sort field and direction are ignored, as are the page cut, the page count and `searchAccounts` paging.
- The try/catch fallbacks of the history dispatchers are left out, because a modelled query cannot fail. The same goes for the catch blocks of deposit and withdrawal except for the duplicate-reference case, which is modelled as a runtime failure.
- Response classes other than the transaction receipt, the transfer receipt, the account listings and the history records are left out, as is the entity converter's low-balance flag.
- Bean Validation's `@Email` check is library-defined and left out. The other request constraints are predicates.
- The unused `TransactionTypes` and `TransferDirection` enums, the commented-out account repository and the exception handler are left out.
- DepositService.ProcessDeposit: the positive amount is a precondition, because the service relies on the request constraint for it. The UUID is required to be 32 hex digits, the form `UUID.toString` takes once its dashes are removed.
- WithdrawalService.ProcessWithdrawal: the positive amount and the UUID's form are preconditions, for the same reasons.
- UserService.RegisterUser: the request fields are required to be present, because the service dereferences them and the request constraints make them present.
- UserService.RegisterUser: the generator is required to reach an unused number, because the source loops until it does.
- AccountService.CreateAccountForUser: the generator is required to reach an unused number, for the same reason.
- TransferService.TransferMoney: the four UUIDs are required to be 32 hex digits, which is the only form `UUID.toString` takes once its dashes are removed.
- AccountService.ExactDivide: a quotient that would need more than the divisor's value in extra decimals is treated as non-terminating, and the claim that this bound never turns away a terminating quotient is not proved. `BigDecimal` precision beyond whole cents is not modelled.
- CurrencyFormatter.FormatAmount: the grouping of the integer part is stated through the round trip and the examples rather than character by character. The locale is taken to use ',' and '.'.
- DateTimeUtil.FormatDate: the layout is stated for years 1 to 9999 only. Other years print with a sign or more digits, as the function computes, but no property is stated about them.
- DateTimeUtil.FormatDateTime: likewise stated for years 1 to 9999 only.
- AccountNumberGenerator.GenerateAccountNumber: the 15-character form is stated for years 1 to 9999 only.
- Text.TrimUpper: upper-casing covers ASCII letters only, and `toUpperCase` on other scripts is not modelled.
- TransferService.CheckRequest: the same-account test folds ASCII letters only. Java's `equalsIgnoreCase` also folds letters of other scripts, so two numbers differing only in such letters are treated as different here.
- TransactionHistory.ParseType: upper-casing is ASCII-only and locale-free. Java's `toUpperCase()` follows the default locale, so under a Turkish locale "deposit" becomes "DEPOSİT" and does not parse in Java, while it parses here.
- TransactionHistory.ParseDirection: the same ASCII-only, locale-free upper-casing. Under a Turkish locale Java turns "credit" and "debit" into "CREDİT" and "DEBİT", which do not parse, while they parse here.
- AccountService.SearchAccounts: the case-insensitive match folds ASCII letters only, while the database's `ContainingIgnoreCase` folds by its own collation.
- RegistrationRequest.SizeBetween: `@Size` counts UTF-16 code units, while the model counts characters. A string with characters outside the Basic Multilingual Plane can pass a size bound here and fail it in Java. This affects the name, e-mail, password and address constraints (`RegistrationRequest.NameHasLetter`, `RegistrationRequest.ValidRequestFacts`).
- TransactionHistory.ToDetail: the transaction type is kept as its constant, because the enum file declares descriptions only for constants the services never write.
- TransactionHistory.BuildResponse: the total element count is stated equal to the page's only when it fits in 32 bits. Beyond that it is the wrapped value `ToInt32` gives.
- DepositService.ProcessDeposit: balances and amounts are unbounded. The `numeric(15, 2)` columns hold at most 999,999,999,999,999 cents, and a deposit that would store more fails at `save` in Java and is rethrown as "Deposit failed". The model reports success there.
- TransferService.TransferMoney: likewise, a credit that takes the receiver past the `numeric(15, 2)` column fails at `save` in Java and rolls the transfer back. The model reports success there.
- AccountService.CreateAccountForUser: likewise, an initial deposit past the `numeric(15, 2)` column fails at `save` in Java. The opening request bounds it only from below, and the model reports success there.
- AccountService.GetTotalSystemBalance: the total, the account count and the owner count are taken over active accounts only. The repository methods it calls are not declared anywhere, and this reading follows the commented-out `getTotalActiveBalance` query; a total over all accounts would be an equally possible reading of the name.
- DepositService.ProcessDeposit: one clock reading stamps both the ledger row and the receipt's `transactionDate`. Java reads the clock again for the receipt, so the two can differ by the time between the reads. The same holds for the withdrawal and transfer receipts.
- Ties in `createdAt` are ordered in one fixed way; the database may return them in any order.
- Registration and account opening write no ledger row, as in the source.

=== FILE: account_validator.dfy ===
/** `AccountValidator`: the checks on an account number, an amount and an
    account type name. Each turns down a null value. */
module AccountValidator {

  import opened Wrappers
  import opened Text
  import opened Domain

  /** `^ACC\d{8}\d{4}$`: "ACC" and twelve ASCII digits. */
  predicate IsValidAccountNumber(o: Option<string>) {
    o.Some? && |o.value| == 15 && o.value[..3] == "ACC" && AllDigits(o.value[3..])
  }

  /** More than zero and at most KES 1,000,000, in cents. */
  const MaxTransactionAmount: Cents := 100_000_000

  predicate IsValidTransactionAmount(o: Option<Cents>) {
    o.Some? && 0 < o.value <= MaxTransactionAmount
  }

  /** Exactly "SAVINGS" or "CURRENT", case included. */
  predicate IsValidAccountType(o: Option<string>) {
    o == Some("SAVINGS") || o == Some("CURRENT")
  }

  /** `name()` of each `AccountType` constant. */
  function AccountTypeName(t: AccountType): string {
    match t
    case SAVINGS => "SAVINGS"
    case CHECKING => "CHECKING"
  }

  /** The validator's type names and the enum's disagree: of the two
      constants only SAVINGS passes, and "CURRENT" names no constant. */
  lemma TypeNamesAgainstEnum(t: AccountType)
    ensures IsValidAccountType(Some(AccountTypeName(t))) <==> t == SAVINGS
    ensures AccountTypeName(t) != "CURRENT"
  {
    if t == CHECKING {
      assert AccountTypeName(t)[1] == 'H';
    }
  }

  /** The amount range is closed above and open below. */
  lemma AmountEdges()
    ensures !IsValidTransactionAmount(Some(0)) && !IsValidTransactionAmount(None)
    ensures IsValidTransactionAmount(Some(1)) && IsValidTransactionAmount(Some(100_000_000))
    ensures !IsValidTransactionAmount(Some(100_000_001))
  {
  }

  /** A valid number is 15 characters whose last twelve read as a number
      below 10^12. */
  lemma ValidNumberValue(s: string)
    requires IsValidAccountNumber(Some(s))
    ensures |s| == 15 && s[0] == 'A' && s[1] == 'C' && s[2] == 'C'
    ensures ParseDigits(s[3..]) < Pow10(12)
  {
    assert s[..3][0] == s[0] && s[..3][1] == s[1] && s[..3][2] == s[2];
    ParseDigitsBound(s[3..]);
  }
}

=== FILE: accounts.dfy ===
/** `AccountServiceImpl`: account queries, system aggregates and opening a
    further account for a registered user. The repository queries it calls
    are read from their derived-query names. */
module AccountService {

  import opened Wrappers
  import opened Domain
  import opened Text

  // ---------------------------------------------------------------------------
  // Selections the repository provides.
  // ---------------------------------------------------------------------------

  predicate IsActive(a: Account) {
    a.active
  }

  /** The `WHERE` clause of `findByUserIdAndIsActiveTrue...`. */
  function OwnedActive(userId: nat): Account -> bool {
    (a: Account) => a.ownerId == userId && a.active
  }

  /** The `WHERE` clause of `findByBalanceLessThanAndIsActiveTrue`. */
  function ActiveBelow(threshold: Cents): Account -> bool {
    (a: Account) => a.active && a.balance < threshold
  }

  /** `findByUserAndIsActiveTrue`: the active accounts of one user, oldest first. */
  function ActiveOf(accounts: seq<Account>, userId: nat): (r: seq<Account>)
    ensures forall k :: 0 <= k < |r| ==> r[k].ownerId == userId && r[k].active && r[k] in accounts
    ensures forall k :: 0 <= k < |accounts| && accounts[k].ownerId == userId && accounts[k].active ==>
              accounts[k] in r
  {
    Select(accounts, OwnedActive(userId))
  }

  /** `findByBalanceLessThanAndIsActiveTrue`: active accounts strictly below
      the threshold. */
  function BelowThreshold(accounts: seq<Account>, threshold: Cents): (r: seq<Account>)
    ensures forall k :: 0 <= k < |r| ==> r[k].active && r[k].balance < threshold && r[k] in accounts
    ensures forall k :: 0 <= k < |accounts| && accounts[k].active && accounts[k].balance < threshold ==>
              accounts[k] in r
  {
    Select(accounts, ActiveBelow(threshold))
  }

  // ---------------------------------------------------------------------------
  // getUserAccounts
  // ---------------------------------------------------------------------------

  /** `AccountListResponse`. */
  datatype AccountList = AccountList(accounts: seq<Account>, totalAccounts: nat, totalBalance: Cents)

  /** The user's active accounts, newest first, with their count and the sum
      of their balances. */
  function GetUserAccounts(bank: Bank, userId: nat): (r: AccountList)
    ensures forall k :: 0 <= k < |r.accounts| ==>
              r.accounts[k].ownerId == userId && r.accounts[k].active && r.accounts[k] in bank.accounts
    ensures forall k :: 0 <= k < |bank.accounts| && bank.accounts[k].ownerId == userId && bank.accounts[k].active ==>
              bank.accounts[k] in r.accounts
    ensures Reverse(r.accounts) == ActiveOf(bank.accounts, userId)
    ensures r.totalAccounts == |r.accounts|
    ensures r.totalBalance == SumWhere(bank.accounts, OwnedActive(userId))
  {
    var mine := ActiveOf(bank.accounts, userId);
    var newestFirst := Reverse(mine);
    ReverseReverse(mine);
    SumReverse(mine);
    SumSelect(bank.accounts, OwnedActive(userId));
    AccountList(newestFirst, |newestFirst|, Sum(newestFirst))
  }

  lemma ReverseReverse(s: seq<Account>)
    ensures Reverse(Reverse(s)) == s
  {
  }

  // ---------------------------------------------------------------------------
  // Lookups and the ownership check.
  // ---------------------------------------------------------------------------

  /** `findAccountByNumber` and `findByAccountNumber`. */
  function FindAccount(accounts: seq<Account>, number: string): (r: Result<Account, Failure>)
    ensures r.Ok? <==> HasNumber(accounts, number)
    ensures r.Ok? ==> r.value in accounts && r.value.number == number
    ensures r.Err? ==> r.error == Failure(AccountNotFound, AccountMissing)
  {
    match IndexOf(accounts, number)
    case None => Err(Failure(AccountNotFound, AccountMissing))
    case Some(i) => Ok(accounts[i])
  }

  /** `validateAccountOwnership`: `None` when the account is the user's. */
  function CheckOwnership(a: Account, userId: nat): (o: Option<Failure>)
    ensures o.None? <==> a.ownerId == userId
    ensures o.Some? ==> o.value == Failure(AccountAccessDenied, NotOwner)
  {
    if a.ownerId != userId then Some(Failure(AccountAccessDenied, NotOwner)) else None
  }

  /** `getAccountByNumber`: an administrator skips the ownership check. */
  function GetAccountByNumber(bank: Bank, number: string, currentUserId: nat, isAdmin: bool)
    : (r: Result<Account, Failure>)
    ensures !HasNumber(bank.accounts, number) ==> r == Err(Failure(AccountNotFound, AccountMissing))
    ensures r.Ok? <==>
              && HasNumber(bank.accounts, number)
              && (isAdmin || bank.accounts[IndexOf(bank.accounts, number).value].ownerId == currentUserId)
    ensures r.Ok? ==> r.value in bank.accounts && r.value.number == number
    ensures r.Err? && HasNumber(bank.accounts, number) ==>
              !isAdmin && r.error == Failure(AccountAccessDenied, NotOwner)
  {
    var account :- FindAccount(bank.accounts, number);
    if !isAdmin && CheckOwnership(account, currentUserId).Some? then Err(CheckOwnership(account, currentUserId).value)
    else Ok(account)
  }

  /** `getAccountsByUser`. */
  function GetAccountsByUser(bank: Bank, userId: nat): (r: seq<Account>)
    ensures forall k :: 0 <= k < |r| ==> r[k].ownerId == userId && r[k].active && r[k] in bank.accounts
    ensures forall k :: 0 <= k < |bank.accounts| && bank.accounts[k].ownerId == userId && bank.accounts[k].active ==>
              bank.accounts[k] in r
    ensures forall a :: multiset(r)[a] == if a.ownerId == userId && a.active then multiset(bank.accounts)[a] else 0
  {
    SelectBag(bank.accounts, OwnedActive(userId));
    ActiveOf(bank.accounts, userId)
  }

  /** `findAccountsWithBalanceBelow`. */
  function FindAccountsWithBalanceBelow(bank: Bank, threshold: Cents): (r: seq<Account>)
    ensures forall k :: 0 <= k < |r| ==> r[k].active && r[k].balance < threshold && r[k] in bank.accounts
    ensures forall k :: 0 <= k < |bank.accounts| && bank.accounts[k].active && bank.accounts[k].balance < threshold ==>
              bank.accounts[k] in r
    ensures forall a :: multiset(r)[a] == if a.active && a.balance < threshold then multiset(bank.accounts)[a] else 0
  {
    SelectBag(bank.accounts, ActiveBelow(threshold));
    BelowThreshold(bank.accounts, threshold)
  }

  // ---------------------------------------------------------------------------
  // getLowBalanceAccounts
  // ---------------------------------------------------------------------------

  /** `LowBalanceAccountsResponse`. */
  datatype LowBalanceReport = LowBalanceReport(accounts: seq<Account>, totalLowBalanceAccounts: nat,
                                               threshold: Cents, totalLowBalance: Cents)

  /** `findAccountsWithLowBalance` is not declared anywhere; it is read as the
      query the repository's own comments spell out: active and strictly
      below the threshold. */
  function GetLowBalanceAccounts(bank: Bank, threshold: Cents): (r: LowBalanceReport)
    ensures forall k :: 0 <= k < |r.accounts| ==>
              r.accounts[k].active && r.accounts[k].balance < threshold && r.accounts[k] in bank.accounts
    ensures forall k :: 0 <= k < |bank.accounts| && bank.accounts[k].active && bank.accounts[k].balance < threshold ==>
              bank.accounts[k] in r.accounts
    ensures forall a :: multiset(r.accounts)[a] ==
              if a.active && a.balance < threshold then multiset(bank.accounts)[a] else 0
    ensures r.totalLowBalanceAccounts == |r.accounts|
    ensures r.threshold == threshold
    ensures r.totalLowBalance == Sum(r.accounts)
    ensures r.totalLowBalance == SumWhere(bank.accounts, ActiveBelow(threshold))
    ensures r.totalLowBalance < threshold * r.totalLowBalanceAccounts || r.totalLowBalanceAccounts == 0
  {
    var low := FindAccountsWithBalanceBelow(bank, threshold);
    SumSelect(bank.accounts, ActiveBelow(threshold));
    SumBelow(low, threshold);
    LowBalanceReport(low, |low|, threshold, Sum(low))
  }

  /** A non-empty list of balances each below `t` sums to less than `t`
      times its length. */
  lemma {:induction false} SumBelow(s: seq<Account>, t: Cents)
    requires forall k :: 0 <= k < |s| ==> s[k].balance < t
    ensures s == [] || Sum(s) < t * |s|
  {
    if |s| > 1 {
      SumBelow(s[..|s| - 1], t);
    } else if |s| == 1 {
      assert s[..0] == [];
    }
  }

  // ---------------------------------------------------------------------------
  // getTotalSystemBalance
  // ---------------------------------------------------------------------------

  /** A `BigDecimal`: `unscaled / 10^scale`. */
  datatype Decimal = Decimal(unscaled: int, scale: nat)

  /** `t * 10^k` is a multiple of `n`: `t / n` has at most `k` decimals. */
  predicate ExactAt(t: int, n: nat, k: nat)
    requires n > 0
  {
    (t * Pow10(k)) % n == 0
  }

  /** The first `k` in `from..limit` with `t * 10^k` divisible by `n`. */
  function FirstExactScale(t: int, n: nat, from: nat, limit: nat): (r: Option<nat>)
    requires n > 0
    ensures r.Some? ==> from <= r.value <= limit && ExactAt(t, n, r.value)
    ensures r.Some? ==> forall j :: from <= j < r.value ==> !ExactAt(t, n, j)
    ensures r.None? ==> forall j :: from <= j <= limit ==> !ExactAt(t, n, j)
    decreases limit - from
  {
    if from > limit then None
    else if ExactAt(t, n, from) then Some(from)
    else FirstExactScale(t, n, from + 1, limit)
  }

  /** `total.divide(BigDecimal.valueOf(n))` for a scale-2 total of `cents`:
      the exact quotient at the preferred scale 2, or at the least larger
      scale that holds it; a quotient needing more than `n` extra digits is
      treated as non-terminating, which raises `ArithmeticException`. */
  function ExactDivide(cents: int, n: nat): (r: Result<Decimal, Failure>)
    requires n > 0
    ensures r.Ok? ==> r.value.scale >= 2 && r.value.unscaled * n == cents * Pow10(r.value.scale - 2)
    ensures r.Ok? ==> forall k :: 0 <= k < r.value.scale - 2 ==> !ExactAt(cents, n, k)
    ensures r.Err? ==> r.error == Failure(Arithmetic, NonTerminatingQuotient)
    ensures r.Err? ==> forall k :: 0 <= k <= n ==> !ExactAt(cents, n, k)
    ensures cents % n == 0 ==> r == Ok(Decimal(cents / n, 2))
  {
    match FirstExactScale(cents, n, 0, n)
    case None => Err(Failure(Arithmetic, NonTerminatingQuotient))
    case Some(k) =>
      var q := cents * Pow10(k) / n;
      assert q * n == cents * Pow10(k);
      Ok(Decimal(q, k + 2))
  }

  /** `TotalBalanceResponse`. `totalSystemBalance` is the SQL `SUM`, which is
      null over no rows. */
  datatype TotalBalanceReport = TotalBalanceReport(
    totalSystemBalance: Option<Cents>,
    totalActiveAccounts: int,
    totalUsers: int,
    averageBalancePerAccount: Decimal)

  /** The owners of the active accounts (`countUsersWithActiveAccounts`). */
  function ActiveOwners(accounts: seq<Account>): set<nat> {
    set k | 0 <= k < |accounts| && accounts[k].active :: accounts[k].ownerId
  }

  /** The three repository calls behind the report (`getTotalSystemBalance`,
      `countActiveAccounts`, `countUsersWithActiveAccounts`) are declared
      nowhere and are not derived queries. They are read as the commented-out
      `getTotalActiveBalance` query reads: a `SUM` over the active accounts,
      and counts over the same accounts. The two counts come back as `long`
      and are cast to `int` for the response; the average divides by the
      uncast count. */
  function GetTotalSystemBalance(bank: Bank): (r: Result<TotalBalanceReport, Failure>)
    ensures r.Ok? ==> r.value.totalActiveAccounts == ToInt32(CountWhere(bank.accounts, IsActive))
    ensures r.Ok? ==> r.value.totalUsers == ToInt32(|ActiveOwners(bank.accounts)|)
    ensures r.Ok? ==> (r.value.totalSystemBalance.None? <==> CountWhere(bank.accounts, IsActive) == 0)
    ensures r.Ok? && r.value.totalSystemBalance.Some? ==>
              r.value.totalSystemBalance.value == SumWhere(bank.accounts, IsActive)
    ensures r.Ok? && CountWhere(bank.accounts, IsActive) == 0 ==> r.value.averageBalancePerAccount == Decimal(0, 0)
    ensures r.Ok? && CountWhere(bank.accounts, IsActive) > 0 ==>
              var avg := r.value.averageBalancePerAccount;
              avg.scale >= 2
              && avg.unscaled * CountWhere(bank.accounts, IsActive)
                 == r.value.totalSystemBalance.value * Pow10(avg.scale - 2)
    ensures r.Ok? && CountWhere(bank.accounts, IsActive) > 0 ==>
              forall k :: 0 <= k < r.value.averageBalancePerAccount.scale - 2 ==>
                !ExactAt(SumWhere(bank.accounts, IsActive), CountWhere(bank.accounts, IsActive), k)
    ensures CountWhere(bank.accounts, IsActive) > 0
            && SumWhere(bank.accounts, IsActive) % CountWhere(bank.accounts, IsActive) == 0 ==>
              r.Ok? && r.value.averageBalancePerAccount.scale == 2
    ensures r.Err? ==> r.error == Failure(Arithmetic, NonTerminatingQuotient) && CountWhere(bank.accounts, IsActive) > 0
    ensures r.Err? ==>
              forall k :: 0 <= k <= CountWhere(bank.accounts, IsActive) ==>
                !ExactAt(SumWhere(bank.accounts, IsActive), CountWhere(bank.accounts, IsActive), k)
  {
    var active := Select(bank.accounts, IsActive);
    var count := |active|;
    var owners := |ActiveOwners(bank.accounts)|;
    SumSelect(bank.accounts, IsActive);
    CountSelect(bank.accounts, IsActive);
    if count == 0 then Ok(TotalBalanceReport(None, 0, ToInt32(owners), Decimal(0, 0)))
    else
      var total := Sum(active);
      var average :- ExactDivide(total, count);
      Ok(TotalBalanceReport(Some(total), ToInt32(count), ToInt32(owners), average))
  }

  /** `getActiveAccountCount` (`countByIsActiveTrue`), set against
      `getTotalAccountCount` (`count`), which is the store's size. */
  function GetActiveAccountCount(bank: Bank): (r: nat)
    ensures r == CountWhere(bank.accounts, IsActive)
    ensures r <= |bank.accounts|
    ensures r == |bank.accounts| <==> AllActive(bank.accounts)
  {
    CountAllIffEvery(bank.accounts);
    CountSelect(bank.accounts, IsActive);
    |Select(bank.accounts, IsActive)|
  }

  /** Every account of the list is active. */
  predicate AllActive(accounts: seq<Account>) {
    forall k :: 0 <= k < |accounts| ==> accounts[k].active
  }

  /** The selection keeps every account exactly when every account is active. */
  lemma {:induction false} CountAllIffEvery(accounts: seq<Account>)
    ensures |Select(accounts, IsActive)| == |accounts| <==> AllActive(accounts)
  {
    if accounts != [] {
      var init := accounts[..|accounts| - 1];
      var last := accounts[|accounts| - 1];
      CountAllIffEvery(init);
      AllActiveSnoc(accounts);
      assert |Select(accounts, IsActive)| == |Select(init, IsActive)| + if last.active then 1 else 0;
    }
  }

  /** A list is all active when its front is and its last account is. */
  lemma AllActiveSnoc(accounts: seq<Account>)
    requires accounts != []
    ensures AllActive(accounts) <==> AllActive(accounts[..|accounts| - 1]) && accounts[|accounts| - 1].active
  {
    assert forall k :: 0 <= k < |accounts| - 1 ==> accounts[..|accounts| - 1][k] == accounts[k];
  }

  // ---------------------------------------------------------------------------
  // searchAccounts
  // ---------------------------------------------------------------------------

  /** The owner of an account, found by id. */
  function OwnerOf(users: seq<User>, a: Account): (r: Option<User>)
    ensures r.Some? ==> r.value in users && r.value.id == a.ownerId
    ensures r.None? ==> forall k :: 0 <= k < |users| ==> users[k].id != a.ownerId
  {
    if users == [] then None
    else if users[0].id == a.ownerId then Some(users[0])
    else OwnerOf(users[1..], a)
  }

  /** An account matches when the query occurs, ignoring case, in its number
      or in its owner's first name, last name or e-mail. */
  predicate SearchHit(users: seq<User>, a: Account, query: string) {
    || ContainsIgnoreCase(a.number, query)
    || (OwnerOf(users, a).Some? &&
        var u := OwnerOf(users, a).value;
        ContainsIgnoreCase(u.firstName, query) || ContainsIgnoreCase(u.lastName, query)
        || ContainsIgnoreCase(u.email, query))
  }

  /** `searchAccounts` without the paging: every hit, in store order. */
  function SearchAccounts(bank: Bank, query: string): (r: seq<Account>)
    ensures forall k :: 0 <= k < |r| ==> r[k] in bank.accounts && SearchHit(bank.users, r[k], query)
    ensures forall k :: 0 <= k < |bank.accounts| && SearchHit(bank.users, bank.accounts[k], query) ==>
              bank.accounts[k] in r
  {
    Select(bank.accounts, (a: Account) => SearchHit(bank.users, a, query))
  }

  // ---------------------------------------------------------------------------
  // createAccountForUser
  // ---------------------------------------------------------------------------

  /** `CreateAccountRequest`. The PINs are non-blank by the request's own
      constraints; the initial deposit may be absent. */
  datatype CreateAccountRequest = CreateAccountRequest(
    accountType: AccountType,
    transactionPin: string,
    confirmPin: string,
    initialDeposit: Option<Cents>)

  /** `CreateAccountResponse.success`. */
  datatype CreatedAccount = CreatedAccount(accountNumber: string, accountType: AccountType,
                                           balance: Cents, active: bool)

  /** `generateUniqueAccountNumber`: draw numbers until one is not stored.
      `candidates` are the generator's successive outputs; the result is the
      position of the first free one. */
  function FirstFree(accounts: seq<Account>, candidates: seq<string>): (r: Option<nat>)
    ensures r.Some? ==> r.value < |candidates| && !HasNumber(accounts, candidates[r.value])
    ensures r.Some? ==> forall j :: 0 <= j < r.value ==> HasNumber(accounts, candidates[j])
    ensures r.None? <==> forall j :: 0 <= j < |candidates| ==> HasNumber(accounts, candidates[j])
  {
    if candidates == [] then None
    else if !HasNumber(accounts, candidates[0]) then Some(0)
    else
      match FirstFree(accounts, candidates[1..])
      case None => None
      case Some(i) => Some(i + 1)
  }

  /** Some candidate is free: the generate-until-unused loop stops. */
  predicate GeneratorStops(accounts: seq<Account>, candidates: seq<string>) {
    exists j :: 0 <= j < |candidates| && !HasNumber(accounts, candidates[j])
  }

  /** `user.getAccounts()` holds an active account of this type. */
  predicate HasActiveOfType(accounts: seq<Account>, userId: nat, t: AccountType) {
    exists k :: 0 <= k < |accounts| && accounts[k].ownerId == userId
                && accounts[k].accountType == t && accounts[k].active
  }

  /** The PIN confirmation is checked before the user is looked up; a user
      may hold one active account of each type. The new account is appended
      to the store. `encode` is the password encoder. */
  function CreateAccountForUser(bank: Bank, req: CreateAccountRequest, userEmail: string,
                                encode: string -> string, candidates: seq<string>)
    : (r: Result<(Bank, CreatedAccount), Failure>)
    requires GeneratorStops(bank.accounts, candidates)
    ensures req.transactionPin != req.confirmPin ==> r == Err(Failure(IllegalArgument, PinConfirmationMismatch))
    ensures req.transactionPin == req.confirmPin && !HasEmail(bank.users, userEmail) ==>
              r == Err(Failure(UserNotFound, NoSuchUser))
    ensures r.Ok? <==>
              && req.transactionPin == req.confirmPin
              && HasEmail(bank.users, userEmail)
              && !HasActiveOfType(bank.accounts,
                                  bank.users[UserIndexByEmail(bank.users, userEmail).value].id, req.accountType)
    ensures r.Err? && r.error.reason == AccountTypeTaken ==> r.error.kind == IllegalArgument
    ensures r.Ok? ==>
              var user := bank.users[UserIndexByEmail(bank.users, userEmail).value];
              var after := r.value.0;
              var created := r.value.1;
              && after.users == bank.users
              && after.ledger == bank.ledger
              && |after.accounts| == |bank.accounts| + 1
              && after.accounts[..|bank.accounts|] == bank.accounts
              && var a := after.accounts[|bank.accounts|];
              && !HasNumber(bank.accounts, a.number)
              && a.number in candidates
              && a.ownerId == user.id
              && a.accountType == req.accountType
              && a.balance == req.initialDeposit.GetOr(0)
              && a.pinHash == Some(encode(req.transactionPin))
              && a.active
              && created == CreatedAccount(a.number, a.accountType, a.balance, true)
  {
    if req.transactionPin != req.confirmPin then Err(Failure(IllegalArgument, PinConfirmationMismatch))
    else
      match UserIndexByEmail(bank.users, userEmail)
      case None => Err(Failure(UserNotFound, NoSuchUser))
      case Some(ui) =>
        var user := bank.users[ui];
        if HasActiveOfType(bank.accounts, user.id, req.accountType) then
          Err(Failure(IllegalArgument, AccountTypeTaken))
        else
          var number := candidates[FirstFree(bank.accounts, candidates).value];
          var account := Account(number, user.id, req.accountType, req.initialDeposit.GetOr(0),
                                 Some(encode(req.transactionPin)), true);
          Ok((bank.(accounts := bank.accounts + [account]),
              CreatedAccount(number, req.accountType, account.balance, true)))
  }
}

=== FILE: currency_formatter.dfy ===
/** `CurrencyFormatter`: amounts as "KES " followed by the `#,##0.00`
    pattern of `DecimalFormat`, with ',' as the grouping separator and '.'
    as the decimal point. Amounts are whole cents, so the pattern's
    rounding never applies. */
module CurrencyFormatter {

  import opened Wrappers
  import opened Text
  import opened Domain

  const CurrencyPrefix := "KES "

  /** The integer part with a ',' between every group of three digits,
      counted from the right. */
  function Grouped(n: nat): (r: string)
    ensures |r| >= 1 && IsDigit(r[0])
  {
    if n < 1000 then NatToString(n)
    else Grouped(n / 1000) + "," + FixedDigits(n % 1000, 3)
  }

  /** `formatAmount`: null prints as zero; a negative amount gets a '-'
      before its digits. */
  function FormatAmount(o: Option<Cents>): (r: string)
    ensures o.None? ==> r == "KES 0.00"
    ensures |r| >= 8 && r[..4] == CurrencyPrefix && r[|r| - 3] == '.'
    ensures o.Some? ==> (r[4] == '-' <==> o.value < 0)
    ensures o.Some? ==> r[|r| - 2..] == FixedDigits(Magnitude(o.value) % 100, 2)
  {
    match o
    case None =>
      Tails(CurrencyPrefix, "0.00");
      CurrencyPrefix + "0.00"
    case Some(a) =>
      var signed := Signed(a);
      Tails(CurrencyPrefix, signed);
      CurrencyPrefix + signed
  }

  /** The number part of a formatted amount: '-' for a negative amount,
      then the pattern applied to its magnitude. */
  function Signed(a: Cents): (r: string)
    ensures |r| >= 4
    ensures r[0] == '-' <==> a < 0
    ensures r[|r| - 3] == '.' && r[|r| - 2..] == FixedDigits(Magnitude(a) % 100, 2)
  {
    var body := Unsigned(Magnitude(a));
    if a < 0 then
      Tails("-", body);
      "-" + body
    else body
  }

  /** What a prefix leaves of a text's last characters. */
  lemma Tails(p: string, s: string)
    requires |s| >= 3
    ensures |p + s| == |p| + |s|
    ensures (p + s)[..|p|] == p
    ensures (p + s)[|p|] == s[0]
    ensures (p + s)[|p + s| - 3] == s[|s| - 3]
    ensures (p + s)[|p + s| - 2..] == s[|s| - 2..]
  {
  }

  /** `#,##0.00` applied to a non-negative number of cents. */
  function Unsigned(m: nat): (r: string)
    ensures |r| >= 4 && IsDigit(r[0])
    ensures r[|r| - 3] == '.' && r[|r| - 2..] == FixedDigits(m % 100, 2)
  {
    var units := Grouped(m / 100);
    var fraction := FixedDigits(m % 100, 2);
    var r := units + "." + fraction;
    assert r[|r| - 2..] == fraction;
    r
  }

  function Magnitude(a: int): nat {
    if a < 0 then -a else a
  }

  /** `formatAmountWithSign`: '-' for a debit, '+' otherwise, before the
      formatted amount. */
  function FormatAmountWithSign(o: Option<Cents>, isDebit: bool): (r: string)
    ensures |r| >= 1 && r[1..] == FormatAmount(o)
    ensures r[0] == '-' <==> isDebit
    ensures r[0] == '+' <==> !isDebit
  {
    (if isDebit then "-" else "+") + FormatAmount(o)
  }

  // ---------------------------------------------------------------------------
  // Reading a formatted amount back.
  // ---------------------------------------------------------------------------

  /** The text with grouping separators and the decimal point removed. */
  function DigitsOf(s: string): string {
    if s == [] then []
    else (if s[0] == ',' || s[0] == '.' then [] else [s[0]]) + DigitsOf(s[1..])
  }

  lemma {:induction false} DigitsOfAppend(a: string, b: string)
    ensures DigitsOf(a + b) == DigitsOf(a) + DigitsOf(b)
  {
    if a != [] {
      assert (a + b)[1..] == a[1..] + b;
      DigitsOfAppend(a[1..], b);
    } else {
      assert a + b == b;
    }
  }

  lemma {:induction false} DigitsOfDigits(s: string)
    requires AllDigits(s)
    ensures DigitsOf(s) == s
  {
    if s != [] {
      DigitsOfDigits(s[1..]);
    }
  }

  /** Removing the separators from the grouped integer part leaves digits
      that read back as the number. */
  lemma {:induction false} GroupedRoundTrip(n: nat)
    ensures AllDigits(DigitsOf(Grouped(n)))
    ensures ParseDigits(DigitsOf(Grouped(n))) == n
  {
    if n < 1000 {
      DigitsOfDigits(NatToString(n));
      NatToStringRoundTrip(n);
    } else {
      var q, m := n / 1000, n % 1000;
      var head := Grouped(q);
      var tail := FixedDigits(m, 3);
      GroupedRoundTrip(q);
      assert Grouped(n) == head + ("," + tail);
      SeparatorDropped(head, tail, ',');
      var dh := DigitsOf(head);
      ParseDigitsAppend(dh, tail);
      Powers();
      FixedDigitsRoundTrip(m, 3);
      Split(n, 1000);
    }
  }

  /** One separator between two parts disappears from the digits. */
  lemma SeparatorDropped(head: string, tail: string, sep: char)
    requires sep == ',' || sep == '.'
    requires AllDigits(tail)
    ensures DigitsOf(head + ([sep] + tail)) == DigitsOf(head) + tail
  {
    DigitsOfAppend(head, [sep] + tail);
    assert DigitsOf([sep] + tail) == tail by {
      assert ([sep] + tail)[1..] == tail;
      DigitsOfDigits(tail);
    }
  }

  lemma Powers()
    ensures Pow10(2) == 100 && Pow10(3) == 1000
  {
  }

  /** Quotient and remainder put the number back together. */
  lemma Split(n: nat, b: nat)
    requires b > 0
    ensures (n / b) * b + n % b == n
  {
  }

  /** For a non-negative amount, dropping the prefix, the separators and the
      point gives the digits of the amount in cents. */
  lemma FormatRoundTrip(a: Cents)
    requires a >= 0
    ensures AllDigits(DigitsOf(FormatAmount(Some(a))[4..]))
    ensures ParseDigits(DigitsOf(FormatAmount(Some(a))[4..])) == a
  {
    assert FormatAmount(Some(a))[4..] == Unsigned(a);
    UnsignedRoundTrip(a);
  }

  lemma UnsignedRoundTrip(m: nat)
    ensures AllDigits(DigitsOf(Unsigned(m)))
    ensures ParseDigits(DigitsOf(Unsigned(m))) == m
  {
    var units := Grouped(m / 100);
    var fraction := FixedDigits(m % 100, 2);
    assert Unsigned(m) == units + ("." + fraction);
    SeparatorDropped(units, fraction, '.');
    GroupedRoundTrip(m / 100);
    ParseDigitsAppend(DigitsOf(units), fraction);
    Powers();
    FixedDigitsRoundTrip(m % 100, 2);
    Split(m, 100);
  }

  /** Small numbers print without a separator; 1000 and above get one. */
  lemma GroupedExamples()
    ensures Grouped(0) == "0" && Grouped(999) == "999"
    ensures Grouped(1000) == "1,000"
    ensures Grouped(1234567) == "1,234,567"
  {
    GroupedSmall();
    GroupedThousands();
    GroupedMillions();
  }

  lemma GroupedSmall()
    ensures Grouped(0) == "0" && Grouped(999) == "999"
  {
    assert NatToString(9) == "9";
    assert NatToString(99) == "99";
  }

  lemma GroupedThousands()
    ensures Grouped(1000) == "1,000"
    ensures Grouped(1234) == "1,234"
  {
    assert NatToString(1) == "1";
    assert FixedDigits(0, 3) == "000";
    assert FixedDigits(234, 3) == "234";
  }

  lemma GroupedMillions()
    ensures Grouped(1234567) == "1,234,567"
  {
    GroupedThousands();
    assert FixedDigits(567, 3) == "567";
  }

  /** A negative amount prints as its magnitude does, with a '-' between
      the prefix and the digits. */
  lemma NegativeFormat(a: Cents)
    requires a > 0
    ensures FormatAmount(Some(-a)) == CurrencyPrefix + "-" + FormatAmount(Some(a))[4..]
  {
    var body := Unsigned(a);
    SignedParts(-a, body);
    SignedParts(a, body);
    assert (CurrencyPrefix + body)[4..] == body;
  }

  lemma SignedParts(a: Cents, body: string)
    requires body == Unsigned(Magnitude(a))
    ensures a < 0 ==> FormatAmount(Some(a)) == CurrencyPrefix + "-" + body
    ensures a >= 0 ==> FormatAmount(Some(a)) == CurrencyPrefix + body
  {
    assert a < 0 ==> Signed(a) == "-" + body;
  }
}

=== FILE: datetime_util.dfy ===
/** `DateTimeUtil`: relative ("time ago") and calendar renderings of a
    `LocalDateTime`, and the starts of the current day and month. `now` is
    the clock's reading, passed in. */
module DateTimeUtil {

  import opened Wrappers
  import opened Text
  import opened Time

  /** `yyyy`: the year of era, zero-padded to four digits; a year of era of
      more than four digits is printed in full after a '+'. Years before 1
      count back from 1 BC, whose year of era is 1. */
  function YearText(y: int): (r: string)
    ensures 1 <= y <= 9999 ==> |r| == 4 && AllDigits(r) && ParseDigits(r) == y
  {
    var v: nat := if y >= 1 then y else 1 - y;
    if v <= 9999 then
      FixedDigitsRoundTrip(v, 4);
      FixedDigits(v, 4)
    else "+" + NatToString(v)
  }

  /** `dd`, `MM`, `HH`, `mm`: two digits, zero-padded. */
  function TwoDigits(n: nat): (r: string)
    requires n < 100
    ensures |r| == 2 && AllDigits(r) && ParseDigits(r) == n
  {
    FixedDigitsRoundTrip(n, 2);
    FixedDigits(n, 2)
  }

  function DateText(t: DateTime): string {
    TwoDigits(t.day) + "/" + TwoDigits(t.month) + "/" + YearText(t.year)
  }

  /** `formatDate`: "dd/MM/yyyy", or "" for null. For a four-digit year the
      text reads back as the day, the month and the year. */
  function FormatDate(o: Option<DateTime>): (r: string)
    ensures o.None? ==> r == ""
    ensures o.Some? && 1 <= o.value.year <= 9999 ==>
              && |r| == 10 && r[2] == '/' && r[5] == '/'
              && AllDigits(r[..2]) && ParseDigits(r[..2]) == o.value.day
              && AllDigits(r[3..5]) && ParseDigits(r[3..5]) == o.value.month
              && AllDigits(r[6..]) && ParseDigits(r[6..]) == o.value.year
  {
    match o
    case None => ""
    case Some(t) =>
      var r := DateText(t);
      assert r[..2] == TwoDigits(t.day);
      assert r[3..5] == TwoDigits(t.month);
      assert 1 <= t.year <= 9999 ==> r[6..] == YearText(t.year);
      r
  }

  /** `formatDateTime`: "dd/MM/yyyy HH:mm", or "" for null. */
  function FormatDateTime(o: Option<DateTime>): (r: string)
    ensures o.None? ==> r == ""
    ensures o.Some? && 1 <= o.value.year <= 9999 ==>
              && |r| == 16 && r[..10] == FormatDate(o) && r[10] == ' ' && r[13] == ':'
              && AllDigits(r[11..13]) && ParseDigits(r[11..13]) == o.value.hour
              && AllDigits(r[14..]) && ParseDigits(r[14..]) == o.value.minute
  {
    match o
    case None => ""
    case Some(t) =>
      var r := DateText(t) + " " + TwoDigits(t.hour) + ":" + TwoDigits(t.minute);
      assert 1 <= t.year <= 9999 ==>
               |DateText(t)| == 10 && r[..10] == DateText(t)
               && r[11..13] == TwoDigits(t.hour) && r[14..] == TwoDigits(t.minute);
      r
  }

  /** `Long.toString`. */
  function LongText(n: int): string {
    if n < 0 then "-" + NatToString(-n) else NatToString(n)
  }

  /** "<n> <unit> ago", with the unit in the plural unless n is 1. */
  function Ago(n: int, unit: string): string {
    LongText(n) + " " + unit + (if n == 1 then "" else "s") + " ago"
  }

  /** `getTimeAgo`: whole minutes, hours and days from the date-time to now,
      each truncated toward zero, tried in that order. */
  function TimeAgo(o: Option<DateTime>, now: DateTime): (r: string)
    ensures o.None? ==> r == ""
    ensures o.Some? ==>
              var elapsed := Instant(now) - Instant(o.value);
              && (elapsed < NanosPerMinute ==> r == "Just now")
              && (NanosPerMinute <= elapsed < NanosPerHour ==>
                    1 <= elapsed / NanosPerMinute < 60 && r == Ago(elapsed / NanosPerMinute, "minute"))
              && (NanosPerHour <= elapsed < NanosPerDay ==>
                    1 <= elapsed / NanosPerHour < 24 && r == Ago(elapsed / NanosPerHour, "hour"))
              && (NanosPerDay <= elapsed < 30 * NanosPerDay ==>
                    1 <= elapsed / NanosPerDay < 30 && r == Ago(elapsed / NanosPerDay, "day"))
              && (30 * NanosPerDay <= elapsed ==> r == FormatDate(o))
  {
    match o
    case None => ""
    case Some(t) =>
      var minutes := UnitsBetween(t, now, NanosPerMinute);
      var hours := UnitsBetween(t, now, NanosPerHour);
      var days := UnitsBetween(t, now, NanosPerDay);
      ElapsedUnits(Instant(now) - Instant(t));
      if minutes < 1 then "Just now"
      else if minutes < 60 then Ago(minutes, "minute")
      else if hours < 24 then Ago(hours, "hour")
      else if days < 30 then Ago(days, "day")
      else FormatDate(o)
  }

  /** How the three truncated counts relate to the elapsed time. */
  lemma ElapsedUnits(elapsed: int)
    ensures TruncDiv(elapsed, NanosPerMinute) < 1 <==> elapsed < NanosPerMinute
    ensures TruncDiv(elapsed, NanosPerMinute) < 60 <==> elapsed < NanosPerHour
    ensures TruncDiv(elapsed, NanosPerHour) < 24 <==> elapsed < NanosPerDay
    ensures TruncDiv(elapsed, NanosPerDay) < 30 <==> elapsed < 30 * NanosPerDay
    ensures elapsed >= 0 ==> TruncDiv(elapsed, NanosPerMinute) == elapsed / NanosPerMinute
    ensures elapsed >= 0 ==> TruncDiv(elapsed, NanosPerHour) == elapsed / NanosPerHour
    ensures elapsed >= 0 ==> TruncDiv(elapsed, NanosPerDay) == elapsed / NanosPerDay
  {
  }

  /** The relative text is "Just now" exactly for less than a minute ago,
      including any future date-time. */
  lemma JustNowIff(t: DateTime, now: DateTime)
    ensures TimeAgo(Some(t), now) == "Just now" <==> Instant(now) - Instant(t) < NanosPerMinute
  {
    var elapsed := Instant(now) - Instant(t);
    var r := TimeAgo(Some(t), now);
    if elapsed >= NanosPerMinute {
      assert IsDigit(r[0]) by {
        if elapsed < 30 * NanosPerDay {
          var n: nat := if elapsed < NanosPerHour then elapsed / NanosPerMinute
                        else if elapsed < NanosPerDay then elapsed / NanosPerHour
                        else elapsed / NanosPerDay;
          assert r[0] == NatToString(n)[0];
        } else {
          assert r[0] == DateText(t)[0];
        }
      }
    }
  }

  /** `getStartOfDay`: midnight of the same day. */
  function StartOfDay(now: DateTime): (r: DateTime)
    ensures r.year == now.year && r.month == now.month && r.day == now.day
    ensures Instant(r) <= Instant(now) < Instant(r) + NanosPerDay
  {
    NanoOfDayBounds(now);
    now.(hour := 0, minute := 0, second := 0, nano := 0)
  }

  /** `getStartOfMonth`: midnight of the first of the same month. */
  function StartOfMonth(now: DateTime): (r: DateTime)
    ensures r.year == now.year && r.month == now.month && r.day == 1
    ensures r.hour == 0 && r.minute == 0 && r.second == 0 && r.nano == 0
    ensures Instant(r) <= Instant(StartOfDay(now))
  {
    now.(day := 1, hour := 0, minute := 0, second := 0, nano := 0)
  }

  /** Both are idempotent, and the month starts no later than the day. */
  lemma StartsAreStable(now: DateTime)
    ensures StartOfDay(StartOfDay(now)) == StartOfDay(now)
    ensures StartOfMonth(StartOfMonth(now)) == StartOfMonth(now)
    ensures StartOfDay(StartOfMonth(now)) == StartOfMonth(now)
    ensures Instant(StartOfMonth(now)) <= Instant(StartOfDay(now)) <= Instant(now)
  {
  }
}

=== FILE: deposit.dfy ===
/** `DepositServiceImpl.processDeposit`: an administrator credits one account. */
module DepositService {

  import opened Wrappers
  import opened Domain
  import opened References
  import Time

  datatype DepositRequest = DepositRequest(
    accountNumber: string,
    amount: Cents,
    notes: Option<string>,
    depositSource: Option<string>)

  /** `String.format("%s", x)` prints a null argument as "null". */
  function SourceText(source: Option<string>): string {
    match source
    case Some(s) => s
    case None => "null"
  }

  /** "Deposit (<source>) by Admin - " followed by the notes, or by
      "Cash deposit" when there are none. */
  function DepositDescription(req: DepositRequest): (d: string)
    ensures req.notes.Some? ==> d == "Deposit (" + SourceText(req.depositSource) + ") by Admin - " + req.notes.value
    ensures req.notes.None? ==> d == "Deposit (" + SourceText(req.depositSource) + ") by Admin - Cash deposit"
  {
    NotedDescription("Deposit (" + SourceText(req.depositSource) + ") by Admin - ", req.notes, "Cash deposit")
  }

  /** The account must exist and be active; no ownership check is made, and
      both failures raise the insufficient-funds exception. A reference that
      clashes with a stored one makes the insert fail; the surrounding catch
      turns that into a RuntimeException. `uuid` stands for the random UUID
      and `now` for the clock. */
  function ProcessDeposit(bank: Bank, req: DepositRequest, uuid: string, now: Time.DateTime)
    : (r: Result<(Bank, TxnReceipt), Failure>)
    requires req.amount > 0
    requires IsUuidText(uuid)
    ensures !HasNumber(bank.accounts, req.accountNumber) ==>
              r == Err(Failure(InsufficientFunds, AccountMissing))
    ensures HasNumber(bank.accounts, req.accountNumber)
            && !bank.accounts[IndexOf(bank.accounts, req.accountNumber).value].active ==>
              r == Err(Failure(InsufficientFunds, AccountInactive))
    ensures r.Ok? <==>
              && HasNumber(bank.accounts, req.accountNumber)
              && bank.accounts[IndexOf(bank.accounts, req.accountNumber).value].active
              && !RefInUse(bank.ledger, Reference("DEP", uuid))
    ensures r.Err? && r.error.kind == RuntimeFailure ==> RefInUse(bank.ledger, Reference("DEP", uuid))
    ensures r.Ok? ==>
              var i := IndexOf(bank.accounts, req.accountNumber).value;
              var after := r.value.0;
              var receipt := r.value.1;
              && MovedBy(bank.accounts, after.accounts, i, req.amount)
              && after.users == bank.users
              && |after.ledger| == |bank.ledger| + 1
              && after.ledger[..|bank.ledger|] == bank.ledger
              && var row := after.ledger[|bank.ledger|];
              && row.id == |bank.ledger| + 1
              && row.createdAt == now
              && row.accountNumber == req.accountNumber
              && row.amount == req.amount
              && row.txnType == DEPOSIT && row.direction == CREDIT && row.status == COMPLETED
              && row.balanceAfter == after.accounts[i].balance
              && row.transferReference.None?
              && row.description == DepositDescription(req)
              && row.referenceNumber == Reference("DEP", uuid)
              && IsReference("DEP", row.referenceNumber)
              && !RefInUse(bank.ledger, row.referenceNumber)
              && receipt.referenceNumber == row.referenceNumber
              && receipt.accountNumber == req.accountNumber
              && receipt.amount == req.amount
              && receipt.notes == req.notes
              && receipt.transactionDate == now
              && receipt.transactionType == "DEPOSIT"
              && receipt.status == "COMPLETED"
              && receipt.balanceAfter == after.accounts[i].balance
              && receipt.depositSource == req.depositSource
  {
    match IndexOf(bank.accounts, req.accountNumber)
    case None => Err(Failure(InsufficientFunds, AccountMissing))
    case Some(i) =>
      var account := bank.accounts[i];
      if !account.active then Err(Failure(InsufficientFunds, AccountInactive))
      else
        var reference := Reference("DEP", uuid);
        if RefInUse(bank.ledger, reference) then Err(Failure(RuntimeFailure, DuplicateReference))
        else
          var newBalance := account.balance + req.amount;
          var row := Txn(|bank.ledger| + 1, account.number, req.amount, DEPOSIT, CREDIT,
                         DepositDescription(req), reference, None, COMPLETED, newBalance, now);
          var after := bank.(accounts := SetBalance(bank.accounts, i, newBalance),
                             ledger := bank.ledger + [row]);
          Ok((after, TxnReceipt(reference, req.accountNumber, req.amount, "DEPOSIT", req.notes,
                                "COMPLETED", newBalance, now, req.depositSource)))
  }
}

=== FILE: domain.dfy ===
/** Entities of the banking back end (`models/entity`, `models/enums`) and the
    persistent state the services work on.

    Money is an integer number of cents. The amount and balance columns are
    `numeric(15, 2)`, but the model does not bound them: a value past that
    column's range is stored here where the database would refuse it. The
    account store is kept in creation order, which is
    the order of the surrogate ids the database assigns. */
module Domain {

  import opened Wrappers
  import Time

  type Cents = int

  datatype Role = USER | ADMIN

  datatype AccountType = SAVINGS | CHECKING

  /** The transaction types the services write. The enum file itself declares
      only TRANSFER_OUT and TRANSFER_IN (see README). */
  datatype TxnType = DEPOSIT | WITHDRAW | TRANSFER

  datatype Direction = DEBIT | CREDIT

  datatype Status = PENDING | COMPLETED | FAILED | CANCELLED

  datatype User = User(
    id: nat,
    email: string,
    passwordHash: string,
    firstName: string,
    lastName: string,
    phoneNumber: string,
    address: string,
    role: Role,
    enabled: bool)

  /** An account row; `pinHash` is the encoded transaction PIN, null when
      none was set. */
  datatype Account = Account(
    number: string,
    ownerId: nat,
    accountType: AccountType,
    balance: Cents,
    pinHash: Option<string>,
    active: bool)

  /** A ledger row. The foreign key to its account is the account number,
      which is unique in the store. */
  datatype Txn = Txn(
    id: nat,
    accountNumber: string,
    amount: Cents,
    txnType: TxnType,
    direction: Direction,
    description: string,
    referenceNumber: string,
    transferReference: Option<string>,
    status: Status,
    balanceAfter: Cents,
    createdAt: Time.DateTime)

  datatype Bank = Bank(users: seq<User>, accounts: seq<Account>, ledger: seq<Txn>)

  /** The exception class a service throws. */
  datatype Kind =
    | InvalidAccount
    | InvalidPin
    | InsufficientFunds
    | AccountNotFound
    | AccountAccessDenied
    | UserNotFound
    | IllegalArgument
    | EmailAlreadyExists
    | InvalidCredentials
    | RuntimeFailure
    | DataIntegrityViolation
    | Arithmetic

  /** Which guard raised it. */
  datatype Reason =
    | SenderRequired | ReceiverRequired | AmountNotPositive | PinRequired | SameAccount
    | SenderNotFound | NoTransferPermission | SenderInactive
    | ReceiverNotFound | ReceiverInactive
    | PinNotSet | PinMismatch
    | BalanceTooLow | BelowMinimumBalance
    | AccountMissing | NotOwner | AccountInactive
    | DuplicateReference
    | PinConfirmationMismatch | EmailTaken | PhoneTaken | NoSuchUser | AccountTypeTaken
    | NoAccountForUser | TransactionMissing | TransactionAccessDenied
    | NonTerminatingQuotient

  datatype Failure = Failure(kind: Kind, reason: Reason)

  /** `TransactionResponse`, the receipt of a deposit or a withdrawal. */
  datatype TxnReceipt = TxnReceipt(
    referenceNumber: string,
    accountNumber: string,
    amount: Cents,
    transactionType: string,
    notes: Option<string>,
    status: string,
    balanceAfter: Cents,
    transactionDate: Time.DateTime,
    depositSource: Option<string>)

  /** A ledger row's description: a fixed lead-in followed by the request's
      notes, or by a stock phrase when the request has none. */
  function NotedDescription(leadIn: string, notes: Option<string>, otherwise: string): (d: string)
    ensures notes.Some? ==> d == leadIn + notes.value
    ensures notes.None? ==> d == leadIn + otherwise
  {
    leadIn + notes.GetOr(otherwise)
  }

  // ---------------------------------------------------------------------------
  // Account store: lookup by number (`findByAccountNumber`) and updates.
  // ---------------------------------------------------------------------------

  predicate HasNumber(accounts: seq<Account>, number: string) {
    exists j :: 0 <= j < |accounts| && accounts[j].number == number
  }

  /** Position of the account with the given number, if any. */
  function IndexOf(accounts: seq<Account>, number: string): (r: Option<nat>)
    ensures r.Some? ==> r.value < |accounts| && accounts[r.value].number == number
    ensures r.Some? ==> forall j :: 0 <= j < r.value ==> accounts[j].number != number
    ensures r.None? <==> !HasNumber(accounts, number)
  {
    if |accounts| == 0 then None
    else if accounts[0].number == number then Some(0)
    else
      match IndexOf(accounts[1..], number)
      case None => None
      case Some(i) => Some(i + 1)
  }

  /** Account numbers are a unique key. */
  predicate DistinctNumbers(accounts: seq<Account>) {
    forall i, j :: 0 <= i < j < |accounts| ==> accounts[i].number != accounts[j].number
  }

  /** With unique numbers, the lookup finds every stored account. */
  lemma IndexOfStored(accounts: seq<Account>, i: nat)
    requires DistinctNumbers(accounts) && i < |accounts|
    ensures IndexOf(accounts, accounts[i].number) == Some(i)
  {
  }

  function SetBalance(accounts: seq<Account>, i: nat, balance: Cents): (r: seq<Account>)
    requires i < |accounts|
    ensures |r| == |accounts|
    ensures r[i].balance == balance
  {
    accounts[i := accounts[i].(balance := balance)]
  }

  /** `after` differs from `before` only in the balance of account `i`, which
      moved by exactly `delta`. */
  predicate MovedBy(before: seq<Account>, after: seq<Account>, i: nat, delta: int) {
    && |after| == |before|
    && i < |before|
    && after[i] == before[i].(balance := before[i].balance + delta)
    && forall j :: 0 <= j < |before| && j != i ==> after[j] == before[j]
  }

  /** `after` differs from `before` only in accounts `i` and `j`: `amount`
      left account `i` and arrived in account `j`. */
  predicate Transferred(before: seq<Account>, after: seq<Account>, i: nat, j: nat, amount: int) {
    && |after| == |before|
    && i < |before| && j < |before| && i != j
    && after[i] == before[i].(balance := before[i].balance - amount)
    && after[j] == before[j].(balance := before[j].balance + amount)
    && forall k :: 0 <= k < |before| && k != i && k != j ==> after[k] == before[k]
  }

  function Sum(accounts: seq<Account>): int {
    if accounts == [] then 0 else Sum(accounts[..|accounts| - 1]) + accounts[|accounts| - 1].balance
  }

  /** The accounts that satisfy `keep`, in store order (a derived query's
      `WHERE` clause). */
  function Select(accounts: seq<Account>, keep: Account -> bool): (r: seq<Account>)
    ensures |r| <= |accounts|
    ensures forall k :: 0 <= k < |r| ==> keep(r[k]) && r[k] in accounts
    ensures forall k :: 0 <= k < |accounts| && keep(accounts[k]) ==> accounts[k] in r
  {
    if accounts == [] then []
    else
      var last := accounts[|accounts| - 1];
      Select(accounts[..|accounts| - 1], keep) + (if keep(last) then [last] else [])
  }

  /** The balance total over the accounts that satisfy `keep`, counted
      account by account without building the selection. */
  function SumWhere(accounts: seq<Account>, keep: Account -> bool): int {
    if accounts == [] then 0
    else
      var last := accounts[|accounts| - 1];
      SumWhere(accounts[..|accounts| - 1], keep) + (if keep(last) then last.balance else 0)
  }

  /** Summing a selection is summing the selected balances in place. */
  lemma {:induction false} SumSelect(accounts: seq<Account>, keep: Account -> bool)
    ensures Sum(Select(accounts, keep)) == SumWhere(accounts, keep)
  {
    if accounts != [] {
      var init := accounts[..|accounts| - 1];
      var last := accounts[|accounts| - 1];
      SumSelect(init, keep);
      SumAppend(Select(init, keep), if keep(last) then [last] else []);
    }
  }

  /** A selection keeps every copy of a satisfying account and no copy of any
      other: as a bag it is exactly the satisfying part of the store. */
  lemma {:induction false} SelectMultiset(accounts: seq<Account>, keep: Account -> bool, a: Account)
    ensures multiset(Select(accounts, keep))[a] == if keep(a) then multiset(accounts)[a] else 0
  {
    if accounts != [] {
      var init := accounts[..|accounts| - 1];
      var last := accounts[|accounts| - 1];
      assert accounts == init + [last];
      SelectMultiset(init, keep, a);
    }
  }

  /** `SelectMultiset` for every account at once. */
  lemma SelectBag(accounts: seq<Account>, keep: Account -> bool)
    ensures forall a :: multiset(Select(accounts, keep))[a] == if keep(a) then multiset(accounts)[a] else 0
  {
    forall a ensures multiset(Select(accounts, keep))[a] == if keep(a) then multiset(accounts)[a] else 0 {
      SelectMultiset(accounts, keep, a);
    }
  }

  /** The number of accounts that satisfy `keep`, counted one by one. */
  function CountWhere(accounts: seq<Account>, keep: Account -> bool): nat {
    if accounts == [] then 0
    else
      CountWhere(accounts[..|accounts| - 1], keep) + (if keep(accounts[|accounts| - 1]) then 1 else 0)
  }

  /** A selection holds as many accounts as satisfy its condition. */
  lemma {:induction false} CountSelect(accounts: seq<Account>, keep: Account -> bool)
    ensures |Select(accounts, keep)| == CountWhere(accounts, keep)
  {
    if accounts != [] {
      CountSelect(accounts[..|accounts| - 1], keep);
    }
  }

  /** Java's `(int)` cast of a `long`: two's-complement wrap-around to 32 bits. */
  function ToInt32(x: int): (r: int)
    ensures -0x8000_0000 <= r < 0x8000_0000
    ensures (r - x) % 0x1_0000_0000 == 0
    ensures -0x8000_0000 <= x < 0x8000_0000 ==> r == x
  {
    (x + 0x8000_0000) % 0x1_0000_0000 - 0x8000_0000
  }

  lemma {:induction false} SumAppend(a: seq<Account>, b: seq<Account>)
    ensures Sum(a + b) == Sum(a) + Sum(b)
  {
    if b != [] {
      assert (a + b)[..|a + b| - 1] == a + b[..|b| - 1];
      SumAppend(a, b[..|b| - 1]);
    } else {
      assert a + b == a;
    }
  }

  /** Newest first: the store order reversed. */
  function Reverse(s: seq<Account>): (r: seq<Account>)
    ensures |r| == |s|
    ensures forall k :: 0 <= k < |s| ==> r[k] == s[|s| - 1 - k]
  {
    if s == [] then [] else [s[|s| - 1]] + Reverse(s[..|s| - 1])
  }

  /** Reordering does not change a total. */
  lemma {:induction false} SumReverse(s: seq<Account>)
    ensures Sum(Reverse(s)) == Sum(s)
  {
    if s != [] {
      var init := s[..|s| - 1];
      SumReverse(init);
      SumAppend([s[|s| - 1]], Reverse(init));
      assert Sum([s[|s| - 1]]) == s[|s| - 1].balance by {
        assert [s[|s| - 1]][..0] == [];
      }
    }
  }

  /** Balances that are all non-negative add up to a non-negative total. */
  lemma {:induction false} SumNonNegative(s: seq<Account>)
    requires forall k :: 0 <= k < |s| ==> s[k].balance >= 0
    ensures Sum(s) >= 0
  {
    if s != [] {
      SumNonNegative(s[..|s| - 1]);
    }
  }

  /** Moving one balance by `delta` moves the total by `delta`. */
  lemma {:induction false} SumSetBalance(accounts: seq<Account>, i: nat, balance: Cents)
    requires i < |accounts|
    ensures Sum(SetBalance(accounts, i, balance)) == Sum(accounts) - accounts[i].balance + balance
  {
    var r := SetBalance(accounts, i, balance);
    var n := |accounts|;
    if i == n - 1 {
      assert r[..n - 1] == accounts[..n - 1];
    } else {
      assert r[..n - 1] == SetBalance(accounts[..n - 1], i, balance);
      SumSetBalance(accounts[..n - 1], i, balance);
    }
  }

  // ---------------------------------------------------------------------------
  // User store: `findByEmail`, `existsByEmail`, `existsByPhoneNumber`.
  // ---------------------------------------------------------------------------

  predicate HasEmail(users: seq<User>, email: string) {
    exists j :: 0 <= j < |users| && users[j].email == email
  }

  predicate HasPhone(users: seq<User>, phone: string) {
    exists j :: 0 <= j < |users| && users[j].phoneNumber == phone
  }

  /** Position of the user with the given e-mail, if any. */
  function UserIndexByEmail(users: seq<User>, email: string): (r: Option<nat>)
    ensures r.Some? ==> r.value < |users| && users[r.value].email == email
    ensures r.Some? ==> forall j :: 0 <= j < r.value ==> users[j].email != email
    ensures r.None? <==> !HasEmail(users, email)
  {
    if |users| == 0 then None
    else if users[0].email == email then Some(0)
    else
      match UserIndexByEmail(users[1..], email)
      case None => None
      case Some(i) => Some(i + 1)
  }

  // ---------------------------------------------------------------------------
  // Ledger.
  // ---------------------------------------------------------------------------

  predicate RefInUse(ledger: seq<Txn>, reference: string) {
    exists k :: 0 <= k < |ledger| && ledger[k].referenceNumber == reference
  }

  /** The `reference_number` column is unique. */
  predicate DistinctReferences(ledger: seq<Txn>) {
    forall i, j :: 0 <= i < j < |ledger| ==> ledger[i].referenceNumber != ledger[j].referenceNumber
  }

  /** The newest row of an account, if it has any. */
  function LatestRow(ledger: seq<Txn>, number: string): (r: Option<Txn>)
    ensures r.Some? ==> r.value in ledger && r.value.accountNumber == number
    ensures r.None? <==> forall k :: 0 <= k < |ledger| ==> ledger[k].accountNumber != number
  {
    if ledger == [] then None
    else if ledger[|ledger| - 1].accountNumber == number then Some(ledger[|ledger| - 1])
    else LatestRow(ledger[..|ledger| - 1], number)
  }

  // ---------------------------------------------------------------------------
  // The state invariant every committed operation keeps.
  // ---------------------------------------------------------------------------

  predicate Valid(b: Bank) {
    && UsersNumbered(b.users)
    && RowsNumbered(b.ledger)
    && OwnersStored(b.accounts, |b.users|)
    && DistinctNumbers(b.accounts)
    && NonNegative(b.accounts)
    && DistinctReferences(b.ledger)
    && RowsStored(b.ledger, b.accounts)
    && LatestAgrees(b.ledger, b.accounts)
  }

  /** Users carry identity ids 1, 2, 3, ... in insertion order. */
  predicate UsersNumbered(users: seq<User>) {
    forall i :: 0 <= i < |users| ==> users[i].id == i + 1
  }

  /** So do ledger rows. */
  predicate RowsNumbered(ledger: seq<Txn>) {
    forall i :: 0 <= i < |ledger| ==> ledger[i].id == i + 1
  }

  /** Every account belongs to one of the stored users. */
  predicate OwnersStored(accounts: seq<Account>, userCount: nat) {
    forall i :: 0 <= i < |accounts| ==> 1 <= accounts[i].ownerId <= userCount
  }

  predicate NonNegative(accounts: seq<Account>) {
    forall i :: 0 <= i < |accounts| ==> accounts[i].balance >= 0
  }

  /** Every row refers to a stored account. */
  predicate RowsStored(ledger: seq<Txn>, accounts: seq<Account>) {
    forall k :: 0 <= k < |ledger| ==> HasNumber(accounts, ledger[k].accountNumber)
  }

  /** The newest row of each account records that account's current balance. */
  predicate LatestAgrees(ledger: seq<Txn>, accounts: seq<Account>) {
    forall i :: 0 <= i < |accounts| ==>
      LatestRow(ledger, accounts[i].number).Some? ==>
        LatestRow(ledger, accounts[i].number).value.balanceAfter == accounts[i].balance
  }
}

=== FILE: generators.dfy ===
/** `AccountNumberGenerator.generateAccountNumber`: "ACC", the date as
    `yyyyMMdd` and a random value below 10000 as four digits. The clock's
    reading and the random value are parameters. */
module AccountNumberGenerator {

  import opened Text
  import opened Time
  import opened Wrappers
  import DateTimeUtil
  import AccountValidator

  const Prefix := "ACC"

  function GenerateAccountNumber(now: DateTime, random: nat): (s: string)
    requires random < 10000
    ensures |s| >= 3 && s[..3] == Prefix
    ensures 1 <= now.year <= 9999 ==>
              && |s| == 15
              && AccountValidator.IsValidAccountNumber(Some(s))
              && AllDigits(s[3..7]) && ParseDigits(s[3..7]) == now.year
              && AllDigits(s[7..9]) && ParseDigits(s[7..9]) == now.month
              && AllDigits(s[9..11]) && ParseDigits(s[9..11]) == now.day
              && AllDigits(s[11..]) && ParseDigits(s[11..]) == random
  {
    var year := DateTimeUtil.YearText(now.year);
    var month := DateTimeUtil.TwoDigits(now.month);
    var day := DateTimeUtil.TwoDigits(now.day);
    FixedDigitsRoundTrip(random, 4);
    var tail := FixedDigits(random, 4);
    var s := Prefix + year + month + day + tail;
    assert s[..3] == Prefix;
    assert 1 <= now.year <= 9999 ==>
             s[3..7] == year && s[7..9] == month && s[9..11] == day && s[11..] == tail
             && s[3..] == year + month + day + tail;
    s
  }

  /** On one day, different random values give different numbers, and on
      different days the numbers differ whatever the random values. */
  lemma NumbersDiffer(a: DateTime, b: DateTime, x: nat, y: nat)
    requires x < 10000 && y < 10000
    requires 1 <= a.year <= 9999 && 1 <= b.year <= 9999
    requires GenerateAccountNumber(a, x) == GenerateAccountNumber(b, y)
    ensures a.year == b.year && a.month == b.month && a.day == b.day && x == y
  {
  }
}

/** `UserIdGenerator.generateCustomerId`: "CUST" and a random value below
    10^8 as eight digits. The random value is a parameter. */
module UserIdGenerator {

  import opened Text

  function GenerateCustomerId(random: nat): (s: string)
    requires random < 100_000_000
    ensures |s| == 12 && s[..4] == "CUST"
    ensures AllDigits(s[4..]) && ParseDigits(s[4..]) == random
  {
    assert Pow10(8) == 100_000_000;
    FixedDigitsRoundTrip(random, 8);
    var s := "CUST" + FixedDigits(random, 8);
    assert s[4..] == FixedDigits(random, 8);
    s
  }

  /** Different random values give different customer ids. */
  lemma CustomerIdInjective(x: nat, y: nat)
    requires x < 100_000_000 && y < 100_000_000
    requires GenerateCustomerId(x) == GenerateCustomerId(y)
    ensures x == y
  {
  }
}

=== FILE: invariants.dfy ===
/** What the money-moving services keep true of the store: every committed
    deposit, withdrawal, transfer, registration and account opening takes a
    consistent store (`Domain.Valid`) to a consistent store, and moves the
    total of all balances by exactly the money that entered or left the
    bank. A rejected call returns no store, so the stored state is the one
    it started from. */
module Invariants {

  import opened Wrappers
  import opened Domain
  import opened References
  import Time
  import DepositService
  import WithdrawalService
  import TransferService
  import AccountService
  import UserService
  import RegistrationRequest

  // ---------------------------------------------------------------------------
  // The ledger and the store under the updates the services make.
  // ---------------------------------------------------------------------------

  /** Appending a row makes it the newest row of its own account and leaves
      every other account's newest row where it was. */
  lemma LatestRowAppend(ledger: seq<Txn>, t: Txn, number: string)
    ensures LatestRow(ledger + [t], number) ==
              if t.accountNumber == number then Some(t) else LatestRow(ledger, number)
  {
    assert (ledger + [t])[..|ledger|] == ledger;
  }

  /** Moving one balance by `delta` moves the total by `delta`. */
  lemma MovedBySum(before: seq<Account>, after: seq<Account>, i: nat, delta: int)
    requires MovedBy(before, after, i, delta)
    ensures Sum(after) == Sum(before) + delta
  {
    assert after == SetBalance(before, i, before[i].balance + delta);
    SumSetBalance(before, i, before[i].balance + delta);
  }

  /** Moving money between two accounts leaves the total where it was. */
  lemma TransferredSum(before: seq<Account>, after: seq<Account>, i: nat, j: nat, amount: int)
    requires Transferred(before, after, i, j, amount)
    ensures Sum(after) == Sum(before)
  {
    // the store after the debit, before the credit
    var mid := before[i := before[i].(balance := before[i].balance - amount)];
    assert MovedBy(before, mid, i, -amount);
    assert MovedBy(mid, after, j, amount);
    MovedBySum(before, mid, i, -amount);
    MovedBySum(mid, after, j, amount);
  }

  /** Accounts that keep their numbers keep the numbers distinct and keep
      every number stored. */
  lemma NumbersKept(before: seq<Account>, after: seq<Account>)
    requires |after| == |before| && DistinctNumbers(before)
    requires forall k :: 0 <= k < |after| ==> after[k].number == before[k].number
    ensures DistinctNumbers(after)
    ensures forall n :: HasNumber(before, n) ==> HasNumber(after, n)
  {
    forall n | HasNumber(before, n) ensures HasNumber(after, n) {
      var j :| 0 <= j < |before| && before[j].number == n;
      assert after[j].number == n;
    }
  }

  /** A row with a new reference keeps the references distinct. */
  lemma AppendRefKeepsDistinct(ledger: seq<Txn>, row: Txn)
    requires DistinctReferences(ledger) && !RefInUse(ledger, row.referenceNumber)
    ensures DistinctReferences(ledger + [row])
  {
    var after := ledger + [row];
    forall p, q | 0 <= p < q < |after| ensures after[p].referenceNumber != after[q].referenceNumber {
      assert after[p] == ledger[p];
    }
  }

  /** Rows that name stored numbers still do after the store keeps its
      numbers, and so does a row for one of its accounts. */
  lemma AppendRowStored(ledger: seq<Txn>, before: seq<Account>, after: seq<Account>, row: Txn, i: nat)
    requires RowsStored(ledger, before)
    requires forall n :: HasNumber(before, n) ==> HasNumber(after, n)
    requires i < |after| && row.accountNumber == after[i].number
    ensures RowsStored(ledger + [row], after)
  {
    var rows := ledger + [row];
    forall k | 0 <= k < |rows| ensures HasNumber(after, rows[k].accountNumber) {
      if k < |ledger| {
        assert rows[k] == ledger[k];
      }
    }
  }

  /** The appended row becomes the newest row of account `i`, recording its
      balance; every other account keeps its newest row and its balance. */
  lemma AppendRowLatest(ledger: seq<Txn>, before: seq<Account>, after: seq<Account>, row: Txn, i: nat)
    requires LatestAgrees(ledger, before) && DistinctNumbers(after)
    requires |after| == |before| && i < |after|
    requires forall k :: 0 <= k < |after| ==> after[k].number == before[k].number
    requires forall k :: 0 <= k < |after| && k != i ==> after[k].balance == before[k].balance
    requires row.accountNumber == after[i].number && row.balanceAfter == after[i].balance
    ensures LatestAgrees(ledger + [row], after)
  {
    forall k | 0 <= k < |after| && LatestRow(ledger + [row], after[k].number).Some?
      ensures LatestRow(ledger + [row], after[k].number).value.balanceAfter == after[k].balance
    {
      LatestRowAppend(ledger, row, after[k].number);
      if k != i {
        assert after[k].number != after[i].number;
      }
    }
  }

  /** A store whose accounts keep their numbers and owners but change some
      balances, with one row appended for a changed account that records
      its new balance, stays consistent provided every balance is still
      non-negative and the row's reference is new. */
  lemma AppendRowKeepsValid(bank: Bank, accounts: seq<Account>, row: Txn, i: nat)
    requires Valid(bank)
    requires |accounts| == |bank.accounts| && i < |accounts|
    requires forall k :: 0 <= k < |accounts| ==> accounts[k].number == bank.accounts[k].number
    requires forall k :: 0 <= k < |accounts| ==> accounts[k].ownerId == bank.accounts[k].ownerId
    requires NonNegative(accounts)
    requires forall k :: 0 <= k < |accounts| && k != i ==> accounts[k].balance == bank.accounts[k].balance
    requires row.id == |bank.ledger| + 1
    requires row.accountNumber == accounts[i].number
    requires row.balanceAfter == accounts[i].balance
    requires !RefInUse(bank.ledger, row.referenceNumber)
    ensures Valid(Bank(bank.users, accounts, bank.ledger + [row]))
  {
    NumbersKept(bank.accounts, accounts);
    OwnersKept(bank.accounts, accounts, |bank.users|);
    AppendRowNumbered(bank.ledger, row);
    AppendRefKeepsDistinct(bank.ledger, row);
    AppendRowStored(bank.ledger, bank.accounts, accounts, row, i);
    AppendRowLatest(bank.ledger, bank.accounts, accounts, row, i);
  }

  /** Accounts that keep their owners keep them stored. */
  lemma OwnersKept(before: seq<Account>, after: seq<Account>, userCount: nat)
    requires OwnersStored(before, userCount) && |after| == |before|
    requires forall k :: 0 <= k < |after| ==> after[k].ownerId == before[k].ownerId
    ensures OwnersStored(after, userCount)
  {
  }

  /** A row with the next id keeps the ids in order. */
  lemma AppendRowNumbered(ledger: seq<Txn>, row: Txn)
    requires RowsNumbered(ledger) && row.id == |ledger| + 1
    ensures RowsNumbered(ledger + [row])
  {
    var after := ledger + [row];
    assert forall k :: 0 <= k < |ledger| ==> after[k] == ledger[k];
  }

  /** An account with an unstored number keeps the numbers distinct and
      every row stored, and has no newest row yet. */
  lemma AppendAccountRows(ledger: seq<Txn>, accounts: seq<Account>, a: Account)
    requires DistinctNumbers(accounts) && RowsStored(ledger, accounts) && LatestAgrees(ledger, accounts)
    requires !HasNumber(accounts, a.number)
    ensures DistinctNumbers(accounts + [a])
    ensures RowsStored(ledger, accounts + [a])
    ensures LatestAgrees(ledger, accounts + [a])
  {
    var after := accounts + [a];
    assert forall k :: 0 <= k < |accounts| ==> after[k] == accounts[k];
    forall k | 0 <= k < |ledger| ensures HasNumber(after, ledger[k].accountNumber) {
      var j :| 0 <= j < |accounts| && accounts[j].number == ledger[k].accountNumber;
      assert after[j].number == ledger[k].accountNumber;
    }
    assert LatestRow(ledger, a.number).None? by {
      forall k | 0 <= k < |ledger| ensures ledger[k].accountNumber != a.number {
        var j :| 0 <= j < |accounts| && accounts[j].number == ledger[k].accountNumber;
      }
    }
  }

  /** A new account whose number is not stored, owned by a stored user and
      with a non-negative balance, keeps the store consistent: no row can
      name an unstored number, so the account has no newest row yet. */
  lemma AppendAccountKeepsValid(bank: Bank, users: seq<User>, a: Account)
    requires Valid(bank)
    requires |users| >= |bank.users|
    requires users[..|bank.users|] == bank.users
    requires forall k :: 0 <= k < |users| ==> users[k].id == k + 1
    requires 1 <= a.ownerId <= |users|
    requires !HasNumber(bank.accounts, a.number)
    requires a.balance >= 0
    ensures Valid(Bank(users, bank.accounts + [a], bank.ledger))
  {
    AppendAccountRows(bank.ledger, bank.accounts, a);
    var accounts := bank.accounts + [a];
    assert forall k :: 0 <= k < |bank.accounts| ==> accounts[k] == bank.accounts[k];
  }

  // ---------------------------------------------------------------------------
  // The services.
  // ---------------------------------------------------------------------------

  /** A committed deposit keeps the store consistent and adds exactly the
      deposited amount to the bank's total. */
  lemma DepositKeepsValid(bank: Bank, req: DepositService.DepositRequest, uuid: string, now: Time.DateTime)
    requires Valid(bank)
    requires req.amount > 0 && IsUuidText(uuid)
    requires DepositService.ProcessDeposit(bank, req, uuid, now).Ok?
    ensures var after := DepositService.ProcessDeposit(bank, req, uuid, now).value.0;
            Valid(after) && Sum(after.accounts) == Sum(bank.accounts) + req.amount
  {
    var after := DepositService.ProcessDeposit(bank, req, uuid, now).value.0;
    var i := IndexOf(bank.accounts, req.accountNumber).value;
    var row := after.ledger[|bank.ledger|];
    assert after.ledger == bank.ledger + [row];
    AppendRowKeepsValid(bank, after.accounts, row, i);
    assert after == Bank(bank.users, after.accounts, bank.ledger + [row]);
    MovedBySum(bank.accounts, after.accounts, i, req.amount);
  }

  /** A committed withdrawal keeps the store consistent and takes exactly the
      withdrawn amount out of the bank's total. */
  lemma WithdrawalKeepsValid(bank: Bank, req: WithdrawalService.WithdrawalRequest, callerId: nat,
                             matches: (string, string) -> bool, uuid: string, now: Time.DateTime)
    requires Valid(bank)
    requires req.amount > 0 && IsUuidText(uuid)
    requires WithdrawalService.ProcessWithdrawal(bank, req, callerId, matches, uuid, now).Ok?
    ensures var after := WithdrawalService.ProcessWithdrawal(bank, req, callerId, matches, uuid, now).value.0;
            Valid(after) && Sum(after.accounts) == Sum(bank.accounts) - req.amount
  {
    var after := WithdrawalService.ProcessWithdrawal(bank, req, callerId, matches, uuid, now).value.0;
    var i := IndexOf(bank.accounts, req.accountNumber).value;
    var row := after.ledger[|bank.ledger|];
    assert after.ledger == bank.ledger + [row];
    AppendRowKeepsValid(bank, after.accounts, row, i);
    assert after == Bank(bank.users, after.accounts, bank.ledger + [row]);
    MovedBySum(bank.accounts, after.accounts, i, -req.amount);
  }

  /** One leg of a transfer: setting account `i` to a non-negative balance
      and writing the row that records it keeps the store consistent. */
  lemma PostRowKeepsValid(bank: Bank, i: nat, balance: Cents, row: Txn, after: Bank)
    requires Valid(bank)
    requires i < |bank.accounts| && balance >= 0
    requires row.id == |bank.ledger| + 1
    requires row.accountNumber == bank.accounts[i].number
    requires row.balanceAfter == balance
    requires !RefInUse(bank.ledger, row.referenceNumber)
    requires after == Bank(bank.users, SetBalance(bank.accounts, i, balance), bank.ledger + [row])
    ensures Valid(after)
  {
    AppendRowKeepsValid(bank, SetBalance(bank.accounts, i, balance), row, i);
  }

  /** A reference is in use after an append exactly when it was before or
      is the appended row's. */
  lemma RefInUseAppend(ledger: seq<Txn>, row: Txn, reference: string)
    ensures RefInUse(ledger + [row], reference) <==> RefInUse(ledger, reference) || row.referenceNumber == reference
  {
    var after := ledger + [row];
    assert forall k :: 0 <= k < |ledger| ==> after[k] == ledger[k];
    assert after[|ledger|] == row;
  }

  /** The debit leg followed by the credit leg: two accounts moved in
      opposite directions, each with a row recording its new balance under
      a fresh reference, keep the store consistent. */
  lemma TwoLegsKeepValid(bank: Bank, si: nat, ri: nat, amount: Cents, debit: Txn, credit: Txn, after: Bank)
    requires Valid(bank)
    requires si < |bank.accounts| && ri < |bank.accounts| && si != ri
    requires 0 < amount <= bank.accounts[si].balance
    requires debit.id == |bank.ledger| + 1 && credit.id == |bank.ledger| + 2
    requires debit.accountNumber == bank.accounts[si].number
    requires credit.accountNumber == bank.accounts[ri].number
    requires debit.balanceAfter == bank.accounts[si].balance - amount
    requires credit.balanceAfter == bank.accounts[ri].balance + amount
    requires !RefInUse(bank.ledger, debit.referenceNumber) && !RefInUse(bank.ledger, credit.referenceNumber)
    requires debit.referenceNumber != credit.referenceNumber
    requires after == Bank(bank.users,
                           SetBalance(SetBalance(bank.accounts, si, bank.accounts[si].balance - amount),
                                      ri, bank.accounts[ri].balance + amount),
                           bank.ledger + [debit, credit])
    ensures Valid(after)
  {
    // the store between the two inserts: the debit leg written, the credit not yet
    var mid := Bank(bank.users, SetBalance(bank.accounts, si, bank.accounts[si].balance - amount),
                    bank.ledger + [debit]);
    assert after.ledger == mid.ledger + [credit];
    PostRowKeepsValid(bank, si, bank.accounts[si].balance - amount, debit, mid);
    RefInUseAppend(bank.ledger, debit, credit.referenceNumber);
    assert mid.accounts[ri] == bank.accounts[ri];
    PostRowKeepsValid(mid, ri, bank.accounts[ri].balance + amount, credit, after);
  }

  /** Settling a transfer the sender can cover, with two fresh and distinct
      row references, keeps the store consistent and the total unchanged. */
  lemma SettleKeepsValid(bank: Bank, si: nat, ri: nat, amount: Cents, notes: Option<string>,
                         debitRef: string, creditRef: string, debitRowRef: string, creditRowRef: string,
                         now: Time.DateTime)
    requires Valid(bank)
    requires si < |bank.accounts| && ri < |bank.accounts| && si != ri
    requires 0 < amount <= bank.accounts[si].balance
    requires !RefInUse(bank.ledger, debitRowRef) && !RefInUse(bank.ledger, creditRowRef)
    requires debitRowRef != creditRowRef
    ensures var after := TransferService.Settle(bank, si, ri, amount, notes, debitRef, creditRef,
                                                debitRowRef, creditRowRef, now);
            Valid(after) && Sum(after.accounts) == Sum(bank.accounts)
  {
    var after := TransferService.Settle(bank, si, ri, amount, notes, debitRef, creditRef,
                                        debitRowRef, creditRowRef, now);
    var debit := after.ledger[|bank.ledger|];
    var credit := after.ledger[|bank.ledger| + 1];
    TwoLegsKeepValid(bank, si, ri, amount, debit, credit, after);
    TransferredSum(bank.accounts, after.accounts, si, ri, amount);
  }

  /** A committed transfer keeps the store consistent and leaves the bank's
      total where it was: the debit and the credit cancel out. */
  lemma TransferKeepsValid(bank: Bank, req: TransferService.TransferRequest, caller: TransferService.Caller,
                           matches: (string, string) -> bool, u: TransferService.TransferUuids,
                           now: Time.DateTime)
    requires Valid(bank)
    requires TransferService.ValidUuids(u)
    requires TransferService.TransferMoney(bank, req, caller, matches, u, now).Ok?
    ensures var after := TransferService.TransferMoney(bank, req, caller, matches, u, now).value.0;
            Valid(after) && Sum(after.accounts) == Sum(bank.accounts)
  {
    var r := TransferService.TransferMoney(bank, req, caller, matches, u, now);
    var si := IndexOf(bank.accounts, TransferService.SenderKey(req)).value;
    var ri := IndexOf(bank.accounts, TransferService.ReceiverKey(req)).value;
    SettleKeepsValid(bank, si, ri, req.amount.value, req.notes,
                     Reference(TransferService.Prefix, u.debitRef), Reference(TransferService.Prefix, u.creditRef),
                     Reference(TransferService.Prefix, u.debitRow), Reference(TransferService.Prefix, u.creditRow),
                     now);
  }

  /** A registration keeps the store consistent and adds the initial deposit
      to the bank's total; the request's constraints make that deposit
      positive. */
  lemma RegistrationKeepsValid(bank: Bank, req: RegistrationRequest.UserRegistrationRequest,
                               encodePassword: string -> string, encodePin: string -> string,
                               candidates: seq<string>)
    requires Valid(bank)
    requires RegistrationRequest.Valid(req)
    requires AccountService.GeneratorStops(bank.accounts, candidates)
    requires UserService.RegisterUser(bank, req, encodePassword, encodePin, candidates).Ok?
    ensures var after := UserService.RegisterUser(bank, req, encodePassword, encodePin, candidates).value.0;
            Valid(after) && Sum(after.accounts) == Sum(bank.accounts) + req.initialDeposit.value
  {
    var out := UserService.RegisterUser(bank, req, encodePassword, encodePin, candidates).value;
    var users := bank.users + [out.1];
    assert users[..|bank.users|] == bank.users;
    AppendAccountKeepsValid(bank, users, out.2);
    assert out.0 == Bank(users, bank.accounts + [out.2], bank.ledger);
    SumAppend(bank.accounts, [out.2]);
    assert Sum([out.2]) == out.2.balance by {
      assert [out.2][..0] == [];
    }
  }

  /** Opening a further account keeps the store consistent and adds its
      initial deposit, or nothing when there is none, to the bank's total.
      The request's constraint makes a present deposit positive. */
  lemma OpeningKeepsValid(bank: Bank, req: AccountService.CreateAccountRequest, userEmail: string,
                          encode: string -> string, candidates: seq<string>)
    requires Valid(bank)
    requires req.initialDeposit.None? || req.initialDeposit.value > 0
    requires AccountService.GeneratorStops(bank.accounts, candidates)
    requires AccountService.CreateAccountForUser(bank, req, userEmail, encode, candidates).Ok?
    ensures var after := AccountService.CreateAccountForUser(bank, req, userEmail, encode, candidates).value.0;
            Valid(after) && Sum(after.accounts) == Sum(bank.accounts) + req.initialDeposit.GetOr(0)
  {
    var after := AccountService.CreateAccountForUser(bank, req, userEmail, encode, candidates).value.0;
    var a := after.accounts[|bank.accounts|];
    assert after.accounts == bank.accounts + [a];
    var ui := UserIndexByEmail(bank.users, userEmail).value;
    assert a.ownerId == bank.users[ui].id == ui + 1;
    assert bank.users[..|bank.users|] == bank.users;
    AppendAccountKeepsValid(bank, bank.users, a);
    assert after == Bank(bank.users, bank.accounts + [a], bank.ledger);
    SumAppend(bank.accounts, [a]);
    assert Sum([a]) == a.balance by {
      assert [a][..0] == [];
    }
  }
}

=== FILE: pin_validator.dfy ===
/** `PinValidator`: the format of a transaction PIN and the rule that rejects
    guessable ones. */
module PinValidator {

  import opened Wrappers
  import opened Text

  /** `^\d{4}$` on a non-null PIN: exactly four ASCII digits. */
  predicate IsValidPin(pin: Option<string>) {
    pin.Some? && |pin.value| == 4 && AllDigits(pin.value)
  }

  /** The PINs turned down by name. */
  const Blacklist: set<string> := {"0000", "1234", "1111", "2222", "3333", "4444"}

  function Abs(x: int): nat {
    if x < 0 then -x else x
  }

  /** Every digit is one more or one less than the digit before it. */
  predicate Sequential(pin: string)
    requires AllDigits(pin)
  {
    forall i :: 0 <= i < |pin| - 1 ==> Abs(DigitValue(pin[i]) - DigitValue(pin[i + 1])) == 1
  }

  /** `isSequential`: scans adjacent pairs and stops at the first whose
      digits do not differ by exactly one. It is only ever called on a valid
      PIN, whose characters are digits. */
  method IsSequential(pin: string) returns (b: bool)
    requires AllDigits(pin)
    ensures b <==> Sequential(pin)
  {
    var i := 0;
    while i < |pin| - 1
      invariant 0 <= i <= if |pin| == 0 then 0 else |pin| - 1
      invariant forall j :: 0 <= j < i ==> Abs(DigitValue(pin[j]) - DigitValue(pin[j + 1])) == 1
    {
      var current: int := DigitValue(pin[i]);
      var next: int := DigitValue(pin[i + 1]);
      if Abs(current - next) != 1 {
        return false;
      }
      i := i + 1;
    }
    return true;
  }

  /** A secure PIN is valid, not on the list and not sequential. */
  predicate Secure(pin: Option<string>) {
    IsValidPin(pin) && pin.value !in Blacklist && !Sequential(pin.value)
  }

  /** `isPinSecure`: the format first, then the list, then the scan. */
  method IsPinSecure(pin: Option<string>) returns (b: bool)
    ensures b <==> Secure(pin)
    ensures b ==> IsValidPin(pin)
  {
    if !IsValidPin(pin) {
      return false;
    }
    var p := pin.value;
    if p == "0000" || p == "1234" || p == "1111" || p == "2222" || p == "3333" || p == "4444" {
      return false;
    }
    var sequential := IsSequential(p);
    if sequential {
      return false;
    }
    return true;
  }

  /** No listed PIN is ever secure, and all but "1234" are turned down only
      by the list: a repeated digit is not sequential. */
  lemma BlacklistNeverSecure(p: string)
    requires p in Blacklist
    ensures !Secure(Some(p))
    ensures AllDigits(p)
    ensures p != "1234" ==> !Sequential(p)
  {
    if p != "1234" {
      assert p[0] == p[1];
    }
  }

  /** The scan only sees steps of one, up or down: runs in either direction
      and zig-zags are all turned down. */
  lemma SequentialExamples()
    ensures !Secure(Some("2345")) && !Secure(Some("9876")) && !Secure(Some("1212"))
  {
  }

  /** Other valid PINs pass: a repeated digit that is not listed, and steps
      of two. */
  lemma SecureExamples()
    ensures Secure(Some("5555")) && Secure(Some("1357"))
  {
    assert "5555"[0] == '5' && "5555"[1] == '5';
    assert "1357"[0] == '1' && "1357"[1] == '3';
  }

  /** Too short, a letter, or no PIN at all: the format check turns them
      down before anything else. */
  lemma MalformedExamples()
    ensures !Secure(Some("123")) && !Secure(Some("12a4")) && !Secure(None)
  {
    assert "12a4"[2] == 'a';
  }

  /** Sequential four-digit PINs move by one at every step, so their
      first and last digit differ by one or three. */
  lemma SequentialEnds(p: string)
    requires |p| == 4 && AllDigits(p) && Sequential(p)
    ensures Abs(DigitValue(p[0]) - DigitValue(p[3])) == 1 || Abs(DigitValue(p[0]) - DigitValue(p[3])) == 3
  {
    assert Abs(DigitValue(p[0]) - DigitValue(p[1])) == 1;
    assert Abs(DigitValue(p[1]) - DigitValue(p[2])) == 1;
    assert Abs(DigitValue(p[2]) - DigitValue(p[3])) == 1;
  }
}

=== FILE: references.dfy ===
/** Reference numbers: `prefix + UUID.randomUUID().toString().replace("-", "")
    .substring(0, 12).toUpperCase()`. The UUID is an input: the 32 lower-case
    hex digits of its dash-stripped text. */
module References {

  import opened Text

  predicate IsLowerHex(c: char) {
    IsDigit(c) || 'a' <= c <= 'f'
  }

  predicate IsUpperHex(c: char) {
    IsDigit(c) || 'A' <= c <= 'F'
  }

  /** What `UUID.toString()` yields once its dashes are removed. */
  predicate IsUuidText(u: string) {
    |u| == 32 && forall k :: 0 <= k < |u| ==> IsLowerHex(u[k])
  }

  /** The shape every generated reference has. */
  predicate IsReference(prefix: string, r: string) {
    && |r| == |prefix| + 12
    && r[..|prefix|] == prefix
    && forall k :: |prefix| <= k < |r| ==> IsUpperHex(r[k])
  }

  function Reference(prefix: string, uuid: string): (r: string)
    requires IsUuidText(uuid)
    ensures IsReference(prefix, r)
    ensures Lower(r[|prefix|..]) == uuid[..12]
  {
    var r := prefix + Upper(uuid[..12]);
    assert r[|prefix|..] == Upper(uuid[..12]);
    r
  }

  /** The three prefixes give references that never collide with each other. */
  lemma PrefixesSeparate(p: string, q: string, u: string, v: string)
    requires IsUuidText(u) && IsUuidText(v)
    requires |p| == |q| && p != q
    ensures Reference(p, u) != Reference(q, v)
  {
    assert Reference(p, u)[..|p|] == p;
    assert Reference(q, v)[..|q|] == q;
  }

  /** Two UUIDs give the same reference under one prefix exactly when their
      first twelve hex digits agree. */
  lemma ReferenceSameIff(p: string, u: string, v: string)
    requires IsUuidText(u) && IsUuidText(v)
    ensures Reference(p, u) == Reference(p, v) <==> u[..12] == v[..12]
  {
  }
}

=== FILE: registration.dfy ===
/** `UserServiceImpl.registerUser`: a new user and their first account. */
module UserService {

  import opened Wrappers
  import opened Domain
  import opened RegistrationRequest
  import AccountService

  /** The fields the service reads unguarded: the request constraints make
      them present, and a missing PIN would be dereferenced. */
  predicate Complete(req: UserRegistrationRequest) {
    && req.email.Some? && req.password.Some? && req.firstName.Some? && req.lastName.Some?
    && req.phoneNumber.Some? && req.address.Some? && req.accountType.Some?
    && req.initialDeposit.Some? && req.transactionPin.Some?
  }

  /** Accounts of one user (`user.getAccounts()`). */
  function OwnedBy(userId: nat): Account -> bool {
    (a: Account) => a.ownerId == userId
  }

  /** PIN confirmation, then e-mail uniqueness, then phone uniqueness (both
      raising the e-mail exception), all before anything is saved. The user
      gets the next identity id, role USER and is enabled; the account gets
      the first generated number not yet stored. `encodePassword` and
      `encodePin` are the encoders; `candidates` the generator's outputs. */
  function RegisterUser(bank: Bank, req: UserRegistrationRequest,
                        encodePassword: string -> string, encodePin: string -> string,
                        candidates: seq<string>)
    : (r: Result<(Bank, User, Account), Failure>)
    requires Complete(req)
    requires AccountService.GeneratorStops(bank.accounts, candidates)
    ensures req.confirmPin != req.transactionPin ==> r == Err(Failure(IllegalArgument, PinConfirmationMismatch))
    ensures req.confirmPin == req.transactionPin && HasEmail(bank.users, req.email.value) ==>
              r == Err(Failure(EmailAlreadyExists, EmailTaken))
    ensures req.confirmPin == req.transactionPin && !HasEmail(bank.users, req.email.value)
            && HasPhone(bank.users, req.phoneNumber.value) ==>
              r == Err(Failure(EmailAlreadyExists, PhoneTaken))
    ensures r.Ok? <==>
              req.confirmPin == req.transactionPin
              && !HasEmail(bank.users, req.email.value)
              && !HasPhone(bank.users, req.phoneNumber.value)
    ensures r.Ok? ==>
              var after := r.value.0;
              var user := r.value.1;
              var account := r.value.2;
              && after.users == bank.users + [user]
              && after.accounts == bank.accounts + [account]
              && after.ledger == bank.ledger
              && user.id == |bank.users| + 1
              && user.email == req.email.value
              && user.passwordHash == encodePassword(req.password.value)
              && user.firstName == req.firstName.value && user.lastName == req.lastName.value
              && user.phoneNumber == req.phoneNumber.value && user.address == req.address.value
              && user.role == USER && user.enabled
              && !HasNumber(bank.accounts, account.number)
              && account.number in candidates
              && account.ownerId == user.id
              && account.accountType == req.accountType.value
              && account.balance == req.initialDeposit.value
              && account.pinHash == Some(encodePin(req.transactionPin.value))
              && account.active
  {
    if req.confirmPin != req.transactionPin then Err(Failure(IllegalArgument, PinConfirmationMismatch))
    else if HasEmail(bank.users, req.email.value) then Err(Failure(EmailAlreadyExists, EmailTaken))
    else if HasPhone(bank.users, req.phoneNumber.value) then Err(Failure(EmailAlreadyExists, PhoneTaken))
    else
      var user := User(|bank.users| + 1, req.email.value, encodePassword(req.password.value),
                       req.firstName.value, req.lastName.value, req.phoneNumber.value,
                       req.address.value, USER, true);
      var number := candidates[AccountService.FirstFree(bank.accounts, candidates).value];
      var account := Account(number, user.id, req.accountType.value, req.initialDeposit.value,
                             Some(encodePin(req.transactionPin.value)), true);
      Ok((Bank(bank.users + [user], bank.accounts + [account], bank.ledger), user, account))
  }

  /** A request that passed its constraints never trips the service's own
      PIN confirmation check. */
  lemma ValidRequestPassesPinCheck(bank: Bank, req: UserRegistrationRequest,
                                   encodePassword: string -> string, encodePin: string -> string,
                                   candidates: seq<string>)
    requires RegistrationRequest.Valid(req)
    requires AccountService.GeneratorStops(bank.accounts, candidates)
    ensures Complete(req)
    ensures RegisterUser(bank, req, encodePassword, encodePin, candidates).Err? ==>
              RegisterUser(bank, req, encodePassword, encodePin, candidates).error.kind == EmailAlreadyExists
  {
  }

  /** The selection of a store that no account of the user is in is empty. */
  lemma SelectNone(accounts: seq<Account>, userId: nat)
    requires forall k :: 0 <= k < |accounts| ==> accounts[k].ownerId != userId
    ensures Select(accounts, OwnedBy(userId)) == []
  {
  }

  /** On a consistent store the new user starts with exactly one account:
      the account list grows from none to one. */
  lemma RegisteredUserHasOneAccount(bank: Bank, req: UserRegistrationRequest,
                                    encodePassword: string -> string, encodePin: string -> string,
                                    candidates: seq<string>)
    requires Domain.Valid(bank)
    requires Complete(req)
    requires AccountService.GeneratorStops(bank.accounts, candidates)
    requires RegisterUser(bank, req, encodePassword, encodePin, candidates).Ok?
    ensures var out := RegisterUser(bank, req, encodePassword, encodePin, candidates).value;
            && Select(bank.accounts, OwnedBy(out.1.id)) == []
            && Select(out.0.accounts, OwnedBy(out.1.id)) == [out.2]
  {
    var out := RegisterUser(bank, req, encodePassword, encodePin, candidates).value;
    SelectNone(bank.accounts, out.1.id);
    assert (bank.accounts + [out.2])[..|bank.accounts|] == bank.accounts;
  }
}

=== FILE: registration_request.dfy ===
/** `UserRegistrationRequest`: the Bean Validation constraints on a sign-up
    request, as predicates. A constraint other than `@NotNull`/`@NotBlank`
    accepts a null value, as Bean Validation prescribes. Regular expressions
    are matched against the whole value, with Java's meanings of `\d`
    (ASCII digits), `\s` (space, tab, line feed, vertical tab, form feed,
    carriage return) and `.` (any character but a line terminator). */
module RegistrationRequest {

  import opened Wrappers
  import opened Text
  import opened Domain

  datatype UserRegistrationRequest = UserRegistrationRequest(
    email: Option<string>,
    password: Option<string>,
    firstName: Option<string>,
    lastName: Option<string>,
    phoneNumber: Option<string>,
    address: Option<string>,
    accountType: Option<AccountType>,
    initialDeposit: Option<Cents>,
    transactionPin: Option<string>,
    confirmPin: Option<string>)

  /** `@NotBlank`: present, and not only characters that `trim` removes. */
  predicate NotBlank(o: Option<string>) {
    !NullOrBlank(o)
  }

  /** `@Size(min, max)`; null passes. */
  predicate SizeBetween(o: Option<string>, min: nat, max: nat) {
    o.None? || min <= |o.value| <= max
  }

  // ---------------------------------------------------------------------------
  // Character classes.
  // ---------------------------------------------------------------------------

  /** `\s` in a Java pattern. */
  predicate IsSpaceClass(c: char) {
    c == ' ' || c == '\t' || c == '\n' || c == '\U{000B}' || c == '\U{000C}' || c == '\r'
  }

  /** The characters `.` does not match. */
  predicate IsLineTerminator(c: char) {
    c == '\n' || c == '\r' || c == '\U{0085}' || c == '\U{2028}' || c == '\U{2029}'
  }

  predicate IsNonZeroDigit(c: char) {
    '1' <= c <= '9'
  }

  // ---------------------------------------------------------------------------
  // The patterns.
  // ---------------------------------------------------------------------------

  /** `^\d{4}$`. */
  predicate IsFourDigits(s: string) {
    |s| == 4 && AllDigits(s)
  }

  /** `^(\+254|0)[1-9]\d{8}$`: a country-code or trunk prefix, a non-zero
      digit, eight digits. */
  predicate IsKenyanPhone(s: string) {
    exists p | p in ["+254", "0"] ::
      && |s| == |p| + 9
      && s[..|p|] == p
      && IsNonZeroDigit(s[|p|])
      && AllDigits(s[|p| + 1..])
  }

  /** `^(?=.*[a-z])(?=.*[A-Z])(?=.*\d).*$`: one lower-case letter, one
      upper-case letter and one digit, and no line terminator anywhere (the
      final `.*` has to reach the end). */
  predicate IsStrongPassword(s: string) {
    && (exists k :: 0 <= k < |s| && IsLowerLetter(s[k]))
    && (exists k :: 0 <= k < |s| && IsUpperLetter(s[k]))
    && (exists k :: 0 <= k < |s| && IsDigit(s[k]))
    && (forall k :: 0 <= k < |s| ==> !IsLineTerminator(s[k]))
  }

  /** `^[A-Za-z\s]+$`. */
  predicate IsNameText(s: string) {
    |s| > 0 && forall k :: 0 <= k < |s| ==> IsLetter(s[k]) || IsSpaceClass(s[k])
  }

  /** A null value passes `@Pattern`. */
  predicate PatternOk(o: Option<string>, p: string -> bool) {
    o.None? || p(o.value)
  }

  // ---------------------------------------------------------------------------
  // The annotated fields.
  // ---------------------------------------------------------------------------

  /** `@AssertTrue isPinMatching()`. */
  function IsPinMatching(req: UserRegistrationRequest): (b: bool)
    ensures b <==> req.transactionPin.Some? && req.confirmPin == req.transactionPin
  {
    match req.transactionPin
    case None => false
    case Some(pin) => req.confirmPin.Some? && pin == req.confirmPin.value
  }

  predicate EmailOk(o: Option<string>) {
    NotBlank(o) && SizeBetween(o, 0, 255)
  }

  predicate PasswordOk(o: Option<string>) {
    NotBlank(o) && SizeBetween(o, 8, 0x7FFF_FFFF) && PatternOk(o, IsStrongPassword)
  }

  predicate NameOk(o: Option<string>) {
    NotBlank(o) && SizeBetween(o, 2, 100) && PatternOk(o, IsNameText)
  }

  predicate PhoneOk(o: Option<string>) {
    NotBlank(o) && PatternOk(o, IsKenyanPhone)
  }

  predicate AddressOk(o: Option<string>) {
    NotBlank(o) && SizeBetween(o, 10, 500)
  }

  /** `@NotNull @DecimalMin("100.0") @DecimalMax("1000000.0")
      @Digits(integer = 13, fraction = 2)`, in cents. In whole cents the
      fraction bound always holds, and the upper bound implies the integer
      one. */
  predicate InitialDepositOk(o: Option<Cents>) {
    o.Some? && 10_000 <= o.value <= 100_000_000
  }

  predicate PinOk(o: Option<string>) {
    NotBlank(o) && PatternOk(o, IsFourDigits)
  }

  /** Every constraint holds; `@Email` is left to the library. */
  predicate Valid(req: UserRegistrationRequest) {
    && EmailOk(req.email)
    && PasswordOk(req.password)
    && NameOk(req.firstName)
    && NameOk(req.lastName)
    && PhoneOk(req.phoneNumber)
    && AddressOk(req.address)
    && req.accountType.Some?
    && InitialDepositOk(req.initialDeposit)
    && PinOk(req.transactionPin)
    && NotBlank(req.confirmPin)
    && IsPinMatching(req)
  }

  // ---------------------------------------------------------------------------
  // What the constraints imply.
  // ---------------------------------------------------------------------------

  /** A valid phone number is "+254" followed by nine digits or "0"
      followed by nine digits, the first of them non-zero: 13 or 10
      characters. */
  lemma PhoneShape(s: string)
    ensures IsKenyanPhone(s) <==>
              || (|s| == 13 && s[..4] == "+254" && IsNonZeroDigit(s[4]) && AllDigits(s[5..]))
              || (|s| == 10 && s[0] == '0' && IsNonZeroDigit(s[1]) && AllDigits(s[2..]))
  {
    if |s| == 10 && s[0] == '0' {
      assert s[..1] == "0";
    }
    if IsKenyanPhone(s) {
      var p :| p in ["+254", "0"] && |s| == |p| + 9 && s[..|p|] == p
               && IsNonZeroDigit(s[|p|]) && AllDigits(s[|p| + 1..]);
      if p == "0" {
        assert s[0] == s[..1][0];
      }
    }
  }

  /** The three classes a strong password needs are disjoint, so it has at
      least three characters, and a letter keeps it from being blank. */
  lemma StrongPasswordNotBlank(s: string)
    requires IsStrongPassword(s)
    ensures |s| >= 3
    ensures !IsBlank(s)
  {
    var i :| 0 <= i < |s| && IsLowerLetter(s[i]);
    var j :| 0 <= j < |s| && IsUpperLetter(s[j]);
    var k :| 0 <= k < |s| && IsDigit(s[k]);
    assert i != j && j != k && i != k;
    assert !IsTrimmed(s[i]);
  }

  /** A name made of letters and white space that is not blank holds a
      letter. */
  lemma NameHasLetter(o: Option<string>)
    requires NameOk(o)
    ensures exists k :: 0 <= k < |o.value| && IsLetter(o.value[k])
  {
    var s := o.value;
    assert !IsBlank(s);
    var k :| 0 <= k < |s| && !IsTrimmed(s[k]);
    assert IsLetter(s[k]);
  }

  /** The request constraints make the PIN four digits that both fields
      agree on, and the initial deposit positive. */
  lemma ValidRequestFacts(req: UserRegistrationRequest)
    requires Valid(req)
    ensures req.transactionPin.Some? && IsFourDigits(req.transactionPin.value)
    ensures req.confirmPin == req.transactionPin
    ensures req.initialDeposit.value > 0
    ensures 10 <= |req.address.value| <= 500
  {
  }
}

=== FILE: text.dfy ===
/** Character and string helpers shared by the validators, formatters and
    services: Java's `String.trim`, ASCII case mapping, decimal digits.
    Case mapping covers ASCII letters only (see README). */
module Text {

  import Wrappers

  // ---------------------------------------------------------------------------
  // String.trim(): strips every leading and trailing char <= U+0020.
  // ---------------------------------------------------------------------------

  predicate IsTrimmed(c: char) {
    c <= ' '
  }

  function TrimLeft(s: string): (r: string)
    ensures |r| <= |s| && r == s[|s| - |r|..]
    ensures r == [] || !IsTrimmed(r[0])
    ensures forall k :: 0 <= k < |s| - |r| ==> IsTrimmed(s[k])
    decreases |s|
  {
    if |s| > 0 && IsTrimmed(s[0]) then TrimLeft(s[1..]) else s
  }

  function TrimRight(s: string): (r: string)
    ensures |r| <= |s| && r == s[..|r|]
    ensures r == [] || !IsTrimmed(r[|r| - 1])
    ensures forall k :: |r| <= k < |s| ==> IsTrimmed(s[k])
    decreases |s|
  {
    if |s| > 0 && IsTrimmed(s[|s| - 1]) then TrimRight(s[..|s| - 1]) else s
  }

  /** Java's `s.trim()`: the longest infix that neither starts nor ends with a
      char <= U+0020, everything cut away on either side being such chars. */
  function Trim(s: string): (r: string)
    ensures |r| <= |s|
    ensures r == [] || (!IsTrimmed(r[0]) && !IsTrimmed(r[|r| - 1]))
    ensures exists i :: InfixAt(r, s, i)
                        && (forall k :: 0 <= k < i ==> IsTrimmed(s[k]))
                        && (forall k :: i + |r| <= k < |s| ==> IsTrimmed(s[k]))
  {
    var l := TrimLeft(s);
    var r := TrimRight(l);
    var i := |s| - |l|;
    assert r == l[..|r|];
    assert l[..|r|] == s[i..i + |r|];
    assert r != [] ==> r[0] == l[0];
    assert InfixAt(r, s, i);
    assert forall k :: i + |r| <= k < |s| ==> s[k] == l[k - i];
    r
  }

  /** `r` occurs in `s` starting at index `i`. */
  predicate InfixAt(r: string, s: string, i: int) {
    0 <= i <= |s| - |r| && r == s[i..i + |r|]
  }

  /** Java's `s.trim().isEmpty()`. */
  predicate IsBlank(s: string) {
    forall k :: 0 <= k < |s| ==> IsTrimmed(s[k])
  }

  /** The "null or blank" guard the services apply to optional strings. */
  predicate NullOrBlank(o: Wrappers.Option<string>) {
    o.None? || IsBlank(o.value)
  }

  lemma {:induction false} TrimLeftEmptyIffBlank(s: string)
    ensures TrimLeft(s) == [] <==> IsBlank(s)
    decreases |s|
  {
    if |s| > 0 && IsTrimmed(s[0]) {
      TrimLeftEmptyIffBlank(s[1..]);
      assert IsBlank(s) <==> IsBlank(s[1..]) by {
        if IsBlank(s[1..]) {
          forall k | 0 <= k < |s| ensures IsTrimmed(s[k]) {
            if k > 0 { assert s[k] == s[1..][k - 1]; }
          }
        }
      }
    }
  }

  /** Trimming yields the empty string exactly for blank input. */
  lemma TrimEmptyIffBlank(s: string)
    ensures Trim(s) == [] <==> IsBlank(s)
  {
    TrimLeftEmptyIffBlank(s);
    var l := TrimLeft(s);
    if l != [] {
      var c := l[0];
      assert |TrimRight(l)| == 0 ==> IsTrimmed(c);
    }
  }

  /** Trimming twice changes nothing. */
  lemma TrimIdempotent(s: string)
    ensures Trim(Trim(s)) == Trim(s)
  {
    var t := Trim(s);
    if t != [] {
      assert TrimLeft(t) == t;
      assert TrimRight(t) == t;
    }
  }

  // ---------------------------------------------------------------------------
  // ASCII case mapping and equalsIgnoreCase.
  // ---------------------------------------------------------------------------

  predicate IsLowerLetter(c: char) {
    'a' <= c <= 'z'
  }

  predicate IsUpperLetter(c: char) {
    'A' <= c <= 'Z'
  }

  predicate IsLetter(c: char) {
    IsLowerLetter(c) || IsUpperLetter(c)
  }

  function UpperChar(c: char): (r: char)
    ensures !IsLowerLetter(r)
    ensures IsLowerLetter(c) ==> r as int == c as int - 32
    ensures !IsLowerLetter(c) ==> r == c
  {
    if IsLowerLetter(c) then (c as int - 32) as char else c
  }

  function LowerChar(c: char): (r: char)
    ensures !IsUpperLetter(r)
    ensures IsUpperLetter(c) ==> r as int == c as int + 32
    ensures !IsUpperLetter(c) ==> r == c
  {
    if IsUpperLetter(c) then (c as int + 32) as char else c
  }

  /** Java's `s.toUpperCase()` restricted to ASCII letters. */
  function Upper(s: string): (r: string)
    ensures |r| == |s|
    ensures forall k :: 0 <= k < |s| ==> r[k] == UpperChar(s[k])
  {
    if s == [] then [] else [UpperChar(s[0])] + Upper(s[1..])
  }

  function Lower(s: string): (r: string)
    ensures |r| == |s|
    ensures forall k :: 0 <= k < |s| ==> r[k] == LowerChar(s[k])
  {
    if s == [] then [] else [LowerChar(s[0])] + Lower(s[1..])
  }

  /** Java's `a.equalsIgnoreCase(b)` on ASCII text. */
  predicate EqualsIgnoreCase(a: string, b: string) {
    Upper(a) == Upper(b)
  }

  /** Java's `haystack.toLowerCase().contains(needle.toLowerCase())`, the
      meaning of a derived `...ContainingIgnoreCase` query. */
  predicate ContainsIgnoreCase(haystack: string, needle: string) {
    var h := Lower(haystack);
    var n := Lower(needle);
    exists i | 0 <= i <= |h| :: InfixAt(n, h, i)
  }

  lemma UpperIdempotent(s: string)
    ensures Upper(Upper(s)) == Upper(s)
  {
  }

  /** Text with no lower-case letter is its own upper case. */
  lemma UpperOfUpperCase(s: string)
    requires forall k :: 0 <= k < |s| ==> !IsLowerLetter(s[k])
    ensures Upper(s) == s
  {
  }

  /** Text that neither starts nor ends with a char `trim` strips is its
      own trimmed form. */
  lemma TrimOfTrimmed(s: string)
    requires s != [] && !IsTrimmed(s[0]) && !IsTrimmed(s[|s| - 1])
    ensures Trim(s) == s
  {
  }

  /** Upper-casing neither creates nor removes a char `trim` strips. */
  lemma UpperKeepsTrimmed(c: char)
    ensures IsTrimmed(UpperChar(c)) <==> IsTrimmed(c)
  {
  }

  lemma {:induction false} TrimLeftUpper(s: string)
    ensures TrimLeft(Upper(s)) == Upper(TrimLeft(s))
    decreases |s|
  {
    if |s| > 0 {
      UpperKeepsTrimmed(s[0]);
      if IsTrimmed(s[0]) {
        assert Upper(s)[1..] == Upper(s[1..]);
        TrimLeftUpper(s[1..]);
      }
    }
  }

  lemma {:induction false} TrimRightUpper(s: string)
    ensures TrimRight(Upper(s)) == Upper(TrimRight(s))
    decreases |s|
  {
    if |s| > 0 {
      UpperKeepsTrimmed(s[|s| - 1]);
      if IsTrimmed(s[|s| - 1]) {
        assert Upper(s)[..|s| - 1] == Upper(s[..|s| - 1]);
        TrimRightUpper(s[..|s| - 1]);
      }
    }
  }

  /** `s.toUpperCase().trim()` and `s.trim().toUpperCase()` agree. */
  lemma TrimUpper(s: string)
    ensures Trim(Upper(s)) == Upper(Trim(s))
  {
    TrimLeftUpper(s);
    TrimRightUpper(TrimLeft(s));
  }

  // ---------------------------------------------------------------------------
  // Decimal digits: Long.toString, %0Nd and parsing back.
  // ---------------------------------------------------------------------------

  predicate IsDigit(c: char) {
    '0' <= c <= '9'
  }

  predicate AllDigits(s: string) {
    forall k :: 0 <= k < |s| ==> IsDigit(s[k])
  }

  function DigitValue(c: char): nat
    requires IsDigit(c)
  {
    c as int - '0' as int
  }

  function DigitChar(d: nat): (c: char)
    requires d < 10
    ensures IsDigit(c) && DigitValue(c) == d
  {
    ('0' as int + d) as char
  }

  function Pow10(k: nat): (r: nat)
    ensures r >= 1
  {
    if k == 0 then 1 else 10 * Pow10(k - 1)
  }

  /** Value of a string of decimal digits, most significant first. */
  function ParseDigits(s: string): nat
    requires AllDigits(s)
  {
    if s == [] then 0 else ParseDigits(s[..|s| - 1]) * 10 + DigitValue(s[|s| - 1])
  }

  /** Java's `Long.toString(n)` for n >= 0: no leading zero except for 0 itself. */
  function NatToString(n: nat): (r: string)
    ensures |r| >= 1 && AllDigits(r)
    ensures r[0] == '0' ==> n == 0
  {
    if n < 10 then [DigitChar(n)] else NatToString(n / 10) + [DigitChar(n % 10)]
  }

  /** The last `w` decimal digits of `n`, zero-padded: `String.format("%0wd", n)`
      whenever n < 10^w. */
  function FixedDigits(n: nat, w: nat): (r: string)
    ensures |r| == w && AllDigits(r)
  {
    if w == 0 then [] else FixedDigits(n / 10, w - 1) + [DigitChar(n % 10)]
  }

  lemma AllDigitsAppend(a: string, b: string)
    requires AllDigits(a) && AllDigits(b)
    ensures AllDigits(a + b)
  {
    forall k | 0 <= k < |a + b| ensures IsDigit((a + b)[k]) {
      if k < |a| { assert (a + b)[k] == a[k]; } else { assert (a + b)[k] == b[k - |a|]; }
    }
  }

  /** Appending one digit to both sides of the shift. */
  lemma ShiftStep(pa: int, p: int, pb: int, d: int)
    ensures (pa * p + pb) * 10 + d == pa * (p * 10) + (pb * 10 + d)
  {
    calc {
      (pa * p + pb) * 10 + d;
      (pa * p) * 10 + pb * 10 + d;
      pa * (p * 10) + (pb * 10 + d);
    }
  }

  lemma {:induction false} ParseDigitsAppend(a: string, b: string)
    requires AllDigits(a) && AllDigits(b)
    ensures AllDigits(a + b)
    ensures ParseDigits(a + b) == ParseDigits(a) * Pow10(|b|) + ParseDigits(b)
    decreases |b|
  {
    AllDigitsAppend(a, b);
    if b != [] {
      var b' := b[..|b| - 1];
      assert (a + b)[..|a + b| - 1] == a + b';
      ParseDigitsAppend(a, b');
      var d := DigitValue(b[|b| - 1]);
      assert (a + b)[|a + b| - 1] == b[|b| - 1];
      assert ParseDigits(a + b) == ParseDigits(a + b') * 10 + d;
      ShiftStep(ParseDigits(a), Pow10(|b'|), ParseDigits(b'), d);
    } else {
      assert a + b == a;
    }
  }

  /** Long.toString parses back to the number it printed. */
  lemma {:induction false} NatToStringRoundTrip(n: nat)
    ensures ParseDigits(NatToString(n)) == n
  {
    if n >= 10 {
      NatToStringRoundTrip(n / 10);
      var s := NatToString(n);
      assert s[..|s| - 1] == NatToString(n / 10);
    }
  }

  /** The zero-padded rendering of n < 10^w parses back to n. */
  lemma {:induction false} FixedDigitsRoundTrip(n: nat, w: nat)
    requires n < Pow10(w)
    ensures ParseDigits(FixedDigits(n, w)) == n
  {
    if w > 0 {
      FixedDigitsRoundTrip(n / 10, w - 1);
      var s := FixedDigits(n, w);
      assert s[..|s| - 1] == FixedDigits(n / 10, w - 1);
    }
  }

  /** Two numbers below 10^w never share a zero-padded rendering. */
  lemma FixedDigitsInjective(m: nat, n: nat, w: nat)
    requires m < Pow10(w) && n < Pow10(w)
    requires FixedDigits(m, w) == FixedDigits(n, w)
    ensures m == n
  {
    FixedDigitsRoundTrip(m, w);
    FixedDigitsRoundTrip(n, w);
  }

  lemma {:induction false} ParseDigitsBound(s: string)
    requires AllDigits(s)
    ensures ParseDigits(s) < Pow10(|s|)
    decreases |s|
  {
    if s != [] {
      ParseDigitsBound(s[..|s| - 1]);
    }
  }
}

=== FILE: time.dfy ===
/** `java.time.LocalDateTime` as a record of calendar fields, with the instant
    it denotes (nanoseconds since 0001-01-01T00:00 in the proleptic Gregorian
    calendar, the calendar `java.time` uses). No time zone is involved, exactly
    as with `LocalDateTime`. */
module Time {

  /** The fields of a `LocalDateTime`. */
  datatype Fields = Fields(year: int, month: int, day: int,
                           hour: int, minute: int, second: int, nano: int)

  const NanosPerSecond: int := 1_000_000_000
  const NanosPerMinute: int := 60 * NanosPerSecond
  const NanosPerHour: int := 60 * NanosPerMinute
  const NanosPerDay: int := 24 * NanosPerHour

  predicate IsLeapYear(y: int) {
    y % 4 == 0 && (y % 100 != 0 || y % 400 == 0)
  }

  function DaysInMonth(y: int, m: int): int
    requires 1 <= m <= 12
  {
    if m == 2 then (if IsLeapYear(y) then 29 else 28)
    else if m == 4 || m == 6 || m == 9 || m == 11 then 30
    else 31
  }

  /** The field ranges `LocalDateTime` enforces. */
  predicate Valid(t: Fields) {
    && 1 <= t.month <= 12
    && 1 <= t.day <= DaysInMonth(t.year, t.month)
    && 0 <= t.hour < 24
    && 0 <= t.minute < 60
    && 0 <= t.second < 60
    && 0 <= t.nano < NanosPerSecond
  }

  /** A `LocalDateTime` can only hold valid fields. */
  type DateTime = t: Fields | Valid(t) witness Fields(1, 1, 1, 0, 0, 0, 0)

  /** Days from 0001-01-01 to January 1st of year `y`; Dafny's `/` floors for
      a positive divisor, so the count also holds for years before 1. */
  function DaysBeforeYear(y: int): int {
    var p := y - 1;
    365 * p + p / 4 - p / 100 + p / 400
  }

  function DaysBeforeMonth(y: int, m: int): int
    requires 1 <= m <= 12
  {
    var common :=
      if m == 1 then 0 else if m == 2 then 31 else if m == 3 then 59
      else if m == 4 then 90 else if m == 5 then 120 else if m == 6 then 151
      else if m == 7 then 181 else if m == 8 then 212 else if m == 9 then 243
      else if m == 10 then 273 else if m == 11 then 304 else 334;
    if m > 2 && IsLeapYear(y) then common + 1 else common
  }

  function EpochDay(t: DateTime): int {
    DaysBeforeYear(t.year) + DaysBeforeMonth(t.year, t.month) + t.day - 1
  }

  function NanoOfDay(t: DateTime): int {
    t.hour * NanosPerHour + t.minute * NanosPerMinute + t.second * NanosPerSecond + t.nano
  }

  /** The point on the time line a date-time denotes. */
  function Instant(t: DateTime): int {
    EpochDay(t) * NanosPerDay + NanoOfDay(t)
  }

  /** A valid time of day lies within its day. */
  lemma NanoOfDayBounds(t: DateTime)
    ensures 0 <= NanoOfDay(t) < NanosPerDay
  {
    assert t.hour * NanosPerHour <= 23 * NanosPerHour;
    assert t.minute * NanosPerMinute <= 59 * NanosPerMinute;
    assert t.second * NanosPerSecond <= 59 * NanosPerSecond;
  }

  /** Java's `/` on `long`: the quotient truncated toward zero. */
  function TruncDiv(a: int, b: int): (q: int)
    requires b > 0
    ensures a >= 0 ==> 0 <= q && q * b <= a < q * b + b
    ensures a < 0 ==> q <= 0 && q * b - b < a <= q * b
  {
    if a >= 0 then
      FloorDivBounds(a, b);
      a / b
    else
      FloorDivBounds(-a, b);
      NegateProduct((-a) / b, b);
      -((-a) / b)
  }

  lemma FloorDivBounds(m: int, b: int)
    requires m >= 0 && b > 0
    ensures 0 <= m / b && (m / b) * b <= m < (m / b) * b + b
  {
  }

  lemma NegateProduct(q: int, b: int)
    ensures (-q) * b == -(q * b)
  {
  }

  /** `ChronoUnit.X.between(from, to)` for two `LocalDateTime`s: the number of
      complete units from `from` to `to`, negative when `to` is earlier. */
  function UnitsBetween(from: DateTime, to: DateTime, unitNanos: int): int
    requires unitNanos > 0
  {
    TruncDiv(Instant(to) - Instant(from), unitNanos)
  }
}

=== FILE: transaction_history.dfy ===
/** `TransactionHistoryServiceImpl`: the filter names a client sends, the
    choice of repository query per combination of filters, the access rules,
    and the conversion of rows into response records. */
module TransactionHistory {

  import opened Wrappers
  import opened Domain
  import opened Text
  import Time
  import opened TransactionRepository

  /** The filter fields of `TransactionHistoryRequest`; null is `None`. The
      sort and page fields are not modelled (see README). */
  datatype HistoryRequest = HistoryRequest(
    accountNumber: Option<string>,
    startDate: Option<Time.DateTime>,
    endDate: Option<Time.DateTime>,
    transactionType: Option<string>,
    transactionDirection: Option<string>,
    minAmount: Option<Cents>,
    maxAmount: Option<Cents>)

  // ---------------------------------------------------------------------------
  // Enum parsing: blank is "no filter", an unknown name is "no filter".
  // ---------------------------------------------------------------------------

  /** `name()` of each constant. */
  function TypeName(t: TxnType): string {
    match t
    case DEPOSIT => "DEPOSIT"
    case WITHDRAW => "WITHDRAW"
    case TRANSFER => "TRANSFER"
  }

  function DirectionName(d: Direction): string {
    match d
    case DEBIT => "DEBIT"
    case CREDIT => "CREDIT"
  }

  /** `TransactionType.valueOf`, with the exception turned into `None`. */
  function TypeNamed(s: string): (r: Option<TxnType>)
    ensures forall t :: r == Some(t) <==> s == TypeName(t)
  {
    if s == "DEPOSIT" then Some(DEPOSIT)
    else if s == "WITHDRAW" then Some(WITHDRAW)
    else if s == "TRANSFER" then Some(TRANSFER)
    else None
  }

  function DirectionNamed(s: string): (r: Option<Direction>)
    ensures forall d :: r == Some(d) <==> s == DirectionName(d)
  {
    if s == "DEBIT" then Some(DEBIT)
    else if s == "CREDIT" then Some(CREDIT)
    else None
  }

  /** `parseTransactionType`: null or blank gives no filter; otherwise the
      upper-cased, trimmed text must be a constant's exact name. */
  function ParseType(o: Option<string>): (r: Option<TxnType>)
    ensures NullOrBlank(o) ==> r.None?
    ensures forall t :: r == Some(t) <==> o.Some? && Trim(Upper(o.value)) == TypeName(t)
  {
    if NullOrBlank(o) then None else TypeNamed(Trim(Upper(o.value)))
  }

  /** `parseTransactionDirection`, likewise. */
  function ParseDirection(o: Option<string>): (r: Option<Direction>)
    ensures NullOrBlank(o) ==> r.None?
    ensures forall d :: r == Some(d) <==> o.Some? && Trim(Upper(o.value)) == DirectionName(d)
  {
    if NullOrBlank(o) then None else DirectionNamed(Trim(Upper(o.value)))
  }

  /** The text both parsers look up after normalising `s`. */
  lemma NormalisedText(s: string)
    ensures Trim(Upper(Upper(Trim(s)))) == Trim(Upper(s))
    ensures IsBlank(Upper(Trim(s))) <==> IsBlank(s)
  {
    TrimUpper(s);
    TrimUpper(Upper(Trim(s)));
    TrimIdempotent(s);
    UpperIdempotent(Trim(s));
    TrimEmptyIffBlank(s);
    TrimEmptyIffBlank(Upper(Trim(s)));
  }

  /** The parsers see through case and surrounding white space: parsing a
      text gives what parsing its trimmed, upper-cased form gives. */
  lemma ParseNormalises(s: string)
    ensures ParseType(Some(s)) == ParseType(Some(Upper(Trim(s))))
    ensures ParseDirection(Some(s)) == ParseDirection(Some(Upper(Trim(s))))
  {
    NormalisedText(s);
  }

  /** A non-empty upper-case word has no surrounding white space and is its
      own upper case, so normalising leaves it as it is. */
  lemma WordIsNormal(n: string)
    requires |n| > 0 && forall k :: 0 <= k < |n| ==> IsUpperLetter(n[k])
    ensures !IsBlank(n)
    ensures Trim(Upper(n)) == n
  {
    assert !IsTrimmed(n[0]);
    UpperOfUpperCase(n);
    TrimOfTrimmed(n);
  }

  /** Each constant's own name parses to that constant. */
  lemma NamesParse(t: TxnType, d: Direction)
    ensures ParseType(Some(TypeName(t))) == Some(t)
    ensures ParseDirection(Some(DirectionName(d))) == Some(d)
  {
    TypeNameParses(t);
    DirectionNameParses(d);
  }

  lemma TypeNameParses(t: TxnType)
    ensures ParseType(Some(TypeName(t))) == Some(t)
  {
    var n := TypeName(t);
    assert forall k :: 0 <= k < |n| ==> IsUpperLetter(n[k]) by {
      match t
      case DEPOSIT => assert n == "DEPOSIT";
      case WITHDRAW => assert n == "WITHDRAW";
      case TRANSFER => assert n == "TRANSFER";
    }
    WordIsNormal(n);
    assert TypeNamed(n) == Some(t);
  }

  lemma DirectionNameParses(d: Direction)
    ensures ParseDirection(Some(DirectionName(d))) == Some(d)
  {
    var n := DirectionName(d);
    assert forall k :: 0 <= k < |n| ==> IsUpperLetter(n[k]) by {
      match d
      case DEBIT => assert n == "DEBIT";
      case CREDIT => assert n == "CREDIT";
    }
    WordIsNormal(n);
    assert DirectionNamed(n) == Some(d);
  }

  // ---------------------------------------------------------------------------
  // Which filters a request asks for, and which the service applies.
  // ---------------------------------------------------------------------------

  /** The four switches of the dispatchers. A range counts only when both of
      its ends are present. */
  datatype Flags = Flags(date: bool, txnType: bool, direction: bool, amount: bool)

  function FlagsOf(req: HistoryRequest): Flags {
    Flags(req.startDate.Some? && req.endDate.Some?,
          ParseType(req.transactionType).Some?,
          ParseDirection(req.transactionDirection).Some?,
          req.minAmount.Some? && req.maxAmount.Some?)
  }

  function Count(fl: Flags): nat {
    (if fl.date then 1 else 0) + (if fl.txnType then 1 else 0)
    + (if fl.direction then 1 else 0) + (if fl.amount then 1 else 0)
  }

  /** Every filter the request switches on, as repository bounds: a range
      with one missing end contributes no bound at all. */
  function Requested(req: HistoryRequest): Filter {
    Switched(req.startDate, req.endDate, ParseType(req.transactionType),
             ParseDirection(req.transactionDirection), req.minAmount, req.maxAmount)
  }

  function Switched(start: Option<Time.DateTime>, end: Option<Time.DateTime>,
                    t: Option<TxnType>, d: Option<Direction>,
                    min: Option<Cents>, max: Option<Cents>): Filter {
    var date := start.Some? && end.Some?;
    var amount := min.Some? && max.Some?;
    Filter(if date then start else None, if date then end else None, t, d,
           if amount then min else None, if amount then max else None)
  }

  /** The repository methods the dispatchers choose between. */
  datatype Query =
    | Unfiltered
    | ByDate
    | ByType
    | ByDirection
    | ByAmount
    | ByDateAndType
    | ByDateAndDirection
    | ByTypeAndDirection

  /** `getFilteredAccountTransactions`: one query per switch, the date and
      type pair, and the plain account history for everything else. */
  function AccountQuery(fl: Flags): Query {
    if !fl.date && !fl.txnType && !fl.direction && !fl.amount then Unfiltered
    else if fl.date && !fl.txnType && !fl.direction && !fl.amount then ByDate
    else if !fl.date && fl.txnType && !fl.direction && !fl.amount then ByType
    else if !fl.date && !fl.txnType && fl.direction && !fl.amount then ByDirection
    else if !fl.date && !fl.txnType && !fl.direction && fl.amount then ByAmount
    else if fl.date && fl.txnType && !fl.direction && !fl.amount then ByDateAndType
    else Unfiltered
  }

  /** `getFilteredTransactionsForAdmin`: also the date and direction pair and
      the type and direction pair; `filterTransactionsInMemory`, the branch
      for everything else, returns every row. */
  function AdminQuery(fl: Flags): Query {
    if !fl.date && !fl.txnType && !fl.direction && !fl.amount then Unfiltered
    else if fl.date && !fl.txnType && !fl.direction && !fl.amount then ByDate
    else if !fl.date && fl.txnType && !fl.direction && !fl.amount then ByType
    else if !fl.date && !fl.txnType && fl.direction && !fl.amount then ByDirection
    else if !fl.date && !fl.txnType && !fl.direction && fl.amount then ByAmount
    else if fl.date && fl.txnType && !fl.direction && !fl.amount then ByDateAndType
    else if fl.date && !fl.txnType && fl.direction && !fl.amount then ByDateAndDirection
    else if !fl.date && fl.txnType && fl.direction && !fl.amount then ByTypeAndDirection
    else Unfiltered
  }

  /** The bounds each repository method passes, read from its name. */
  function QueryBounds(q: Query, req: HistoryRequest): Filter {
    Bounds(q, req.startDate, req.endDate, ParseType(req.transactionType),
           ParseDirection(req.transactionDirection), req.minAmount, req.maxAmount)
  }

  function Bounds(q: Query, start: Option<Time.DateTime>, end: Option<Time.DateTime>,
                  t: Option<TxnType>, d: Option<Direction>,
                  min: Option<Cents>, max: Option<Cents>): Filter {
    match q
    case Unfiltered => NoFilter
    case ByDate => NoFilter.(startDate := start, endDate := end)
    case ByType => NoFilter.(txnType := t)
    case ByDirection => NoFilter.(direction := d)
    case ByAmount => NoFilter.(minAmount := min, maxAmount := max)
    case ByDateAndType => NoFilter.(startDate := start, endDate := end, txnType := t)
    case ByDateAndDirection => NoFilter.(startDate := start, endDate := end, direction := d)
    case ByTypeAndDirection => NoFilter.(txnType := t, direction := d)
  }

  /** The combinations a user's account query honours: none, any single
      filter, or date with type. */
  predicate AccountHonours(fl: Flags) {
    Count(fl) <= 1 || fl == Flags(true, true, false, false)
  }

  /** The combinations the administrator's query honours: none, any single
      filter, or any pair without the amount range. */
  predicate AdminHonours(fl: Flags) {
    Count(fl) <= 1 || (Count(fl) == 2 && !fl.amount)
  }

  /** The account dispatcher's choice passes every switched-on bound for an
      honoured combination, and no bound otherwise. */
  lemma AccountDispatch(start: Option<Time.DateTime>, end: Option<Time.DateTime>,
                        t: Option<TxnType>, d: Option<Direction>,
                        min: Option<Cents>, max: Option<Cents>)
    ensures var fl := Flags(start.Some? && end.Some?, t.Some?, d.Some?, min.Some? && max.Some?);
            var chosen := Bounds(AccountQuery(fl), start, end, t, d, min, max);
            && (AccountHonours(fl) ==> chosen == Switched(start, end, t, d, min, max))
            && (!AccountHonours(fl) ==> chosen == NoFilter)
  {
  }

  /** The administrator dispatcher's choice, likewise. */
  lemma AdminDispatch(start: Option<Time.DateTime>, end: Option<Time.DateTime>,
                      t: Option<TxnType>, d: Option<Direction>,
                      min: Option<Cents>, max: Option<Cents>)
    ensures var fl := Flags(start.Some? && end.Some?, t.Some?, d.Some?, min.Some? && max.Some?);
            var chosen := Bounds(AdminQuery(fl), start, end, t, d, min, max);
            && (AdminHonours(fl) ==> chosen == Switched(start, end, t, d, min, max))
            && (!AdminHonours(fl) ==> chosen == NoFilter)
  {
  }

  /** The bounds the account dispatcher passes for a request: everything
      the request asks for when it knows the combination, nothing
      otherwise. */
  function AccountFilter(req: HistoryRequest): (f: Filter)
    ensures AccountHonours(FlagsOf(req)) ==> f == Requested(req)
    ensures !AccountHonours(FlagsOf(req)) ==> f == NoFilter
  {
    AccountDispatch(req.startDate, req.endDate, ParseType(req.transactionType),
                    ParseDirection(req.transactionDirection), req.minAmount, req.maxAmount);
    QueryBounds(AccountQuery(FlagsOf(req)), req)
  }

  /** The bounds the administrator's dispatcher passes, likewise. */
  function AdminFilter(req: HistoryRequest): (f: Filter)
    ensures AdminHonours(FlagsOf(req)) ==> f == Requested(req)
    ensures !AdminHonours(FlagsOf(req)) ==> f == NoFilter
  {
    AdminDispatch(req.startDate, req.endDate, ParseType(req.transactionType),
                  ParseDirection(req.transactionDirection), req.minAmount, req.maxAmount);
    QueryBounds(AdminQuery(FlagsOf(req)), req)
  }

  /** `getAccountTransactions`: the account's rows, newest first, filtered by
      everything the request asks for when the combination is one the
      dispatcher knows, and not filtered at all otherwise. */
  function AccountTransactions(ledger: seq<Txn>, number: string, req: HistoryRequest): (r: seq<Txn>)
    ensures NewestFirst(r)
    ensures AccountHonours(FlagsOf(req)) ==>
              forall t :: multiset(r)[t] ==
                (if t.accountNumber == number && Admits(Requested(req), t) then multiset(ledger)[t] else 0)
    ensures !AccountHonours(FlagsOf(req)) ==>
              forall t :: multiset(r)[t] == (if t.accountNumber == number then multiset(ledger)[t] else 0)
  {
    var f := AccountFilter(req);
    assert forall t :: Admits(NoFilter, t);
    Find(ledger, OneAccount(number), f)
  }

  /** `getAllTransactionsForAdmin`: every account's rows, newest first,
      filtered when the combination is one the dispatcher knows. */
  function AdminTransactions(ledger: seq<Txn>, req: HistoryRequest): (r: seq<Txn>)
    ensures NewestFirst(r)
    ensures AdminHonours(FlagsOf(req)) ==>
              forall t :: multiset(r)[t] == (if Admits(Requested(req), t) then multiset(ledger)[t] else 0)
    ensures !AdminHonours(FlagsOf(req)) ==> multiset(r) == multiset(ledger)
  {
    var f := AdminFilter(req);
    var r := Find(ledger, AllAccounts, f);
    assert forall t :: Admits(NoFilter, t);
    assert !AdminHonours(FlagsOf(req)) ==> forall t :: multiset(r)[t] == multiset(ledger)[t];
    r
  }

  /** The administrator's dispatcher honours every combination the user's
      does, and three more: date with direction, type with direction, and
      neither honours a pair with the amount range or any triple. */
  lemma HonouredCombinations(fl: Flags)
    ensures AccountHonours(fl) ==> AdminHonours(fl)
    ensures AdminHonours(fl) && !AccountHonours(fl) <==>
              fl == Flags(true, false, true, false) || fl == Flags(false, true, true, false)
    ensures Count(fl) >= 3 ==> !AdminHonours(fl)
    ensures fl.amount && Count(fl) >= 2 ==> !AdminHonours(fl)
  {
  }

  // ---------------------------------------------------------------------------
  // Access rules.
  // ---------------------------------------------------------------------------

  /** The owner of the account a row belongs to. */
  function RowOwner(accounts: seq<Account>, t: Txn): (o: Option<nat>)
    ensures o.Some? <==> HasNumber(accounts, t.accountNumber)
    ensures o.Some? ==> exists j :: 0 <= j < |accounts| && accounts[j].number == t.accountNumber
                                    && accounts[j].ownerId == o.value
  {
    match IndexOf(accounts, t.accountNumber)
    case None => None
    case Some(i) => Some(accounts[i].ownerId)
  }

  /** `hasTransactionAccess`: the row's account is the caller's, or the
      caller is an administrator. */
  predicate MaySee(accounts: seq<Account>, t: Txn, caller: User) {
    RowOwner(accounts, t) == Some(caller.id) || caller.role == ADMIN
  }

  /** `findByUser(...).findFirst()`: the caller's first account, active or
      not. */
  function FirstOwned(accounts: seq<Account>, userId: nat): (r: Option<nat>)
    ensures r.Some? ==> r.value < |accounts| && accounts[r.value].ownerId == userId
    ensures r.Some? ==> forall j :: 0 <= j < r.value ==> accounts[j].ownerId != userId
    ensures r.None? <==> forall j :: 0 <= j < |accounts| ==> accounts[j].ownerId != userId
  {
    if |accounts| == 0 then None
    else if accounts[0].ownerId == userId then Some(0)
    else
      match FirstOwned(accounts[1..], userId)
      case None => None
      case Some(i) => Some(i + 1)
  }

  /** `getTransactionHistory`, for regular users. Without an account number
      the caller's first account is used; with one, the account must exist
      and be the caller's, with no administrator bypass. The number is
      looked up as given, not trimmed. */
  function GetTransactionHistory(bank: Bank, req: HistoryRequest, caller: User)
    : (r: Result<seq<Txn>, Failure>)
    ensures NullOrBlank(req.accountNumber) ==>
              (FirstOwned(bank.accounts, caller.id).None? <==>
                 r == Err(Failure(InvalidCredentials, NoAccountForUser)))
    ensures !NullOrBlank(req.accountNumber) && !HasNumber(bank.accounts, req.accountNumber.value) ==>
              r == Err(Failure(InvalidCredentials, AccountMissing))
    ensures !NullOrBlank(req.accountNumber) && HasNumber(bank.accounts, req.accountNumber.value)
            && bank.accounts[IndexOf(bank.accounts, req.accountNumber.value).value].ownerId != caller.id ==>
              r == Err(Failure(InvalidCredentials, NotOwner))
    ensures r.Err? ==> r.error.kind == InvalidCredentials
    ensures r.Ok? ==>
              var i := if NullOrBlank(req.accountNumber) then FirstOwned(bank.accounts, caller.id).value
                       else IndexOf(bank.accounts, req.accountNumber.value).value;
              && i < |bank.accounts|
              && bank.accounts[i].ownerId == caller.id
              && r.value == AccountTransactions(bank.ledger, bank.accounts[i].number, req)
  {
    if NullOrBlank(req.accountNumber) then
      match FirstOwned(bank.accounts, caller.id)
      case None => Err(Failure(InvalidCredentials, NoAccountForUser))
      case Some(i) => Ok(AccountTransactions(bank.ledger, bank.accounts[i].number, req))
    else
      match IndexOf(bank.accounts, req.accountNumber.value)
      case None => Err(Failure(InvalidCredentials, AccountMissing))
      case Some(i) =>
        if bank.accounts[i].ownerId != caller.id then Err(Failure(InvalidCredentials, NotOwner))
        else Ok(AccountTransactions(bank.ledger, bank.accounts[i].number, req))
  }

  /** Every row of an account's history is a stored row of that account. */
  lemma AccountRowsBelong(ledger: seq<Txn>, number: string, req: HistoryRequest)
    ensures var rows := AccountTransactions(ledger, number, req);
            forall k :: 0 <= k < |rows| ==> rows[k] in ledger && rows[k].accountNumber == number
  {
    var rows := AccountTransactions(ledger, number, req);
    forall k | 0 <= k < |rows| ensures rows[k] in ledger && rows[k].accountNumber == number {
      assert rows[k] in multiset(rows);
      assert multiset(ledger)[rows[k]] > 0;
    }
  }

  /** A user's history only ever holds rows of an account that user owns. */
  lemma HistoryIsOwn(bank: Bank, req: HistoryRequest, caller: User)
    requires GetTransactionHistory(bank, req, caller).Ok?
    ensures var rows := GetTransactionHistory(bank, req, caller).value;
            forall k :: 0 <= k < |rows| ==>
              rows[k] in bank.ledger
              && exists j :: 0 <= j < |bank.accounts| && bank.accounts[j].number == rows[k].accountNumber
                             && bank.accounts[j].ownerId == caller.id
  {
    var rows := GetTransactionHistory(bank, req, caller).value;
    var i := if NullOrBlank(req.accountNumber) then FirstOwned(bank.accounts, caller.id).value
             else IndexOf(bank.accounts, req.accountNumber.value).value;
    var number := bank.accounts[i].number;
    assert rows == AccountTransactions(bank.ledger, number, req);
    AccountRowsBelong(bank.ledger, number, req);
    forall k | 0 <= k < |rows|
      ensures exists j :: 0 <= j < |bank.accounts| && bank.accounts[j].number == rows[k].accountNumber
                          && bank.accounts[j].ownerId == caller.id
    {
      assert bank.accounts[i].number == rows[k].accountNumber;
    }
  }

  // ---------------------------------------------------------------------------
  // Single rows, and the response records.
  // ---------------------------------------------------------------------------

  /** `TransactionDirection.getValue()`. */
  function DirectionValue(d: Direction): string {
    match d
    case DEBIT => "Money going out"
    case CREDIT => "Money Going In"
  }

  /** `TransactionStatus.getDescription()`. */
  function StatusDescription(s: Status): string {
    match s
    case PENDING => "Transaction is being processed"
    case COMPLETED => "Transaction completed successfully"
    case FAILED => "Transaction failed"
    case CANCELLED => "Transaction was cancelled"
  }

  /** `TransactionDetailResponse`. The type is kept as the constant, since
      the enum file declares no description for the services' constants. */
  datatype TxnDetail = TxnDetail(
    id: nat,
    referenceNumber: string,
    transferReference: Option<string>,
    amount: Cents,
    transactionType: TxnType,
    transactionDirection: string,
    description: string,
    status: string,
    balanceAfter: Cents,
    createdAt: Time.DateTime,
    accountNumber: string)

  /** `convertToDto`. */
  function ToDetail(t: Txn): (d: TxnDetail)
    ensures d.id == t.id && d.referenceNumber == t.referenceNumber
    ensures d.transferReference == t.transferReference
    ensures d.amount == t.amount && d.balanceAfter == t.balanceAfter
    ensures d.accountNumber == t.accountNumber && d.createdAt == t.createdAt
    ensures d.transactionDirection == DirectionValue(t.direction)
    ensures d.status == StatusDescription(t.status)
  {
    TxnDetail(t.id, t.referenceNumber, t.transferReference, t.amount, t.txnType,
              DirectionValue(t.direction), t.description, StatusDescription(t.status),
              t.balanceAfter, t.createdAt, t.accountNumber)
  }

  /** The response record loses nothing: the direction and status texts
      are pairwise different, so two rows with the same record are the same
      row. */
  lemma DetailDeterminesRow(a: Txn, b: Txn)
    requires ToDetail(a) == ToDetail(b)
    ensures a == b
  {
  }

  /** `getTransactionById`: a missing row, and a row the caller may not see,
      both raise a plain runtime exception. */
  function GetTransactionById(bank: Bank, id: nat, caller: User): (r: Result<TxnDetail, Failure>)
    ensures (forall k :: 0 <= k < |bank.ledger| ==> bank.ledger[k].id != id) ==>
              r == Err(Failure(RuntimeFailure, TransactionMissing))
    ensures r.Err? ==> r.error.kind == RuntimeFailure
    ensures r.Ok? <==> FindById(bank.ledger, id).Some? && MaySee(bank.accounts, FindById(bank.ledger, id).value, caller)
    ensures r.Ok? ==> exists t :: t in bank.ledger && t.id == id && MaySee(bank.accounts, t, caller)
                                  && r.value == ToDetail(t)
  {
    match FindById(bank.ledger, id)
    case None => Err(Failure(RuntimeFailure, TransactionMissing))
    case Some(t) =>
      if !MaySee(bank.accounts, t, caller) then Err(Failure(RuntimeFailure, TransactionAccessDenied))
      else Ok(ToDetail(t))
  }

  /** `getTransactionByReference`: as by id, on the unique reference. */
  function GetTransactionByReference(bank: Bank, reference: string, caller: User)
    : (r: Result<TxnDetail, Failure>)
    ensures !RefInUse(bank.ledger, reference) ==> r == Err(Failure(RuntimeFailure, TransactionMissing))
    ensures r.Err? ==> r.error.kind == RuntimeFailure
    ensures r.Ok? <==> RefInUse(bank.ledger, reference)
                       && MaySee(bank.accounts, FindByReference(bank.ledger, reference).value, caller)
    ensures r.Ok? ==> exists t :: t in bank.ledger && t.referenceNumber == reference
                                  && MaySee(bank.accounts, t, caller) && r.value == ToDetail(t)
  {
    match FindByReference(bank.ledger, reference)
    case None => Err(Failure(RuntimeFailure, TransactionMissing))
    case Some(t) =>
      if !MaySee(bank.accounts, t, caller) then Err(Failure(RuntimeFailure, TransactionAccessDenied))
      else Ok(ToDetail(t))
  }

  /** On a store with unique references, a user who is not an administrator
      reads a row by its reference exactly when the row's account is theirs. */
  lemma ReferenceLookupIsOwnerOnly(bank: Bank, k: nat, caller: User)
    requires Domain.Valid(bank)
    requires k < |bank.ledger|
    requires caller.role == USER
    ensures GetTransactionByReference(bank, bank.ledger[k].referenceNumber, caller).Ok? <==>
              exists j :: 0 <= j < |bank.accounts| && bank.accounts[j].number == bank.ledger[k].accountNumber
                          && bank.accounts[j].ownerId == caller.id
    ensures GetTransactionByReference(bank, bank.ledger[k].referenceNumber, caller).Ok? ==>
              GetTransactionByReference(bank, bank.ledger[k].referenceNumber, caller).value
                == ToDetail(bank.ledger[k])
  {
    ReferenceNamesOneRow(bank.ledger, k);
    var t := bank.ledger[k];
    assert HasNumber(bank.accounts, t.accountNumber);
    var i := IndexOf(bank.accounts, t.accountNumber).value;
    forall j | 0 <= j < |bank.accounts| && bank.accounts[j].number == t.accountNumber
      ensures j == i
    {
      IndexOfStored(bank.accounts, j);
    }
  }

  /** The part of a Spring `Page` the response reads. */
  datatype Page = Page(content: seq<Txn>, number: int, totalPages: int, totalElements: int,
                       hasNext: bool, hasPrevious: bool)

  datatype HistoryResponse = HistoryResponse(
    transactionDetails: seq<TxnDetail>,
    currentPage: int,
    totalPages: int,
    totalElements: int,
    hasNext: bool,
    hasPrevious: bool)

  /** `buildTransactionHistoryResponse`: one record per row, in the page's
      order, and the page's counters. */
  function BuildResponse(page: Page): (r: HistoryResponse)
    ensures |r.transactionDetails| == |page.content|
    ensures forall k :: 0 <= k < |page.content| ==> r.transactionDetails[k] == ToDetail(page.content[k])
    ensures r.currentPage == page.number && r.totalPages == page.totalPages
    ensures r.hasNext == page.hasNext && r.hasPrevious == page.hasPrevious
    ensures -0x8000_0000 <= page.totalElements < 0x8000_0000 ==> r.totalElements == page.totalElements
  {
    HistoryResponse(Details(page.content), page.number, page.totalPages, ToInt32(page.totalElements),
                    page.hasNext, page.hasPrevious)
  }

  function Details(rows: seq<Txn>): (r: seq<TxnDetail>)
    ensures |r| == |rows|
    ensures forall k :: 0 <= k < |rows| ==> r[k] == ToDetail(rows[k])
  {
    if rows == [] then [] else [ToDetail(rows[0])] + Details(rows[1..])
  }

  /** The records of a page identify its rows: converting is injective, so
      the page can be read back from the response. */
  lemma {:induction false} ResponseDeterminesPage(p: Page, q: Page)
    requires BuildResponse(p).transactionDetails == BuildResponse(q).transactionDetails
    ensures p.content == q.content
  {
    forall k | 0 <= k < |p.content|
      ensures p.content[k] == q.content[k]
    {
      DetailDeterminesRow(p.content[k], q.content[k]);
    }
  }
}

=== FILE: transaction_repository.dfy ===
/** `TransactionRepository`: the ledger queries as selections over the ledger.
    A selection keeps the ledger's rows that belong to the queried account
    (or to any account, for the administrator's queries) and pass every
    non-null bound; the query's `Pageable` then orders them newest first.
    Results here are the whole ordered selection, before it is cut into
    pages. */
module TransactionRepository {

  import opened Wrappers
  import opened Domain
  import Time

  /** The optional bounds of `findTransactionsWithFilters`; `None` stands for
      a null parameter. */
  datatype Filter = Filter(
    startDate: Option<Time.DateTime>,
    endDate: Option<Time.DateTime>,
    txnType: Option<TxnType>,
    direction: Option<Direction>,
    minAmount: Option<Cents>,
    maxAmount: Option<Cents>)

  const NoFilter := Filter(None, None, None, None, None, None)

  /** One account's rows, or every row. */
  datatype Scope = OneAccount(number: string) | AllAccounts

  /** The point in time a row was created; `LocalDateTime` comparisons in a
      query are comparisons of these. */
  function Key(t: Txn): int {
    Time.Instant(t.createdAt)
  }

  predicate InScope(scope: Scope, t: Txn) {
    scope.AllAccounts? || t.accountNumber == scope.number
  }

  /** A null bound constrains nothing; each present bound is inclusive. */
  predicate Admits(f: Filter, t: Txn) {
    && (f.startDate.None? || Time.Instant(f.startDate.value) <= Key(t))
    && (f.endDate.None? || Key(t) <= Time.Instant(f.endDate.value))
    && (f.txnType.None? || t.txnType == f.txnType.value)
    && (f.direction.None? || t.direction == f.direction.value)
    && (f.minAmount.None? || f.minAmount.value <= t.amount)
    && (f.maxAmount.None? || t.amount <= f.maxAmount.value)
  }

  predicate Keep(scope: Scope, f: Filter, t: Txn) {
    InScope(scope, t) && Admits(f, t)
  }

  // ---------------------------------------------------------------------------
  // Selection and ordering.
  // ---------------------------------------------------------------------------

  /** The rows a query's `WHERE` clause keeps, in ledger order, each as often
      as it is stored. */
  function Where(ledger: seq<Txn>, scope: Scope, f: Filter): (r: seq<Txn>)
    ensures |r| <= |ledger|
    ensures forall t :: multiset(r)[t] == (if Keep(scope, f, t) then multiset(ledger)[t] else 0)
  {
    if ledger == [] then []
    else
      var init := ledger[..|ledger| - 1];
      var last := ledger[|ledger| - 1];
      assert ledger == init + [last];
      Where(init, scope, f) + (if Keep(scope, f, last) then [last] else [])
  }

  /** Rows in non-increasing order of `key`. */
  predicate DescendingBy(rows: seq<Txn>, key: Txn -> int) {
    forall i, j :: 0 <= i < j < |rows| ==> key(rows[j]) <= key(rows[i])
  }

  /** `ORDER BY createdAt DESC`. */
  predicate NewestFirst(rows: seq<Txn>) {
    DescendingBy(rows, Key)
  }

  /** Puts `t` in front of the first row whose key is not above its own. */
  function Insert(t: Txn, rows: seq<Txn>, key: Txn -> int): (r: seq<Txn>)
    ensures multiset(r) == multiset(rows) + multiset{t}
    ensures |r| == |rows| + 1
  {
    if rows == [] then [t]
    else if key(rows[0]) <= key(t) then [t] + rows
    else
      assert rows == [rows[0]] + rows[1..];
      [rows[0]] + Insert(t, rows[1..], key)
  }

  /** A row no smaller than the head of an ordered sequence can go first. */
  lemma ConsDescending(x: Txn, rows: seq<Txn>, key: Txn -> int)
    requires DescendingBy(rows, key)
    requires rows == [] || key(rows[0]) <= key(x)
    ensures DescendingBy([x] + rows, key)
  {
    var r := [x] + rows;
    forall i, j | 0 <= i < j < |r| ensures key(r[j]) <= key(r[i]) {
      if i == 0 {
        assert r[j] == rows[j - 1];
        assert key(rows[j - 1]) <= key(rows[0]);
      } else {
        assert r[i] == rows[i - 1] && r[j] == rows[j - 1];
      }
    }
  }

  lemma TailDescending(rows: seq<Txn>, key: Txn -> int)
    requires DescendingBy(rows, key) && rows != []
    ensures DescendingBy(rows[1..], key)
  {
    forall i, j | 0 <= i < j < |rows[1..]| ensures key(rows[1..][j]) <= key(rows[1..][i]) {
      assert rows[1..][i] == rows[i + 1] && rows[1..][j] == rows[j + 1];
    }
  }

  /** Inserting into an ordered sequence keeps it ordered; the new head is
      either the inserted row or the old head. */
  lemma {:induction false} InsertDescending(t: Txn, rows: seq<Txn>, key: Txn -> int)
    requires DescendingBy(rows, key)
    ensures DescendingBy(Insert(t, rows, key), key)
    ensures Insert(t, rows, key)[0] == t || (|rows| > 0 && Insert(t, rows, key)[0] == rows[0])
  {
    if rows != [] && key(t) < key(rows[0]) {
      TailDescending(rows, key);
      InsertDescending(t, rows[1..], key);
      ConsDescending(rows[0], Insert(t, rows[1..], key), key);
    } else {
      ConsDescending(t, rows, key);
    }
  }

  /** Insertion sort on `key`, largest first. Rows with equal keys come in
      an order the database leaves open; this is one of them. */
  function SortBy(rows: seq<Txn>, key: Txn -> int): (r: seq<Txn>)
    ensures DescendingBy(r, key)
    ensures multiset(r) == multiset(rows)
  {
    if rows == [] then []
    else
      assert rows == [rows[0]] + rows[1..];
      var sorted := SortBy(rows[1..], key);
      InsertDescending(rows[0], sorted, key);
      Insert(rows[0], sorted, key)
  }

  /** A selection ordered newest first. */
  function Find(ledger: seq<Txn>, scope: Scope, f: Filter): (r: seq<Txn>)
    ensures NewestFirst(r)
    ensures forall t :: multiset(r)[t] == (if Keep(scope, f, t) then multiset(ledger)[t] else 0)
  {
    SortBy(Where(ledger, scope, f), Key)
  }

  // ---------------------------------------------------------------------------
  // The declared query methods.
  // ---------------------------------------------------------------------------

  /** `findByAccountIdOrderByCreatedAtDesc`: every row of the account and no
      other, newest first. */
  function FindByAccount(ledger: seq<Txn>, number: string): (r: seq<Txn>)
    ensures NewestFirst(r)
    ensures forall t :: multiset(r)[t] == (if t.accountNumber == number then multiset(ledger)[t] else 0)
    ensures forall k :: 0 <= k < |r| ==> r[k].accountNumber == number && r[k] in ledger
  {
    var r := Find(ledger, OneAccount(number), NoFilter);
    forall k | 0 <= k < |r| ensures r[k].accountNumber == number && r[k] in ledger {
      assert r[k] in multiset(r);
      assert multiset(ledger)[r[k]] > 0;
    }
    r
  }

  /** `findTransactionsWithFilters`: the account's rows that pass every
      present bound, newest first. */
  function FindWithFilters(ledger: seq<Txn>, number: string, f: Filter): (r: seq<Txn>)
    ensures NewestFirst(r)
    ensures forall t :: multiset(r)[t] ==
              (if t.accountNumber == number && Admits(f, t) then multiset(ledger)[t] else 0)
  {
    Find(ledger, OneAccount(number), f)
  }

  /** The date-only filter of the range queries. */
  function DateRange(start: Time.DateTime, end: Time.DateTime): Filter {
    NoFilter.(startDate := Some(start), endDate := Some(end))
  }

  /** `countTransactionsByAccountAndDateRange`: the account's rows created
      within `start..end`, both ends included, counted row by row. */
  function CountInDateRange(ledger: seq<Txn>, number: string,
                            start: Time.DateTime, end: Time.DateTime): (n: nat)
    ensures n <= |ledger|
    ensures Time.Instant(end) < Time.Instant(start) ==> n == 0
  {
    if ledger == [] then 0
    else
      var t := ledger[|ledger| - 1];
      var inRange := t.accountNumber == number
                     && Time.Instant(start) <= Key(t) <= Time.Instant(end);
      CountInDateRange(ledger[..|ledger| - 1], number, start, end) + (if inRange then 1 else 0)
  }

  /** `findByReferenceNumber`, and `findById` on the row id. */
  function FindByReference(ledger: seq<Txn>, reference: string): (r: Option<Txn>)
    ensures r.Some? ==> r.value in ledger && r.value.referenceNumber == reference
    ensures r.None? <==> !RefInUse(ledger, reference)
  {
    if ledger == [] then None
    else if ledger[0].referenceNumber == reference then Some(ledger[0])
    else FindByReference(ledger[1..], reference)
  }

  function FindById(ledger: seq<Txn>, id: nat): (r: Option<Txn>)
    ensures r.Some? ==> r.value in ledger && r.value.id == id
    ensures r.None? <==> forall k :: 0 <= k < |ledger| ==> ledger[k].id != id
  {
    if ledger == [] then None
    else if ledger[0].id == id then Some(ledger[0])
    else FindById(ledger[1..], id)
  }

  // ---------------------------------------------------------------------------
  // Properties.
  // ---------------------------------------------------------------------------

  /** `g` keeps every bound `f` sets, and may set more. */
  predicate Tighter(g: Filter, f: Filter) {
    && (f.startDate.None? || g.startDate == f.startDate)
    && (f.endDate.None? || g.endDate == f.endDate)
    && (f.txnType.None? || g.txnType == f.txnType)
    && (f.direction.None? || g.direction == f.direction)
    && (f.minAmount.None? || g.minAmount == f.minAmount)
    && (f.maxAmount.None? || g.maxAmount == f.maxAmount)
  }

  /** Adding bounds never lets a row in: the tighter selection is a
      sub-multiset of the looser one, row by row. */
  lemma TighterSelectsFewer(ledger: seq<Txn>, scope: Scope, f: Filter, g: Filter)
    requires Tighter(g, f)
    ensures multiset(Where(ledger, scope, g)) <= multiset(Where(ledger, scope, f))
    ensures |Find(ledger, scope, g)| <= |Find(ledger, scope, f)|
  {
    var wg, wf := Where(ledger, scope, g), Where(ledger, scope, f);
    forall t ensures multiset(wg)[t] <= multiset(wf)[t] {
      assert Keep(scope, g, t) ==> Keep(scope, f, t);
    }
    SubMultisetSmaller(multiset(wg), multiset(wf));
    assert |Find(ledger, scope, g)| == |multiset(Find(ledger, scope, g))| == |multiset(wg)|;
    assert |Find(ledger, scope, f)| == |multiset(Find(ledger, scope, f))| == |multiset(wf)|;
  }

  lemma SubMultisetSmaller(a: multiset<Txn>, b: multiset<Txn>)
    requires a <= b
    ensures |a| <= |b|
  {
    assert b == a + (b - a);
  }

  /** Every filtered query returns a part of the account's unfiltered
      history, and with no bound at all it returns all of it. */
  lemma FiltersNarrowHistory(ledger: seq<Txn>, number: string, f: Filter)
    ensures multiset(FindWithFilters(ledger, number, f)) <= multiset(FindByAccount(ledger, number))
    ensures multiset(FindWithFilters(ledger, number, NoFilter)) == multiset(FindByAccount(ledger, number))
  {
    TighterSelectsFewer(ledger, OneAccount(number), NoFilter, f);
  }

  /** The count query counts exactly the rows the date-only selection
      returns. */
  lemma CountIsDateSelection(ledger: seq<Txn>, number: string, start: Time.DateTime, end: Time.DateTime)
    ensures CountInDateRange(ledger, number, start, end)
            == |Where(ledger, OneAccount(number), DateRange(start, end))|
            == |FindWithFilters(ledger, number, DateRange(start, end))|
  {
    CountIsDateWhere(ledger, number, start, end);
    FindKeepsSize(ledger, OneAccount(number), DateRange(start, end));
  }

  lemma {:induction false} CountIsDateWhere(ledger: seq<Txn>, number: string,
                                            start: Time.DateTime, end: Time.DateTime)
    ensures CountInDateRange(ledger, number, start, end)
            == |Where(ledger, OneAccount(number), DateRange(start, end))|
  {
    if ledger != [] {
      var scope, f := OneAccount(number), DateRange(start, end);
      var init := ledger[..|ledger| - 1];
      var last := ledger[|ledger| - 1];
      CountIsDateWhere(init, number, start, end);
      assert Keep(scope, f, last) <==>
             last.accountNumber == number && Time.Instant(start) <= Key(last) <= Time.Instant(end);
      assert Where(ledger, scope, f) == Where(init, scope, f) + (if Keep(scope, f, last) then [last] else []);
    }
  }

  /** Ordering a selection neither adds nor drops a row. */
  lemma FindKeepsSize(ledger: seq<Txn>, scope: Scope, f: Filter)
    ensures |Find(ledger, scope, f)| == |Where(ledger, scope, f)|
  {
    assert |Find(ledger, scope, f)| == |multiset(Find(ledger, scope, f))|;
  }

  /** The reference column is unique, so a reference names at most one row
      and the lookup returns it. */
  lemma {:induction false} ReferenceNamesOneRow(ledger: seq<Txn>, k: nat)
    requires DistinctReferences(ledger)
    requires k < |ledger|
    ensures FindByReference(ledger, ledger[k].referenceNumber) == Some(ledger[k])
  {
    if k > 0 {
      assert DistinctReferences(ledger[1..]) by {
        forall i, j | 0 <= i < j < |ledger[1..]|
          ensures ledger[1..][i].referenceNumber != ledger[1..][j].referenceNumber
        {
          assert ledger[1..][i] == ledger[i + 1] && ledger[1..][j] == ledger[j + 1];
        }
      }
      ReferenceNamesOneRow(ledger[1..], k - 1);
    }
  }
}

=== FILE: transfer.dfy ===
/** `TransferServiceImpl.transferMoney`: money moves from a sender account to
    a receiver account, leaving one debit row and one credit row. */
module TransferService {

  import opened Wrappers
  import opened Domain
  import opened References
  import opened Text
  import Time

  /** The request as it arrives; every field may be null. */
  datatype TransferRequest = TransferRequest(
    senderAccountNumber: Option<string>,
    receiverAccountNumber: Option<string>,
    amount: Option<Cents>,
    transactionPin: Option<string>,
    notes: Option<string>)

  /** The authenticated caller. */
  datatype Caller = Caller(id: nat, role: Role)

  /** The four random UUIDs a transfer draws, in the order the code draws
      them: the two pre-generated transfer references, then the debit row's
      and the credit row's own references. */
  datatype TransferUuids = TransferUuids(debitRef: string, creditRef: string,
                                         debitRow: string, creditRow: string)

  predicate ValidUuids(u: TransferUuids) {
    IsUuidText(u.debitRef) && IsUuidText(u.creditRef) && IsUuidText(u.debitRow) && IsUuidText(u.creditRow)
  }

  /** `TransferResponse`. */
  datatype TransferReceipt = TransferReceipt(
    transferReference: string,
    senderAccountNumber: string,
    receiverAccountNumber: string,
    amount: Cents,
    notes: Option<string>,
    status: string,
    senderBalanceAfter: Cents,
    transactionDate: Time.DateTime)

  const Prefix: string := "TXN"

  /** `validateTransferRequest`: the shape checks made before any lookup.
      `None` means the request passed them all. */
  function CheckRequest(req: TransferRequest): (o: Option<Failure>)
    ensures NullOrBlank(req.senderAccountNumber) ==> o == Some(Failure(InvalidAccount, SenderRequired))
    ensures !NullOrBlank(req.senderAccountNumber) && NullOrBlank(req.receiverAccountNumber) ==>
              o == Some(Failure(InvalidAccount, ReceiverRequired))
    ensures !NullOrBlank(req.senderAccountNumber) && !NullOrBlank(req.receiverAccountNumber)
            && (req.amount.None? || req.amount.value <= 0) ==>
              o == Some(Failure(InvalidAccount, AmountNotPositive))
    ensures !NullOrBlank(req.senderAccountNumber) && !NullOrBlank(req.receiverAccountNumber)
            && req.amount.Some? && req.amount.value > 0 && NullOrBlank(req.transactionPin) ==>
              o == Some(Failure(InvalidPin, PinRequired))
    ensures o.None? <==>
              && !NullOrBlank(req.senderAccountNumber)
              && !NullOrBlank(req.receiverAccountNumber)
              && req.amount.Some? && req.amount.value > 0
              && !NullOrBlank(req.transactionPin)
              && !EqualsIgnoreCase(Trim(req.senderAccountNumber.value), Trim(req.receiverAccountNumber.value))
    ensures o.Some? && o.value.reason == SameAccount ==>
              EqualsIgnoreCase(Trim(req.senderAccountNumber.value), Trim(req.receiverAccountNumber.value))
  {
    if NullOrBlank(req.senderAccountNumber) then Some(Failure(InvalidAccount, SenderRequired))
    else if NullOrBlank(req.receiverAccountNumber) then Some(Failure(InvalidAccount, ReceiverRequired))
    else if req.amount.None? || req.amount.value <= 0 then Some(Failure(InvalidAccount, AmountNotPositive))
    else if NullOrBlank(req.transactionPin) then Some(Failure(InvalidPin, PinRequired))
    else if EqualsIgnoreCase(Trim(req.senderAccountNumber.value), Trim(req.receiverAccountNumber.value))
    then Some(Failure(InvalidAccount, SameAccount))
    else None
  }

  predicate Accepted(req: TransferRequest) {
    CheckRequest(req).None?
  }

  /** The sender is looked up by its trimmed number. */
  function SenderKey(req: TransferRequest): string
    requires Accepted(req)
  {
    Trim(req.senderAccountNumber.value)
  }

  function ReceiverKey(req: TransferRequest): string
    requires Accepted(req)
  {
    Trim(req.receiverAccountNumber.value)
  }

  /** An administrator may move money out of any account. */
  predicate MayDebit(a: Account, caller: Caller) {
    a.ownerId == caller.id || caller.role == ADMIN
  }

  /** `validateSenderAccount` passes. */
  predicate SenderOk(bank: Bank, req: TransferRequest, caller: Caller) {
    && Accepted(req)
    && HasNumber(bank.accounts, SenderKey(req))
    && var a := bank.accounts[IndexOf(bank.accounts, SenderKey(req)).value];
    && MayDebit(a, caller) && a.active
  }

  /** `validateReceiverAccount` passes: the receiver exists and is active;
      whom it belongs to is never asked. */
  predicate ReceiverOk(bank: Bank, req: TransferRequest) {
    && Accepted(req)
    && HasNumber(bank.accounts, ReceiverKey(req))
    && bank.accounts[IndexOf(bank.accounts, ReceiverKey(req)).value].active
  }

  function Sender(bank: Bank, req: TransferRequest): Account
    requires Accepted(req) && HasNumber(bank.accounts, SenderKey(req))
  {
    bank.accounts[IndexOf(bank.accounts, SenderKey(req)).value]
  }

  /** `validateTransactionPin` passes for the sender. */
  predicate PinOk(bank: Bank, req: TransferRequest, matches: (string, string) -> bool)
    requires Accepted(req) && HasNumber(bank.accounts, SenderKey(req))
  {
    var a := Sender(bank, req);
    a.pinHash.Some? && matches(req.transactionPin.value, a.pinHash.value)
  }

  /** Numbers that agree after trimming are equal ignoring case, so an
      accepted request names two different accounts. */
  lemma AcceptedKeysDiffer(req: TransferRequest)
    requires Accepted(req)
    ensures SenderKey(req) != ReceiverKey(req)
  {
  }

  /** Steps 5-8 of the transfer as the service numbers them, once every
      guard has passed: both balances
      move by `amount` and the two legs are appended, the debit leg first.
      Each leg's `transferReference` is a pre-generated value of the other
      side, not the other leg's own reference, so the legs are not linked to
      each other. */
  function Settle(bank: Bank, si: nat, ri: nat, amount: Cents, notes: Option<string>,
                  debitRef: string, creditRef: string, debitRowRef: string, creditRowRef: string,
                  now: Time.DateTime): (after: Bank)
    requires si < |bank.accounts| && ri < |bank.accounts| && si != ri
    ensures Transferred(bank.accounts, after.accounts, si, ri, amount)
    ensures after.users == bank.users
    ensures |after.ledger| == |bank.ledger| + 2
    ensures after.ledger[..|bank.ledger|] == bank.ledger
    ensures var debit := after.ledger[|bank.ledger|];
            && debit.id == |bank.ledger| + 1
            && debit.accountNumber == bank.accounts[si].number
            && debit.amount == amount
            && debit.txnType == TRANSFER && debit.direction == DEBIT && debit.status == COMPLETED
            && debit.balanceAfter == after.accounts[si].balance
            && debit.description == NotedDescription("Transfer to ", notes, "N/A")
            && debit.referenceNumber == debitRowRef
            && debit.transferReference == Some(creditRef)
            && debit.createdAt == now
    ensures var credit := after.ledger[|bank.ledger| + 1];
            && credit.id == |bank.ledger| + 2
            && credit.accountNumber == bank.accounts[ri].number
            && credit.amount == amount
            && credit.txnType == TRANSFER && credit.direction == CREDIT && credit.status == COMPLETED
            && credit.balanceAfter == after.accounts[ri].balance
            && credit.description == NotedDescription("Transfer from ", notes, "N/A")
            && credit.referenceNumber == creditRowRef
            && credit.transferReference == Some(debitRef)
            && credit.createdAt == now
  {
    var sender := bank.accounts[si];
    var receiver := bank.accounts[ri];
    var debit := Txn(|bank.ledger| + 1, sender.number, amount, TRANSFER, DEBIT,
                     NotedDescription("Transfer to ", notes, "N/A"), debitRowRef, Some(creditRef),
                     COMPLETED, sender.balance - amount, now);
    var credit := Txn(|bank.ledger| + 2, receiver.number, amount, TRANSFER, CREDIT,
                      NotedDescription("Transfer from ", notes, "N/A"), creditRowRef, Some(debitRef),
                      COMPLETED, receiver.balance + amount, now);
    var accounts := SetBalance(SetBalance(bank.accounts, si, sender.balance - amount), ri, receiver.balance + amount);
    bank.(accounts := accounts, ledger := bank.ledger + [debit, credit])
  }

  /** Steps 9-10: the two rows and the two accounts are saved together; a reference that clashes
      with a stored one, or with the other row's, makes the insert fail and
      the whole transfer roll back. */
  function Commit(bank: Bank, req: TransferRequest, si: nat, ri: nat, u: TransferUuids,
                  now: Time.DateTime): (r: Result<(Bank, TransferReceipt), Failure>)
    requires ValidUuids(u) && Accepted(req)
    requires si < |bank.accounts| && ri < |bank.accounts| && si != ri
    ensures r.Ok? <==>
              && !RefInUse(bank.ledger, Reference(Prefix, u.debitRow))
              && !RefInUse(bank.ledger, Reference(Prefix, u.creditRow))
              && Reference(Prefix, u.debitRow) != Reference(Prefix, u.creditRow)
    ensures r.Err? ==> r.error == Failure(DataIntegrityViolation, DuplicateReference)
    ensures r.Ok? ==>
              var amount := req.amount.value;
              var receipt := r.value.1;
              && r.value.0 == Settle(bank, si, ri, amount, req.notes,
                                     Reference(Prefix, u.debitRef), Reference(Prefix, u.creditRef),
                                     Reference(Prefix, u.debitRow), Reference(Prefix, u.creditRow), now)
              && receipt.transferReference == Reference(Prefix, u.debitRef)
              && receipt.senderAccountNumber == req.senderAccountNumber.value
              && receipt.receiverAccountNumber == req.receiverAccountNumber.value
              && receipt.amount == amount
              && receipt.notes == req.notes
              && receipt.status == "COMPLETED"
              && receipt.senderBalanceAfter == r.value.0.accounts[si].balance
  {
    var amount := req.amount.value;
    var debitRef := Reference(Prefix, u.debitRef);
    var creditRef := Reference(Prefix, u.creditRef);
    var debitRowRef := Reference(Prefix, u.debitRow);
    var creditRowRef := Reference(Prefix, u.creditRow);
    if RefInUse(bank.ledger, debitRowRef) || RefInUse(bank.ledger, creditRowRef)
       || debitRowRef == creditRowRef
    then Err(Failure(DataIntegrityViolation, DuplicateReference))
    else
      var after := Settle(bank, si, ri, amount, req.notes, debitRef, creditRef,
                          debitRowRef, creditRowRef, now);
      Ok((after, TransferReceipt(debitRef, req.senderAccountNumber.value,
                                 req.receiverAccountNumber.value, amount, req.notes,
                                 "COMPLETED", after.accounts[si].balance, now)))
  }

  /** The guards run in the order: request shape, sender (existence, then
      ownership unless the caller is an administrator, then activity),
      receiver (existence, then activity), stored PIN, PIN match, funds,
      and then the insert. */
  function TransferMoney(bank: Bank, req: TransferRequest, caller: Caller,
                         matches: (string, string) -> bool, u: TransferUuids, now: Time.DateTime)
    : (r: Result<(Bank, TransferReceipt), Failure>)
    requires ValidUuids(u)
    // request shape first, before any lookup
    ensures CheckRequest(req).Some? ==> r == Err(CheckRequest(req).value)
    // the sender
    ensures Accepted(req) && !HasNumber(bank.accounts, SenderKey(req)) ==>
              r == Err(Failure(InvalidAccount, SenderNotFound))
    ensures Accepted(req) && HasNumber(bank.accounts, SenderKey(req))
            && !MayDebit(Sender(bank, req), caller) ==>
              r == Err(Failure(InvalidAccount, NoTransferPermission))
    ensures Accepted(req) && HasNumber(bank.accounts, SenderKey(req))
            && MayDebit(Sender(bank, req), caller) && !Sender(bank, req).active ==>
              r == Err(Failure(InvalidAccount, SenderInactive))
    // the receiver
    ensures SenderOk(bank, req, caller) && !HasNumber(bank.accounts, ReceiverKey(req)) ==>
              r == Err(Failure(InvalidAccount, ReceiverNotFound))
    ensures SenderOk(bank, req, caller) && HasNumber(bank.accounts, ReceiverKey(req)) && !ReceiverOk(bank, req) ==>
              r == Err(Failure(InvalidAccount, ReceiverInactive))
    // the PIN
    ensures SenderOk(bank, req, caller) && ReceiverOk(bank, req) && Sender(bank, req).pinHash.None? ==>
              r == Err(Failure(InvalidPin, PinNotSet))
    ensures SenderOk(bank, req, caller) && ReceiverOk(bank, req) && Sender(bank, req).pinHash.Some?
            && !PinOk(bank, req, matches) ==>
              r == Err(Failure(InvalidPin, PinMismatch))
    // the funds
    ensures SenderOk(bank, req, caller) && ReceiverOk(bank, req) && PinOk(bank, req, matches)
            && Sender(bank, req).balance < req.amount.value ==>
              r == Err(Failure(InsufficientFunds, BalanceTooLow))
    ensures r.Ok? <==>
              && SenderOk(bank, req, caller) && ReceiverOk(bank, req) && PinOk(bank, req, matches)
              && Sender(bank, req).balance >= req.amount.value
              && !RefInUse(bank.ledger, Reference(Prefix, u.debitRow))
              && !RefInUse(bank.ledger, Reference(Prefix, u.creditRow))
              && Reference(Prefix, u.debitRow) != Reference(Prefix, u.creditRow)
    ensures r.Err? && r.error.kind == DataIntegrityViolation ==>
              || RefInUse(bank.ledger, Reference(Prefix, u.debitRow))
              || RefInUse(bank.ledger, Reference(Prefix, u.creditRow))
              || Reference(Prefix, u.debitRow) == Reference(Prefix, u.creditRow)
    ensures r.Ok? ==>
              var si := IndexOf(bank.accounts, SenderKey(req)).value;
              var ri := IndexOf(bank.accounts, ReceiverKey(req)).value;
              var amount := req.amount.value;
              var receipt := r.value.1;
              && si != ri
              && r.value.0 == Settle(bank, si, ri, amount, req.notes,
                                     Reference(Prefix, u.debitRef), Reference(Prefix, u.creditRef),
                                     Reference(Prefix, u.debitRow), Reference(Prefix, u.creditRow), now)
              && r.value.0.accounts[si].balance >= 0
              && receipt.transferReference == Reference(Prefix, u.debitRef)
              && receipt.senderAccountNumber == req.senderAccountNumber.value
              && receipt.receiverAccountNumber == req.receiverAccountNumber.value
              && receipt.amount == amount
              && receipt.notes == req.notes
              && receipt.status == "COMPLETED"
              && receipt.senderBalanceAfter == r.value.0.accounts[si].balance
  {
    match CheckRequest(req)
    case Some(f) => Err(f)
    case None =>
      var amount := req.amount.value;
      match IndexOf(bank.accounts, SenderKey(req))
      case None => Err(Failure(InvalidAccount, SenderNotFound))
      case Some(si) =>
        var sender := bank.accounts[si];
        if !MayDebit(sender, caller) then Err(Failure(InvalidAccount, NoTransferPermission))
        else if !sender.active then Err(Failure(InvalidAccount, SenderInactive))
        else
          match IndexOf(bank.accounts, ReceiverKey(req))
          case None => Err(Failure(InvalidAccount, ReceiverNotFound))
          case Some(ri) =>
            var receiver := bank.accounts[ri];
            if !receiver.active then Err(Failure(InvalidAccount, ReceiverInactive))
            else if sender.pinHash.None? then Err(Failure(InvalidPin, PinNotSet))
            else if !matches(req.transactionPin.value, sender.pinHash.value) then Err(Failure(InvalidPin, PinMismatch))
            else if sender.balance < amount then Err(Failure(InsufficientFunds, BalanceTooLow))
            else
              AcceptedKeysDiffer(req);
              Commit(bank, req, si, ri, u, now)
  }
}

=== FILE: withdrawal.dfy ===
/** `WithdrawalServiceImpl.processWithdrawal`: the owner debits one account,
    keeping a minimum balance. */
module WithdrawalService {

  import opened Wrappers
  import opened Domain
  import opened References
  import Time

  /** The reserve every withdrawal must leave behind: KES 10.00. */
  const MinimumBalance: Cents := 1000

  datatype WithdrawalRequest = WithdrawalRequest(
    accountNumber: string,
    amount: Cents,
    notes: Option<string>,
    transactionPin: string)

  /** The guards run in the order: existence, ownership (no administrator
      bypass), activity, stored PIN, PIN match, funds, reserve. Every
      account-side failure raises the insufficient-funds exception. `matches`
      is the password encoder's comparison of a raw PIN with a stored hash. */
  function ProcessWithdrawal(bank: Bank, req: WithdrawalRequest, callerId: nat,
                             matches: (string, string) -> bool, uuid: string, now: Time.DateTime)
    : (r: Result<(Bank, TxnReceipt), Failure>)
    requires req.amount > 0
    requires IsUuidText(uuid)
    ensures !HasNumber(bank.accounts, req.accountNumber) ==>
              r == Err(Failure(InsufficientFunds, AccountMissing))
    ensures HasNumber(bank.accounts, req.accountNumber) ==>
              var a := bank.accounts[IndexOf(bank.accounts, req.accountNumber).value];
              && (a.ownerId != callerId ==> r == Err(Failure(InsufficientFunds, NotOwner)))
              && (a.ownerId == callerId && !a.active ==> r == Err(Failure(InsufficientFunds, AccountInactive)))
              && (a.ownerId == callerId && a.active && a.pinHash.None? ==>
                    r == Err(Failure(InvalidPin, PinNotSet)))
              && (a.ownerId == callerId && a.active && a.pinHash.Some?
                  && !matches(req.transactionPin, a.pinHash.value) ==>
                    r == Err(Failure(InvalidPin, PinMismatch)))
              && (a.ownerId == callerId && a.active && a.pinHash.Some?
                  && matches(req.transactionPin, a.pinHash.value) && a.balance < req.amount ==>
                    r == Err(Failure(InsufficientFunds, BalanceTooLow)))
              && (a.ownerId == callerId && a.active && a.pinHash.Some?
                  && matches(req.transactionPin, a.pinHash.value) && a.balance >= req.amount
                  && a.balance - req.amount < MinimumBalance ==>
                    r == Err(Failure(InsufficientFunds, BelowMinimumBalance)))
    ensures r.Err? && r.error.kind == RuntimeFailure ==>
              r.error.reason == DuplicateReference && RefInUse(bank.ledger, Reference("WTH", uuid))
    ensures r.Ok? <==>
              && HasNumber(bank.accounts, req.accountNumber)
              && var a := bank.accounts[IndexOf(bank.accounts, req.accountNumber).value];
              && a.ownerId == callerId && a.active
              && a.pinHash.Some? && matches(req.transactionPin, a.pinHash.value)
              && a.balance - req.amount >= MinimumBalance
              && !RefInUse(bank.ledger, Reference("WTH", uuid))
    ensures r.Ok? ==>
              var i := IndexOf(bank.accounts, req.accountNumber).value;
              var after := r.value.0;
              var receipt := r.value.1;
              && MovedBy(bank.accounts, after.accounts, i, -req.amount)
              && after.accounts[i].balance >= MinimumBalance
              && after.users == bank.users
              && |after.ledger| == |bank.ledger| + 1
              && after.ledger[..|bank.ledger|] == bank.ledger
              && var row := after.ledger[|bank.ledger|];
              && row.id == |bank.ledger| + 1
              && row.createdAt == now
              && row.accountNumber == req.accountNumber
              && row.amount == req.amount
              && row.txnType == WITHDRAW && row.direction == DEBIT && row.status == COMPLETED
              && row.balanceAfter == after.accounts[i].balance
              && row.transferReference.None?
              && row.description == NotedDescription("ATM Withdrawal - ", req.notes, "Cash withdrawal")
              && row.referenceNumber == Reference("WTH", uuid)
              && IsReference("WTH", row.referenceNumber)
              && !RefInUse(bank.ledger, row.referenceNumber)
              && receipt.referenceNumber == row.referenceNumber
              && receipt.accountNumber == req.accountNumber
              && receipt.amount == req.amount
              && receipt.notes == req.notes
              && receipt.transactionDate == now
              && receipt.transactionType == "WITHDRAWAL"
              && receipt.status == "COMPLETED"
              && receipt.balanceAfter == after.accounts[i].balance
              && receipt.depositSource.None?
  {
    match IndexOf(bank.accounts, req.accountNumber)
    case None => Err(Failure(InsufficientFunds, AccountMissing))
    case Some(i) =>
      var account := bank.accounts[i];
      if account.ownerId != callerId then Err(Failure(InsufficientFunds, NotOwner))
      else if !account.active then Err(Failure(InsufficientFunds, AccountInactive))
      else if account.pinHash.None? then Err(Failure(InvalidPin, PinNotSet))
      else if !matches(req.transactionPin, account.pinHash.value) then Err(Failure(InvalidPin, PinMismatch))
      else if account.balance < req.amount then Err(Failure(InsufficientFunds, BalanceTooLow))
      else if account.balance - req.amount < MinimumBalance then Err(Failure(InsufficientFunds, BelowMinimumBalance))
      else
        var reference := Reference("WTH", uuid);
        if RefInUse(bank.ledger, reference) then Err(Failure(RuntimeFailure, DuplicateReference))
        else
          var newBalance := account.balance - req.amount;
          var row := Txn(|bank.ledger| + 1, account.number, req.amount, WITHDRAW, DEBIT,
                         NotedDescription("ATM Withdrawal - ", req.notes, "Cash withdrawal"), reference, None, COMPLETED, newBalance, now);
          var after := bank.(accounts := SetBalance(bank.accounts, i, newBalance),
                             ledger := bank.ledger + [row]);
          Ok((after, TxnReceipt(reference, req.accountNumber, req.amount, "WITHDRAWAL", req.notes,
                                "COMPLETED", newBalance, now, None)))
  }
}

=== FILE: wrappers.dfy ===
/** Failure-compatible wrappers: `Option` stands for a Java reference that may be
    null, `Result` for a call that either returns or throws. */
module Wrappers {

  datatype Option<+T> = None | Some(value: T) {
    predicate IsFailure() {
      None?
    }

    function PropagateFailure<U>(): Option<U>
      requires None?
    {
      None
    }

    function Extract(): T
      requires Some?
    {
      value
    }

    function GetOr(default: T): T {
      match this
      case Some(v) => v
      case None => default
    }
  }

  datatype Result<+R, +E> = Ok(value: R) | Err(error: E) {
    predicate IsFailure() {
      Err?
    }

    function PropagateFailure<U>(): Result<U, E>
      requires Err?
    {
      Err(error)
    }

    function Extract(): R
      requires Ok?
    {
      value
    }
  }
}
